=== FILE: README.md ===
# AI Code Analyzer — a Dafny model of its core

AI Code Analyzer takes a pasted code submission and splits it into chunks. It asks an
external reasoning service for four analyses of every chunk: semantic understanding,
correctness, edge cases and test cases. It merges the answers into one report and
serves that report through a job-tracking HTTP backend to a browser front end.

This project models that core as pure Dafny functions and methods and proves properties
about them.

| module | file | models |
|---|---|---|
| `Outcomes` | `outcomes.dfy` | `Option` and `Result` wrappers |
| `Text`, `Numeric` | `text.dfy` | Python's `join`, `split` and `lower`; substring tests; JavaScript `trim()`; decimal rendering; powers of two; sums |
| `Segmenter` | `segmenter.dfy` | the code processor: greedy packing of lines and definitions, the JavaScript block chunker, the single-chunk fallback, `process_code_string` |
| `AnalysisClient` | `analysis_client.dfy` | `AIAnalyzer`: the prompt dispatch, the retrying call with chat-session reuse, the shaping of a reply |
| `Reports`, `Aggregator` | `reports.dfy` | the four-key result dict and `ResultsAggregator.aggregate_results` |
| `Pipeline` | `pipeline.dfy` | `analyze_chunk`, the per-field merge across chunks, `process_code_string`, `run_analysis_from_string`, `analyze_code` and its error dict |
| `RateLimiter` | `rate_limiter.dfy` | the backend's sliding-window rate limiter |
| `JobTracker` | `job_tracker.dfy` | `CodeSubmission` validation and defaults; `submit_code`; `run_analysis_direct`; `get_status` with its progress percentage; `get_results` |
| `ReportFormat` | `report_format.dfy` | the page's `formatAnalysisResults` and the guards of `handleAnalyze` |
| `ApiService` | `api_service.dfy` | the front end's `fetchWithRetry` (backoff and retry decision), `submitCode`, and `getAnalysisResults` polling with its 400 classification |

## How the model represents the outside world

- **The reasoning service and `fetch`.** Both are scripts: a function from the attempt
  number to what that attempt runs into (a reply, whose text may be None, or an exception; or a response or a
  thrown error). Retry loops are recursive functions driven by the decision taken after
  each attempt. They return the delays they would have slept instead of sleeping.
- **Regex and the Python `ast` module.** The sanitiser, the JavaScript block patterns and
  the Python parser are foreign behaviour. Their outputs for one submission are an input,
  a `SyntaxReport`: the sanitised text, the matched blocks, and the unparsed definition
  texts in walk order (or `None` when parsing raised).
- **The page's code-shape patterns.** The looks-like-code test in `handleAnalyze` and
  `new Function(code)` in `submitCode` are also inputs: a boolean and an optional
  syntax-error message.
- **Clocks and job ids.** Clock readings are integer microseconds and job ids are
  parameters.
- **Request order.** Requests are handled one at a time.
- **One session for a whole run.** The pipeline's chunks are analysed one after another
  through one analyzer, so the chat session is threaded from each call to the next.

## The code as written

Where the system's description and its code differ, the model follows the code:

- **A failed job's error is withheld.** `get_results` answers a failed job with 400
  "Analysis not completed", not its error text. On the front end that looks exactly like
  a job still running, so the page polls it five more times and then reports that the
  analysis is taking longer than expected (`ApiService.FailedJobTimesOut`).
- **The progress heuristic always says "submitting".** A processing job has no results
  stored until its run ends (`JobTracker.Inv`). So the heuristic always reports
  `submitting` at 0 per cent (`JobTracker.UnfinishedJobAtStart`). The front end never
  asks for the status anyway.
- **A still-running job is not polled again.** A job still processing has no results
  entry, so `get_results` answers 404 "Results not found". `getAnalysisResults` rethrows
  that 404 after a single poll (`ApiService.NotFoundNotPolled`). Re-polling happens only
  for the 400 "Analysis not completed" that a failed job gets.
- **The pipeline always chunks as Python.** It asks the code processor with its default
  language, `python`. So even a JavaScript submission is chunked by the Python chunker,
  and every chunk is named `unnamed_code.py` (`Pipeline.ChunksArePython`).
- **Some HTTP errors count as timeouts or network errors.** `fetchWithRetry` decides by
  the text of the error it threw itself. An HTTP error whose reason mentions `timeout` is
  therefore retried as a timeout (`ApiService.TimeoutInReasonRetried`), and one whose
  reason mentions `NetworkError` is retried as a network error.
- **A reply without text fails the whole job.** The service's `response.text` is None
  when a reply has no candidate or no parts, as for a blocked prompt. `analyze_code`
  stores that None as the reply's `response`. `analyze_chunk`'s `.get('response', …)`
  passes the present None on instead of the fallback. The `"\n\n".join` of the merge then
  raises `TypeError`. `analyze_code` turns that into the error dict, and the job fails
  (`Pipeline.Merge`, `JobTracker.RunAnalysisDirect`).
- **Python chunk sizes ignore the joining newlines.** The size bound of a Python chunk
  counts only the definitions' lengths, not the newlines that join them
  (`Segmenter.PythonChunkFits`).

## Model

| member | source | states |
|---|---|---|
| Segmenter.PackAll | backend/code_analyzer/code_processor.py:176-204 | the buffer-and-flush loop yields a greedy packing of its items (contiguous non-empty groups in order, every multi-item group within the limit, each group closed only because the next item would overflow it), and no groups exactly when there are no items |
| Segmenter.GreedyPackingUnique | backend/code_analyzer/code_processor.py:176-204 | any two greedy packings of the same items are equal, so the loop's packing is the only one |
| Segmenter.GreedyPackingEmpty | backend/code_analyzer/code_processor.py:195-206 | a greedy packing is empty exactly when the items are, and has no more groups than items |
| Segmenter.Extension | backend/code_analyzer/code_processor.py:168 | the extension is `.js` for a language that lower-cases to `javascript` and `.py` otherwise |
| Segmenter.LineCount | backend/code_analyzer/code_processor.py:215 | the number of `split('\n')` pieces is the newline count plus one |
| Segmenter.CreateSingleChunk | backend/code_analyzer/code_processor.py:208-218 | the chunk holds the whole text with its newline count plus one as line count, the given language, and the `.js` name exactly for JavaScript |
| Segmenter.ChunkCodeSimple | backend/code_analyzer/code_processor.py:163-206 | at least one chunk; the chunks joined by newlines give back the code; they are the greedy packing of its lines at length-plus-one per line; each chunk's line count matches its text; a multi-line chunk plus its newline fits the limit; empty code gives one empty one-line chunk |
| Segmenter.LineCostIsLength | backend/code_analyzer/code_processor.py:177 | the summed per-line cost of a group is the length of its newline join plus one |
| Segmenter.DefinitionCostIsLength | backend/code_analyzer/code_processor.py:98-113 | the summed definition cost of a group is its newline join's length less the joining newlines |
| Segmenter.ChunkPython | backend/code_analyzer/code_processor.py:87-125 | no definitions gives the single Python chunk of the whole text; otherwise the chunks are the greedy packing of the definitions and join back to them; every chunk is named `unnamed_code.py`, in Python, with its true line count |
| Segmenter.PythonChunkFits | backend/code_analyzer/code_processor.py:98-113 | a chunk of two or more definitions fits the limit only once the joining newlines are discounted |
| Segmenter.ChunkJavaScript | backend/code_analyzer/code_processor.py:127-161 | one chunk per matched block, in order, holding exactly that block with its line count; no blocks gives the single JavaScript chunk of the whole text |
| Segmenter.ProcessCodeString | backend/code_analyzer/code_processor.py:15-39 | at least one chunk; for a language that lower-cases to `javascript` the chunks hold exactly the matched blocks, or the single JavaScript chunk of the sanitised text when none matched; otherwise parsed definitions give the greedy packing of the definitions (the single Python chunk when there are none), and a parse failure gives the greedy line packing of the sanitised text, joining back to it, with the given language |
| AnalysisClient.ChatAfter | backend/code_analyzer/ai_analyzer.py:105-146 | a reply leaves a session; a session is dropped only by an exception naming `Chats.create()`; one appears only when the attempt created it |
| AnalysisClient.CallFromFacts | backend/code_analyzer/ai_analyzer.py:103-146 | a call makes between one attempt and one more than its retries, waits `initial·2^j` before retry `j + 1`, succeeds exactly when its last attempt got a reply and returns that reply's text (None included), and fails only after the last retry, with that attempt's message after `Max retries reached: ` |
| AnalysisClient.MakeApiCall | backend/code_analyzer/ai_analyzer.py:103-146 | the loop form of the call agrees with the recursive one and has the same facts |
| AnalysisClient.CallReturnsFirstReply | backend/code_analyzer/ai_analyzer.py:103-146 | a call succeeds exactly when some attempt up to the last retry gets a reply, and then returns the first such reply's text, None when that reply had none |
| AnalysisClient.DoublingSum | backend/code_analyzer/ai_analyzer.py:131 | delays doubling from `c` total `c·(2^n − 1)` |
| AnalysisClient.TotalWaitBound | backend/code_analyzer/ai_analyzer.py:15-16 | with three retries from one second, a call makes at most four attempts and waits a prefix of 1, 2, 4 seconds, at most 7 in all |
| AnalysisClient.SessionReused | backend/code_analyzer/ai_analyzer.py:107-113 | a call that starts with a session and never sees the reset marker creates none and keeps it |
| AnalysisClient.SessionCreatedOnce | backend/code_analyzer/ai_analyzer.py:107-113 | when no attempt raises an error naming `Chats.create()`, a call that starts without a session creates at most one, and exactly one when it succeeds |
| AnalysisClient.CreatePrompt | backend/code_analyzer/ai_analyzer.py:19-101 | the four known types each get their own instructions, test cases splitting on the lower-cased language being `javascript`; the prompt embeds the code, context and lower-cased language; any other type is `Unknown analysis type: …` |
| AnalysisClient.AnalyzeCode | backend/code_analyzer/ai_analyzer.py:148-174 | an unknown type fails with the prompt's error; otherwise the reply carries the type and the chunk's context, and `response` exactly when the call succeeded (its content) and `error` exactly when it failed (its error) |
| Reports.KeysDistinct | backend/code_analyzer/results_aggregator.py:22-27 | the four report keys are distinct, none is `error`, and they are exactly the keys of the four kinds |
| Reports.ToDict | backend/code_analyzer/pipeline.py:121-126 | a report's dict has exactly the four report keys, each holding its field, and no `error` |
| Aggregator.AggregateResults | backend/code_analyzer/results_aggregator.py:11-27 | succeeds exactly when all four keys are present and then keeps just those four with their values; otherwise raises a `KeyError` naming a missing key |
| Aggregator.AggregateReport | backend/code_analyzer/results_aggregator.py:22-27 | aggregating a report's own dict gives that dict back |
| Pipeline.AnalysisType | backend/code_analyzer/ai_analyzer.py:176-190 | every field is asked with a known analysis type |
| Pipeline.Ask | backend/code_analyzer/pipeline.py:60-81 | a field's text is the first reply's text its call gets, None when that reply carried no text, or the field's fallback when every attempt raised |
| Pipeline.AnalyzeChunk | backend/code_analyzer/pipeline.py:51-85 | each of a chunk's four fields is what its own call gives, in the order semantic, correctness, edge cases, test cases: the first reply's text, None for a reply without text, or the fallback; and the four prompts sent are the chunk's code with its context re-tagged with the pipeline's language, one per analysis type in that order |
| Pipeline.ChunkPrompts | backend/code_analyzer/pipeline.py:54-56 | once tagged with the pipeline's language, every prompt names that language, and the test prompt is the JavaScript one exactly for `javascript` |
| Pipeline.AnalyzeChunks | backend/code_analyzer/pipeline.py:114-115 | one set of answers per chunk, chunk `i`'s fields answered by calls `4i .. 4i + 3` |
| Pipeline.FirstGap | backend/code_analyzer/pipeline.py:121-126 | the position of the first entry without text: every earlier entry has text |
| Pipeline.GapAt | backend/code_analyzer/pipeline.py:121-126 | an entry without text, all earlier entries having text, is the first gap |
| Pipeline.JoinTexts | backend/code_analyzer/pipeline.py:121-126 | the join succeeds exactly when every entry has text; otherwise it raises Python's `TypeError` naming the first entry that is None |
| Pipeline.Merge | backend/code_analyzer/pipeline.py:121-126 | the merge succeeds exactly when every field of every chunk has text, each field then being its texts joined by a blank line; otherwise it raises the `TypeError` of the first gap in the first field, in source order, that has one |
| Pipeline.MergeSingle | backend/code_analyzer/pipeline.py:121-126 | one chunk's answers merge to themselves when all carry text; otherwise the merge raises naming item 0 |
| Pipeline.MergeAppend | backend/code_analyzer/pipeline.py:121-126 | a field of a longer run merges to its halves' merges joined by a blank line; a gap in the first half is reported as there; a gap in the second half is named at its position in the whole run |
| Pipeline.PipelineChunks | backend/code_analyzer/pipeline.py:97-108 | there is always at least one chunk |
| Pipeline.ChunksArePython | backend/code_analyzer/pipeline.py:97-108 | the fallback chunk is never built; every chunk is named as Python; after a parse failure the chunks cover the sanitised text |
| Pipeline.ProcessCodeString | backend/code_analyzer/pipeline.py:87-131 | when every chunk's every field has text, each field of the result is those texts in chunk order joined by blank lines; otherwise the `TypeError` of the first gap escapes |
| Pipeline.RunAnalysisFromString | backend/code_analyzer/pipeline.py:195-210 | when every expected text is present, the result has exactly the four report keys, each holding that field's merged text; otherwise the merge's `TypeError` escapes |
| Pipeline.ErrorDict | backend/code_analyzer/pipeline.py:33-41 | the error dict has the four report keys plus `error`, which holds the message |
| Pipeline.AnalyzeCode | backend/code_analyzer/pipeline.py:13-41 | `error` appears exactly when constructing the client raised or some reply the merge uses carried no text; the result is then the error dict, holding the construction error or the merge's `TypeError`; otherwise it is the four merged fields |
| Pipeline.SingleChunkColumn | backend/code_analyzer/pipeline.py:77-82 | for one chunk a field is its call's first reply's text, or the fallback when all four attempts raised; a first reply without text makes the merge raise naming item 0 |
| RateLimiter.Recent | backend/api.py:64-65 | the pruned list keeps exactly the recorded times still inside the window |
| RateLimiter.RecentAppend | backend/api.py:64-65 | pruning keeps order: pruning a concatenation prunes each part |
| RateLimiter.RecentKeepsAll | backend/api.py:64-65 | pruning a list whose times are all in the window changes nothing |
| RateLimiter.Admit | backend/api.py:58-78 | a first-seen client is recorded and admitted; otherwise its list is pruned and the request rejected with 429 exactly when 100 remain, or recorded and admitted; no other client's list changes |
| RateLimiter.AdmitPreservesBound | backend/api.py:62-75 | no client ever has more than 100 recorded times |
| RateLimiter.BurstBound | backend/api.py:58-78 | requests inside one window are admitted no further than the limit, counting those already recorded |
| RateLimiter.AtMostLimitPerWindow | backend/api.py:29-30 | from a fresh start, a run of one client's requests that fits within one 60-second window gets at most 100 admitted |
| RateLimiter.AdmittedTimes | backend/api.py:58-78 | the admitted times of a run are as many as the run admits, each one of the request times |
| RateLimiter.RecentTwice | backend/api.py:64-65 | pruning at a later time after pruning at an earlier one is the same as pruning once at the later time |
| RateLimiter.SpanWithinRecent | backend/api.py:64-67 | a window holding the current time holds no more of the recorded times than pruning keeps |
| RateLimiter.AdmitTracks | backend/api.py:58-75 | after each request the client's list is exactly the admitted times pruned at that request's time |
| RateLimiter.AdmitKeepsSpan | backend/api.py:58-75 | one more request keeps every 60-second window at no more than 100 admitted times, because a request is admitted only while fewer than 100 times remain after pruning |
| RateLimiter.AtMostLimitInAnyWindow | backend/api.py:29-30 | from a fresh start, with requests in time order, every 60-second window anywhere in the run holds at most 100 admitted requests of one client |
| JobTracker.ParseSubmission | backend/api.py:47-50 | a body is accepted exactly when `code` is present and non-empty; `language` defaults to `python` and `mode` to `full` |
| JobTracker.SubmitCode | backend/api.py:87-111 | the job is marked processing and stamped, its results untouched, and the answer names it with `processing` / `Analysis started` |
| JobTracker.RecordOutcome | backend/api.py:122-135 | the job completes exactly when the run returned a dict without `error`, storing it; otherwise it fails with just the error; no other job changes |
| JobTracker.RunAnalysisDirect | backend/api.py:115-135 | the job completes with the four report keys exactly when the client could be constructed and every reply the merge uses carried text; otherwise it fails, keeping just the construction error or the merge's `TypeError` |
| JobTracker.RecordAnalyzed | backend/api.py:122-135 | recording what `analyze_code` returned completes the job exactly when the client started and every reply had text, with the four report keys; otherwise the job fails, keeping just the construction error or the merge's `TypeError` |
| JobTracker.EmptyStoreInv | backend/api.py:43-45 | the empty stores agree with each other |
| JobTracker.SubmitPreservesInv | backend/api.py:94-96 | submitting a new job keeps the stores in agreement |
| JobTracker.RecordPreservesInv | backend/api.py:122-135 | recording an outcome keeps the stores in agreement |
| JobTracker.CurrentStep | backend/api.py:148-163 | each step exactly when its condition holds: `completed` for a completed job; while processing with results stored, the first filled section in the order correctness, edge cases, semantic, test cases; `submitting` for a failed job, a processing job without results, or one whose results have no filled section |
| JobTracker.IndexOf | backend/api.py:177 | the first position of the step when it is listed, and a `ValueError` otherwise |
| JobTracker.ProgressPercentage | backend/api.py:175-178 | defined exactly for the five listed steps; any other step raises `ValueError` |
| JobTracker.ProgressValues | backend/api.py:175-178 | the five steps give 0, 25, 50, 75, 100, and `completed` raises |
| JobTracker.StepsKnown | backend/api.py:148-163 | the step reported is a listed one or `completed` |
| JobTracker.GetStatus | backend/api.py:137-173 | an unknown id is 404 `Analysis ID not found`; a known job answers exactly when it is not completed, with its status text, its stamp, the step the heuristic picks and that step's progress; otherwise the progress lookup failed and the answer is a server error |
| JobTracker.CompletedStatusFails | backend/api.py:162-177 | asking the status of a completed job fails with a server error |
| JobTracker.ProgressPercentageCorrected | backend/api.py:175-178 | `completed` is at 100; every other step as before |
| JobTracker.CorrectedProgress | backend/api.py:175-178 | every step the status can report has a progress of at most 100, which is 100 exactly for `completed` and `test_cases` |
| JobTracker.GetStatusCorrected | backend/api.py:137-173 | every known job answers with the step the heuristic picks and its corrected progress, at most 100 per cent, a completed job at 100 |
| JobTracker.UnfinishedJobAtStart | backend/api.py:149-161 | with the stores in agreement, an unfinished job is always at `submitting`, 0 per cent |
| JobTracker.GetResults | backend/api.py:180-194 | no results is 404 `Results not found`; results of an unfinished job are 400 `Analysis not completed`; otherwise the stored results |
| JobTracker.ResultsByStatus | backend/api.py:180-194 | with the stores in agreement, a processing job is 404, a failed job 400, and a completed job's results carry no `error` |
| JobTracker.SubmitRunAndAsk | backend/api.py:87-194 | a job that starts and whose replies all carry text yields the four report keys at the results endpoint while its status fails; any other job is 400 at the results endpoint and `failed` at 0 per cent |
| ReportFormat.AnalysisData | frontend/src/app/page.tsx:87 | the nested `results` object when present, else the payload itself |
| ReportFormat.FenceTests | frontend/src/app/page.tsx:109-111 | already-fenced test text is kept; any other is wrapped in a fence tagged with the language |
| ReportFormat.RankOfPart | frontend/src/app/page.tsx:93-112 | each of the four section headings identifies its section |
| ReportFormat.Sections | frontend/src/app/page.tsx:88-113 | the sections are laid out as the page promises: the correctness, edge-case, semantic and test-case sections each appear exactly when their field is truthy, each as `## <title>` and a blank line before the field's text (fenced for the test cases), nothing else appears, and they come in that fixed order; at most four, none exactly when no field is truthy |
| ReportFormat.LaidOutUnique | frontend/src/app/page.tsx:88-113 | for any four section texts that their headings tell apart, a list meeting the layout's conditions from some section on is exactly the present sections from there, in order |
| ReportFormat.PushedLaidOut | frontend/src/app/page.tsx:88-113 | pushing the present sections in order meets the layout's conditions |
| ReportFormat.PartsAreSections | frontend/src/app/page.tsx:91-112 | the section of each truthy field is the text the page pushes for it, the test cases fenced |
| ReportFormat.LayoutEmpty | frontend/src/app/page.tsx:88-116 | a layout is empty exactly when no field is truthy |
| ReportFormat.LayoutUnique | frontend/src/app/page.tsx:88-113 | every list meeting the layout's conditions is the page's list of sections |
| ReportFormat.FormatAnalysisResults | frontend/src/app/page.tsx:78-120 | a falsy input gives the empty text; for an object, for every presence pattern of the four fields, the output is the layout of its truthy sections, in the fixed order, joined by horizontal rules (the layout exists and is unique) |
| ReportFormat.EmptyOutput | frontend/src/app/page.tsx:78-120 | the output is empty exactly when the input is falsy or no field is truthy |
| ReportFormat.FullReportSections | frontend/src/app/page.tsx:91-113 | a full report has its four sections in the order correctness, edge cases, semantic, test cases |
| ReportFormat.FullReportLayout | frontend/src/app/page.tsx:116 | a full report renders as its four sections separated by horizontal rules |
| ReportFormat.EnvelopeTransparent | frontend/src/app/page.tsx:87 | the backend's envelope and its `results` render the same |
| ReportFormat.FenceIdempotent | frontend/src/app/page.tsx:109-111 | a wrapped text counts as fenced and is not wrapped again |
| ReportFormat.FencedContent | frontend/src/app/page.tsx:111 | a wrapped text sits unchanged between the opening line and the closing fence |
| ReportFormat.HandleAnalyze | frontend/src/app/page.tsx:25-47 | empty code and Python or JavaScript that does not look like code are refused with their messages; anything else is submitted unchanged |
| ApiService.Reason | frontend/src/services/api.ts:58 | the body's non-empty `detail`, else the status text |
| ApiService.Thrown | frontend/src/services/api.ts:55-60 | a response that is not ok throws `HTTP error! …`; a fetch error is caught as it was thrown |
| ApiService.BackoffDelay | frontend/src/services/api.ts:45-48 | the wait is `500·2^k` capped at 5000 ms |
| ApiService.BackoffSchedule | frontend/src/services/api.ts:7-9 | the five retries wait 500, 1000, 2000, 4000, 5000 ms, 12.5 s in all |
| ApiService.DecideSpec | frontend/src/services/api.ts:43-95 | an ok response is returned; a 429 with retries left is retried; any other error is retried exactly when it is a network error or timeout with retries left; an error that is not retried, at any attempt, becomes the fixed network or timeout message or is rethrown unchanged |
| ApiService.FetchFromSteps | frontend/src/services/api.ts:11-97 | a call makes between one and six attempts, every attempt but the last retried, the last settling the result, one delay between each two |
| ApiService.FetchFromDelays | frontend/src/services/api.ts:44-51 | the wait before retry `k + 1` is the backoff delay for `k` |
| ApiService.FetchWaits | frontend/src/services/api.ts:44-51 | at most six attempts, waiting a prefix of the schedule, at most 12.5 s |
| ApiService.HttpErrorMentions | frontend/src/services/api.ts:57-75 | an HTTP error mentions `timeout` or `NetworkError` exactly when its reason does |
| ApiService.HttpErrorMentions400 | frontend/src/services/api.ts:152-153 | an HTTP error for status 400 mentions `status: 400` |
| ApiService.HttpErrorNot400 | frontend/src/services/api.ts:197 | an HTTP error for another three-digit status mentions `status: 400` only when its reason does |
| ApiService.PlainHttpErrorSettles | frontend/src/services/api.ts:55-95 | an HTTP error naming no network error or timeout, other than a 429 with retries left, is rethrown as `HTTP error! …` |
| ApiService.PlainHttpErrorNotRetried | frontend/src/services/api.ts:55-95 | such an error ends the call at once: one attempt, no wait |
| ApiService.TimeoutInReasonRetried | frontend/src/services/api.ts:74-92 | an HTTP error whose reason mentions `timeout` is retried while retries remain, then replaced by the fixed timeout message |
| ApiService.AllRetried | frontend/src/services/api.ts:44-51 | five retries and a settling sixth attempt wait the whole schedule |
| ApiService.RateLimitedThroughout | frontend/src/services/api.ts:44-60 | rate-limited on every attempt: six attempts, the whole schedule, then the last 429 rethrown |
| ApiService.ServerUnreachable | frontend/src/services/api.ts:66-90 | unreachable on every attempt: six attempts, the whole schedule, then `Cannot connect …` naming the base URL |
| ApiService.NormalLanguage | frontend/src/services/api.ts:110-112 | `js` and `javascript` become `javascript`; other languages are kept |
| ApiService.SubmitCode | frontend/src/services/api.ts:101-159 | blank code and a JavaScript syntax error are refused before sending; otherwise the code is posted with the normalised language and mode, a response is returned, an error mentioning `status: 400` becomes the invalid-format message, and any other error is passed on |
| ApiService.SubmitJsAlias | frontend/src/services/api.ts:110-112 | submitting as `js` and as `javascript` is the same |
| ApiService.SubmitBadRequest | frontend/src/services/api.ts:151-155 | a plain 400 from the backend becomes the invalid-format message naming the normalised language |
| ApiService.MatchPosition | frontend/src/services/api.ts:199 | the leftmost place where `message: ` is followed by one line up to the end, if any |
| ApiService.DetailOfHttpError | frontend/src/services/api.ts:199-200 | the detail read back from an HTTP error is its reason, when the reason is one line |
| ApiService.ClassifySpec | frontend/src/services/api.ts:196-221 | a response and any error not mentioning `status: 400` are passed on; a 400 is answered only by the three fixed messages |
| ApiService.ClassifyRepolls | frontend/src/services/api.ts:196-206 | a re-poll happens exactly for a 400 whose extracted detail mentions `Analysis not completed`, while re-polls remain |
| ApiService.PollFromSteps | frontend/src/services/api.ts:179-223 | between one and six polls, every poll but the last re-polled, the last giving the answer, one delay between each two |
| ApiService.PollFromDelays | frontend/src/services/api.ts:204-209 | the wait before re-poll `n + 1` is `1000·2^n` ms |
| ApiService.PollBounds | frontend/src/services/api.ts:204-209 | at most six polls, waiting 1, 2, 4, 8, 16 seconds in turn |
| ApiService.PollPassesOn | frontend/src/services/api.ts:188-221 | a results response is the last poll's; an error not mentioning `status: 400` is rethrown as the last poll's fetch threw it |
| ApiService.AllRepolled | frontend/src/services/api.ts:204-209 | five re-polls and an answering sixth poll wait the whole poll schedule |
| ApiService.ClassifyBadRequest | frontend/src/services/api.ts:196-218 | a one-line 400 is classified by its reason: not completed re-polls while re-polls remain, then gives up; a syntax complaint and anything else get their fixed messages |
| ApiService.NotCompletedEachPoll | frontend/src/services/api.ts:202-213 | each poll of a job reported not completed fails at its first attempt and is re-polled while re-polls remain |
| ApiService.NeverCompletedTimesOut | frontend/src/services/api.ts:202-213 | a job never completed gets six polls, the whole poll schedule, then the taking-longer message |
| ApiService.FailedJobTimesOut | frontend/src/services/api.ts:202-213 | a failed job, answered 400 `Analysis not completed`, ends in the taking-longer message after six polls |
| ApiService.OtherErrorNotPolled | frontend/src/services/api.ts:196-221 | another plain error status is rethrown by the first poll: no re-poll |
| ApiService.NotFoundNotPolled | frontend/src/services/api.ts:196-221 | the 404 a processing job gets is rethrown after one poll |

## Left out

- Regex and `ast`: `sanitize_code`, `parse_ast`, `get_node_context`, the JavaScript block
  patterns and the page's looks-like-code patterns are foreign library behaviour. Their
  results are inputs (`SyntaxReport`, `looksLikeCode`).
- `new Function(code)` in `submitCode` is the JavaScript engine's parser. Its outcome is the
  `syntaxError` input.
- The Gemini client, `fetch`, `time.sleep` and `setTimeout`. They are scripts or returned
  delays.
- The 180-second race timeout in `fetchWithRetry` is not modelled. A timeout is one of the
  errors a fetch script can throw.
- `ThreadPoolExecutor` and `BackgroundTasks` concurrency. Chunks and jobs are processed one
  at a time.
- FastAPI routing, CORS, the API-key check, the OpenAPI schema, `uuid`, `datetime` and
  logging. These are framework services; ids and clock readings are parameters.
- The file-path variants `run_analysis`, `process_code` and `process_code_from_file`, and
  the legacy `chunk_code`. The web flow does not use them.
- Prompt wording. A prompt is modelled as its instruction set, language, code and context.
- The `mode` argument. It is accepted and never read.
- `Lower` is ASCII-only. For the comparisons with `javascript` it is exact, since no other
  character lower-cases to one of that word's letters.
- `get_progress_percentage` divides in floating point. Every quotient it forms is exact, so
  integer division gives the same result.
- JSON bodies, non-string `detail` values and thrown values that are not `Error` objects.
- The pipeline raising inside `run_analysis_direct`. `analyze_code` catches every
  exception itself, so `RunAnalysisDirect` never takes its `except` branch. `RecordOutcome`
  still models that branch, for a run given as an error.
- `getAnalysisStatus`. The pages never call it.
- The API base URL. It is a parameter.
- The UI components, `types/api.ts` and `test_runner.py`. They are not part of the core.
- RateLimiter.AtMostLimitInAnyWindow: assumes request times never decrease. A wall clock
  set back could break that, and then the bound is not promised.
- ApiService.Decide: its own contract states only that a retry happens while retries
  remain. The full decision, including the error rethrown unchanged before the last
  retry, is `ApiService.DecideSpec`.
- ApiService.ClassifyResults: its own contract states only that a re-poll happens while
  re-polls remain. `ApiService.ClassifySpec` states what is passed on and that a 400 ends
  in one of three fixed messages; `ApiService.ClassifyRepolls` states exactly when a
  re-poll happens. Which of the three
  a 400 gets is stated by `ApiService.ClassifyBadRequest`, only for errors whose reason
  is a single line.
- ApiService.FetchWithRetry and ApiService.FetchFrom: carry no contract of their own. What a
  call returns and waits is stated by `ApiService.FetchFromSteps`,
  `ApiService.FetchFromDelays` and `ApiService.FetchWaits`, over the decisions of
  `ApiService.DecideSpec`.
- ApiService.GetAnalysisResults and ApiService.PollFrom: carry no contract of their own. What
  polling returns and waits is stated by `ApiService.PollFromSteps`,
  `ApiService.PollFromDelays`, `ApiService.PollBounds` and `ApiService.PollPassesOn`, over
  the decisions of `ApiService.ClassifySpec` and `ApiService.ClassifyRepolls`.

## Findings

| source | as written | input that shows it | evidently intended | confidence | as-written member | corrected member |
|---|---|---|---|---|---|---|
| backend/api.py:162-178 | `get_status` sets the step of a completed job to `completed`. `get_progress_percentage` looks that step up in a list that does not contain it, so `ValueError` escapes and the request fails with HTTP 500. | the status of any completed job | a completed job reports 100 per cent | not executed | JobTracker.CompletedStatusFails | JobTracker.GetStatusCorrected |

=== FILE: analysis_client.dfy ===
/** `AIAnalyzer`: one reasoning-service call with bounded retry, exponential backoff and
    chat-session reuse, plus the prompt dispatch and the shaping of an analysis reply.

    The service is opaque: what each attempt of a call runs into is given as a script
    `nat -> Attempt` (attempt number to outcome), and the backoff delays are returned
    instead of slept.
 */
module AnalysisClient {
  import opened Outcomes
  import opened Text
  import opened Numeric
  import opened Segmenter

  /** `self.max_retries` and `self.initial_retry_delay` (seconds). */
  const MaxRetries: nat := 3
  const InitialRetryDelay: nat := 1

  /** The error text on which the chat session is discarded. */
  const SessionResetMarker: string := "Chats.create()"

  /** What one attempt runs into: the service's reply, or an exception. A reply's `text` is
      the SDK's `response.text`, which is None when the reply has no candidate or no parts
      (a blocked prompt, say). `inCreate` says the exception came from creating the chat
      session; it matters only on an attempt that starts without a session, since no
      session is created otherwise. */
  datatype Attempt = Reply(text: Option<string>) | Raised(message: string, inCreate: bool)

  /** The dict `_make_api_call` returns: `{success: True, content}` or `{success: False, error}`;
      `content` is passed on as the reply gave it, None included. */
  datatype ApiResult = ApiSuccess(content: Option<string>) | ApiFailure(error: string)

  /** The outcome of one call: its result, how many attempts it made, the delays it waited
      between them, whether a session exists afterwards, and how many sessions it created. */
  datatype CallReport = CallReport(
    result: ApiResult,
    attempts: nat,
    delays: seq<nat>,
    hasChat: bool,
    sessionsCreated: nat)

  /** An attempt creates a session when none exists and creating it does not raise. */
  predicate CreatesSession(hasChat: bool, a: Attempt) {
    !hasChat && !(a.Raised? && a.inCreate)
  }

  /** Whether a session exists after attempt `a`. */
  function ChatAfter(hasChat: bool, a: Attempt): (chat: bool)
    ensures a.Reply? ==> chat
    ensures hasChat && !chat ==> a.Raised? && Contains(a.message, SessionResetMarker)
    ensures !hasChat && chat ==> CreatesSession(hasChat, a)
  {
    if a.Raised? && Contains(a.message, SessionResetMarker) then false
    else hasChat || CreatesSession(hasChat, a)
  }

  function FailureText(message: string): string {
    "Max retries reached: " + message
  }

  /** `_make_api_call(prompt, retry_count=k)` as the source writes it: recursive re-invocation. */
  function CallFrom(service: nat -> Attempt, k: nat, hasChat: bool, maxRetries: nat, initialDelay: nat)
    : CallReport
    decreases maxRetries - k
  {
    var a := service(k);
    var created := if CreatesSession(hasChat, a) then 1 else 0;
    match a
    case Reply(text) =>
      CallReport(ApiSuccess(text), 1, [], true, created)
    case Raised(message, _) =>
      var chat := ChatAfter(hasChat, a);
      if k < maxRetries then
        var rest := CallFrom(service, k + 1, chat, maxRetries, initialDelay);
        CallReport(rest.result, rest.attempts + 1, [initialDelay * Pow2(k)] + rest.delays,
                   rest.hasChat, rest.sessionsCreated + created)
      else
        CallReport(ApiFailure(FailureText(message)), 1, [], chat, created)
  }

  /** What a call's report says about attempts `k..` of it: it made between one attempt and
      every one left, waited `initial·2^j` before retry `j + 1`, every attempt but its last
      raised, it succeeded exactly when its last attempt got a reply and then carries that
      reply, and it failed only after the last retry, with that attempt's message. */
  ghost predicate CallFacts(service: nat -> Attempt, k: nat, maxRetries: nat, initialDelay: nat, r: CallReport) {
    && 1 <= r.attempts <= maxRetries - k + 1
    && |r.delays| == r.attempts - 1
    && (forall j :: 0 <= j < |r.delays| ==> r.delays[j] == initialDelay * Pow2(k + j))
    && (forall j :: k <= j < k + r.attempts - 1 ==> service(j).Raised?)
    && (r.result.ApiSuccess? <==> service(k + r.attempts - 1).Reply?)
    && (r.result.ApiSuccess? ==> r.result.content == service(k + r.attempts - 1).text)
    && (r.result.ApiFailure? ==>
          r.attempts == maxRetries - k + 1 &&
          r.result.error == FailureText(service(maxRetries).message))
  }

  lemma {:induction false} CallFromFacts(
    service: nat -> Attempt, k: nat, hasChat: bool, maxRetries: nat, initialDelay: nat)
    requires k <= maxRetries
    ensures CallFacts(service, k, maxRetries, initialDelay, CallFrom(service, k, hasChat, maxRetries, initialDelay))
    decreases maxRetries - k
  {
    var a := service(k);
    if a.Raised? && k < maxRetries {
      var chat := ChatAfter(hasChat, a);
      CallFromFacts(service, k + 1, chat, maxRetries, initialDelay);
      var rest := CallFrom(service, k + 1, chat, maxRetries, initialDelay);
      var r := CallFrom(service, k, hasChat, maxRetries, initialDelay);
      assert r.attempts == rest.attempts + 1;
      assert r.delays == [initialDelay * Pow2(k)] + rest.delays;
      forall j | 0 <= j < |r.delays|
        ensures r.delays[j] == initialDelay * Pow2(k + j)
      {
        if j > 0 {
          assert r.delays[j] == rest.delays[j - 1];
        }
      }
      assert k + r.attempts - 1 == (k + 1) + rest.attempts - 1;
    }
  }

  /** `CallFrom` extended by `k` earlier failed attempts with delays `d` that created `c` sessions. */
  function Resume(r: CallReport, k: nat, d: seq<nat>, c: nat): CallReport {
    CallReport(r.result, r.attempts + k, d + r.delays, r.hasChat, r.sessionsCreated + c)
  }

  /** One failed attempt with retries left, seen from the caller of `CallFrom`. */
  lemma RetryStep(service: nat -> Attempt, k: nat, chat: bool, maxRetries: nat, initialDelay: nat,
                  d: seq<nat>, c: nat)
    requires k < maxRetries && service(k).Raised?
    ensures var c1 := if CreatesSession(chat, service(k)) then 1 else 0;
      Resume(CallFrom(service, k, chat, maxRetries, initialDelay), k, d, c)
      == Resume(CallFrom(service, k + 1, ChatAfter(chat, service(k)), maxRetries, initialDelay),
                k + 1, d + [initialDelay * Pow2(k)], c + c1)
  {
    var rest := CallFrom(service, k + 1, ChatAfter(chat, service(k)), maxRetries, initialDelay);
    assert d + ([initialDelay * Pow2(k)] + rest.delays) == (d + [initialDelay * Pow2(k)]) + rest.delays;
  }

  /** `_make_api_call` as an explicit loop over attempts; agrees with the recursive form. */
  method MakeApiCall(service: nat -> Attempt, hasChat: bool, maxRetries: nat, initialDelay: nat)
    returns (r: CallReport)
    ensures r == CallFrom(service, 0, hasChat, maxRetries, initialDelay)
    ensures CallFacts(service, 0, maxRetries, initialDelay, r)
  {
    ghost var reference := CallFrom(service, 0, hasChat, maxRetries, initialDelay);
    var k: nat := 0;
    var chat := hasChat;
    var created: nat := 0;
    var delays: seq<nat> := [];
    assert reference == Resume(reference, 0, [], 0);
    while k < maxRetries && service(k).Raised?
      invariant k <= maxRetries
      invariant reference == Resume(CallFrom(service, k, chat, maxRetries, initialDelay), k, delays, created)
      decreases maxRetries - k
    {
      var a := service(k);
      RetryStep(service, k, chat, maxRetries, initialDelay, delays, created);
      if CreatesSession(chat, a) {
        created := created + 1;
      }
      chat := ChatAfter(chat, a);
      delays := delays + [initialDelay * Pow2(k)];
      k := k + 1;
    }
    var a := service(k);
    if CreatesSession(chat, a) {
      created := created + 1;
    }
    match a {
      case Reply(text) =>
        r := CallReport(ApiSuccess(text), k + 1, delays, true, created);
      case Raised(message, _) =>
        r := CallReport(ApiFailure(FailureText(message)), k + 1, delays, ChatAfter(chat, a), created);
    }
    LastStep(service, k, chat, maxRetries, initialDelay, delays, created - (if CreatesSession(chat, a) then 1 else 0));
    CallFromFacts(service, 0, hasChat, maxRetries, initialDelay);
  }

  /** The attempt after which a call stops, seen from the caller of `CallFrom`. */
  lemma LastStep(service: nat -> Attempt, k: nat, chat: bool, maxRetries: nat, initialDelay: nat,
                 d: seq<nat>, c: nat)
    requires !(k < maxRetries && service(k).Raised?)
    ensures var a := service(k);
      var c1 := c + if CreatesSession(chat, a) then 1 else 0;
      Resume(CallFrom(service, k, chat, maxRetries, initialDelay), k, d, c)
      == (if a.Reply? then CallReport(ApiSuccess(a.text), k + 1, d, true, c1)
          else CallReport(ApiFailure(FailureText(a.message)), k + 1, d, ChatAfter(chat, a), c1))
  {
    assert d + [] == d;
  }

  /** The text of the first reply among attempts `k..last` of a script, if any reply comes
      (the text itself may be None): an independent description of what a call returns. */
  function FirstReply(service: nat -> Attempt, k: nat, last: nat): Option<Option<string>>
    decreases last - k
  {
    if k > last then None
    else if service(k).Reply? then Some(service(k).text)
    else FirstReply(service, k + 1, last)
  }

  /** A call succeeds exactly when some attempt up to the last retry gets a reply, and then
      returns the first such reply, whatever the session state. */
  lemma {:induction false} CallReturnsFirstReply(
    service: nat -> Attempt, k: nat, hasChat: bool, maxRetries: nat, initialDelay: nat)
    requires k <= maxRetries
    ensures var r := CallFrom(service, k, hasChat, maxRetries, initialDelay);
      && (r.result.ApiSuccess? <==> FirstReply(service, k, maxRetries).Some?)
      && (r.result.ApiSuccess? ==> r.result.content == FirstReply(service, k, maxRetries).value)
    decreases maxRetries - k
  {
    if service(k).Raised? && k < maxRetries {
      CallReturnsFirstReply(service, k + 1, ChatAfter(hasChat, service(k)), maxRetries, initialDelay);
    } else if service(k).Raised? {
      assert FirstReply(service, k + 1, maxRetries) == None;
    }
  }

  /** A doubling schedule from `c` sums to `c·(2^n − 1)`. */
  lemma {:induction false} DoublingSum(d: seq<nat>, c: nat)
    requires forall j :: 0 <= j < |d| ==> d[j] == c * Pow2(j)
    ensures Sum(d) + c == c * Pow2(|d|)
    decreases |d|
  {
    if |d| > 0 {
      var n := |d|;
      DoublingSum(d[..n - 1], c);
      var p := Pow2(n - 1);
      assert Sum(d) == Sum(d[..n - 1]) + c * p;
      assert Pow2(n) == 2 * p;
      Twice(c, p);
    }
  }

  lemma Twice(c: nat, p: nat)
    ensures c * (2 * p) == c * p + c * p
  {
  }

  /** A call waits `initial·(2^(attempts−1) − 1)` in all; with the defaults it waits
      1, 2, 4 seconds at most, 7 in all. */
  lemma TotalWaitBound(service: nat -> Attempt, hasChat: bool)
    ensures var r := CallFrom(service, 0, hasChat, MaxRetries, InitialRetryDelay);
      && r.attempts <= 4
      && r.delays == [1, 2, 4][..|r.delays|]
      && Sum(r.delays) + 1 == Pow2(r.attempts - 1)
      && Sum(r.delays) <= 7
  {
    var r := CallFrom(service, 0, hasChat, MaxRetries, InitialRetryDelay);
    CallFromFacts(service, 0, hasChat, MaxRetries, InitialRetryDelay);
    assert Pow2(0) == 1 && Pow2(1) == 2 && Pow2(2) == 4 && Pow2(3) == 8;
    var d := r.delays;
    DoublingSum(d, 1);
    assert |d| <= 3;
    if |d| == 3 {
      assert d == [1, 2, 4];
    } else if |d| == 2 {
      assert d == [1, 2];
    } else if |d| == 1 {
      assert d == [1];
    }
  }

  /** A call that starts with a session and never sees the reset marker creates no
      session and keeps its session: the session is reused. */
  lemma {:induction false} SessionReused(
    service: nat -> Attempt, k: nat, maxRetries: nat, initialDelay: nat)
    requires k <= maxRetries
    requires forall j :: k <= j <= maxRetries ==>
      !(service(j).Raised? && Contains(service(j).message, SessionResetMarker))
    ensures var r := CallFrom(service, k, true, maxRetries, initialDelay);
      r.sessionsCreated == 0 && r.hasChat
    decreases maxRetries - k
  {
    var a := service(k);
    if a.Raised? && k < maxRetries {
      SessionReused(service, k + 1, maxRetries, initialDelay);
    }
  }

  /** A call that starts without a session and gets a reply ends with one, having created
      exactly one session when no attempt hit the reset marker. */
  lemma {:induction false} SessionCreatedOnce(
    service: nat -> Attempt, k: nat, maxRetries: nat, initialDelay: nat)
    requires k <= maxRetries
    requires forall j :: k <= j <= maxRetries ==>
      !(service(j).Raised? && Contains(service(j).message, SessionResetMarker))
    ensures var r := CallFrom(service, k, false, maxRetries, initialDelay);
      r.sessionsCreated <= 1 && (r.result.ApiSuccess? ==> r.hasChat && r.sessionsCreated == 1)
    decreases maxRetries - k
  {
    var a := service(k);
    if a.Raised? && k < maxRetries {
      if CreatesSession(false, a) {
        SessionReused(service, k + 1, maxRetries, initialDelay);
      } else {
        SessionCreatedOnce(service, k + 1, maxRetries, initialDelay);
      }
    }
  }

  // ---------------------------------------------------------------------------
  // Prompts and analysis replies
  // ---------------------------------------------------------------------------

  const SemanticType: string := "semantic_understanding"
  const CorrectnessType: string := "correctness_assessment"
  const EdgeCasesType: string := "edge_cases"
  const TestCasesType: string := "test_cases"

  /** Which instruction set a prompt uses; the wording itself is not modelled. */
  datatype Instructions = SemanticInstructions | CorrectnessInstructions | EdgeCaseInstructions
                        | JavaScriptTestInstructions | GenericTestInstructions

  /** A prompt: the instruction set, the lower-cased language it names, and the chunk's
      code and context it embeds. */
  datatype Prompt = Prompt(instructions: Instructions, language: string, code: string, context: ChunkContext)

  predicate KnownType(analysisType: string) {
    analysisType in {SemanticType, CorrectnessType, EdgeCasesType, TestCasesType}
  }

  /** `_create_prompt`: dispatch on the analysis type; an unknown type raises `ValueError`. */
  function CreatePrompt(code: string, context: ChunkContext, analysisType: string): (r: Result<Prompt, string>)
    ensures r.Ok? <==> KnownType(analysisType)
    ensures r.Err? ==> r.error == "Unknown analysis type: " + analysisType
    ensures r.Ok? ==> (r.value.code == code && r.value.context == context
      && r.value.language == Lower(context.language))
    ensures r.Ok? ==> (r.value.instructions == SemanticInstructions <==> analysisType == SemanticType)
    ensures r.Ok? ==> (r.value.instructions == CorrectnessInstructions <==> analysisType == CorrectnessType)
    ensures r.Ok? ==> (r.value.instructions == EdgeCaseInstructions <==> analysisType == EdgeCasesType)
    ensures r.Ok? ==> (r.value.instructions == JavaScriptTestInstructions <==>
      analysisType == TestCasesType && Lower(context.language) == "javascript")
    ensures r.Ok? ==> (r.value.instructions == GenericTestInstructions <==>
      analysisType == TestCasesType && Lower(context.language) != "javascript")
  {
    var language := Lower(context.language);
    if analysisType == SemanticType then Ok(Prompt(SemanticInstructions, language, code, context))
    else if analysisType == CorrectnessType then Ok(Prompt(CorrectnessInstructions, language, code, context))
    else if analysisType == EdgeCasesType then Ok(Prompt(EdgeCaseInstructions, language, code, context))
    else if analysisType == TestCasesType then
      if language == "javascript" then Ok(Prompt(JavaScriptTestInstructions, language, code, context))
      else Ok(Prompt(GenericTestInstructions, language, code, context))
    else Err("Unknown analysis type: " + analysisType)
  }

  /** The dict `analyze_code` returns: the analysis type, the chunk context, and either
      `response` (the call succeeded) or `error` (it failed). */
  datatype AnalysisReply = AnalysisReply(analysisType: string, codeContext: ChunkContext, outcome: ApiResult) {

    /** `reply.get('response')`: `Some` when the key is present, holding the reply's text,
        which may itself be None. */
    function Response(): Option<Option<string>> {
      if outcome.ApiSuccess? then Some(outcome.content) else None
    }

    /** `reply.get('error')`. */
    function Error(): Option<string> {
      if outcome.ApiFailure? then Some(outcome.error) else None
    }
  }

  /** One analysis: the prompt sent, the reply, and the call that produced it. */
  datatype Analyzed = Analyzed(prompt: Prompt, reply: AnalysisReply, call: CallReport)

  /** `analyze_code`: build the prompt (its `ValueError` escapes), make the call, shape the reply. */
  function AnalyzeCode(chunk: Chunk, analysisType: string, hasChat: bool, service: nat -> Attempt)
    : (r: Result<Analyzed, string>)
    ensures r.Err? <==> !KnownType(analysisType)
    ensures r.Err? ==> r.error == "Unknown analysis type: " + analysisType
    ensures r.Ok? ==> r.value.prompt == CreatePrompt(chunk.code, chunk.context, analysisType).value
    ensures r.Ok? ==> (r.value.reply.analysisType == analysisType
      && r.value.reply.codeContext == chunk.context
      && r.value.call == CallFrom(service, 0, hasChat, MaxRetries, InitialRetryDelay)
      && (r.value.reply.Response().Some? <==> r.value.call.result.ApiSuccess?)
      && (r.value.reply.Error().Some? <==> r.value.call.result.ApiFailure?)
      && (r.value.reply.Response().Some? ==> r.value.reply.Response().value == r.value.call.result.content)
      && (r.value.reply.Error().Some? ==> r.value.reply.Error().value == r.value.call.result.error))
  {
    var prompt :- CreatePrompt(chunk.code, chunk.context, analysisType);
    var call := CallFrom(service, 0, hasChat, MaxRetries, InitialRetryDelay);
    Ok(Analyzed(prompt, AnalysisReply(analysisType, chunk.context, call.result), call))
  }
}

=== FILE: api_service.dfy ===
/** The frontend's API client: `fetchWithRetry` (retry with capped exponential backoff on
    rate limiting, network errors and timeouts), the checks `submitCode` makes before and
    after sending, and the polling and 400-classification of `getAnalysisResults`.

    `fetch` is opaque: what each attempt runs into is given as a script
    `nat -> FetchOutcome` (attempt number to outcome), and the delays are returned instead
    of waited. Errors are JavaScript `Error` objects; only their message and whether they
    are a `TypeError` matter.
 */
module ApiService {
  import opened Outcomes
  import opened Text
  import opened Numeric

  /** `MAX_RETRIES`, `INITIAL_RETRY_DELAY` and `MAX_RETRY_DELAY` (milliseconds). */
  const MaxRetries: nat := 5
  const InitialRetryDelay: nat := 500
  const MaxRetryDelay: nat := 5000

  /** A response as far as the client reads it: the status, the `detail` of its JSON body
      (`None` when the body has none or is not JSON), and the status text. */
  datatype Response = Response(status: nat, detail: Option<string>, statusText: string)

  /** What one `fetch` attempt runs into: a response, or a thrown error. */
  datatype FetchOutcome = Responded(response: Response) | Threw(typeError: bool, message: string)

  /** `response.ok`. */
  predicate IsOk(r: Response) {
    200 <= r.status <= 299
  }

  /** `errorData.detail || response.statusText`. */
  function Reason(r: Response): (reason: string)
    ensures r.detail.Some? && r.detail.value != "" ==> reason == r.detail.value
    ensures r.detail.None? || r.detail.value == "" ==> reason == r.statusText
  {
    if r.detail.Some? && r.detail.value != "" then r.detail.value else r.statusText
  }

  /** The message of the error thrown for a response that is not ok. */
  function HttpErrorText(r: Response): string {
    "HTTP error! status: " + (Decimal(r.status) + (", message: " + Reason(r)))
  }

  /** An error caught by `fetchWithRetry`'s handler. */
  datatype Failure = Failure(typeError: bool, message: string)

  /** The error an attempt throws inside the `try`: the fetch's own, or the one raised for a
      response that is not ok. */
  function Thrown(o: FetchOutcome): (e: Failure)
    requires !(o.Responded? && IsOk(o.response))
    ensures o.Responded? ==> e == Failure(false, HttpErrorText(o.response))
    ensures o.Threw? ==> e == Failure(o.typeError, o.message)
  {
    match o
    case Responded(r) => Failure(false, HttpErrorText(r))
    case Threw(t, m) => Failure(t, m)
  }

  predicate IsNetworkError(e: Failure) {
    e.typeError || e.message == "Failed to fetch" || Contains(e.message, "NetworkError")
  }

  predicate IsTimeout(e: Failure) {
    Contains(e.message, "timeout")
  }

  function CannotConnect(baseUrl: string): string {
    "Cannot connect to the analysis server. Is the backend running? (" + baseUrl + ")"
  }

  const RequestTimeout: string :=
    "Request timeout. The server took too long to respond. Ensure backend is not overwhelmed."

  /** The wait before retry `k + 1`: `min(500·2^k, 5000)`. */
  function BackoffDelay(k: nat): (d: nat)
    ensures d <= MaxRetryDelay && d <= InitialRetryDelay * Pow2(k)
    ensures d == MaxRetryDelay || d == InitialRetryDelay * Pow2(k)
  {
    var d := InitialRetryDelay * Pow2(k);
    if d <= MaxRetryDelay then d else MaxRetryDelay
  }

  /** The delays the five retries wait, in order. */
  const Schedule: seq<nat> := [500, 1000, 2000, 4000, 5000]

  lemma BackoffSchedule()
    ensures forall k :: 0 <= k < MaxRetries ==> BackoffDelay(k) == Schedule[k]
    ensures Sum(Schedule) == 12500
  {
    assert Pow2(1) == 2 && Pow2(2) == 4 && Pow2(3) == 8 && Pow2(4) == 16;
    assert Schedule[..4] == [500, 1000, 2000, 4000];
    assert [500, 1000, 2000, 4000][..3] == [500, 1000, 2000];
    assert [500, 1000, 2000][..2] == [500, 1000];
    assert [500, 1000][..1] == [500];
    assert [500][..0] == [];
  }

  /** What `fetchWithRetry` does after attempt `k`: try again, or settle on a response or
      an error. */
  datatype Step = Retry | Settle(result: Result<Response, string>)

  /** The decision after attempt `k`. A 429 with retries left is retried. An ok response is
      returned. Anything else is an error, caught by the same handler: a network error or
      timeout with retries left is retried, and after the last retry becomes a fixed
      message; any other error is rethrown as it is. */
  function Decide(o: FetchOutcome, k: nat, baseUrl: string): (s: Step)
    ensures s.Retry? ==> k < MaxRetries
  {
    if o.Responded? && o.response.status == 429 && k < MaxRetries then Retry
    else if o.Responded? && IsOk(o.response) then Settle(Ok(o.response))
    else
      var e := Thrown(o);
      if (IsNetworkError(e) || IsTimeout(e)) && k < MaxRetries then Retry
      else if IsNetworkError(e) then Settle(Err(CannotConnect(baseUrl)))
      else if IsTimeout(e) then Settle(Err(RequestTimeout))
      else Settle(Err(e.message))
  }

  lemma DecideSpec(o: FetchOutcome, k: nat, baseUrl: string)
    ensures var s := Decide(o, k, baseUrl);
      && (o.Responded? && IsOk(o.response) ==> s == Settle(Ok(o.response)))
      && (s.Settle? && s.result.Ok? ==> o.Responded? && IsOk(o.response) && s.result.value == o.response)
      && (o.Responded? && o.response.status == 429 && k < MaxRetries ==> s == Retry)
      && (!(o.Responded? && (IsOk(o.response) || o.response.status == 429)) ==>
            (s == Retry <==> k < MaxRetries && (IsNetworkError(Thrown(o)) || IsTimeout(Thrown(o)))))
      && (k == MaxRetries && !(o.Responded? && IsOk(o.response)) ==>
            s == Settle(Err(
              if IsNetworkError(Thrown(o)) then CannotConnect(baseUrl)
              else if IsTimeout(Thrown(o)) then RequestTimeout
              else Thrown(o).message)))
      && (s.Settle? && !(o.Responded? && IsOk(o.response)) ==>
            s == Settle(Err(
              if IsNetworkError(Thrown(o)) then CannotConnect(baseUrl)
              else if IsTimeout(Thrown(o)) then RequestTimeout
              else Thrown(o).message)))
  {
  }

  /** The outcome of `fetchWithRetry`: what it returns or throws, how many attempts it
      made, and the delays it waited between them. */
  datatype FetchReport = FetchReport(result: Result<Response, string>, attempts: nat, delays: seq<nat>)

  /** The decision after each attempt, for the outcomes the attempts meet. */
  function Attempts(outcomes: nat -> FetchOutcome, baseUrl: string): (steps: nat -> Step)
    ensures forall k: nat :: steps(k).Retry? ==> k < MaxRetries
  {
    var steps := (k: nat) => Decide(outcomes(k), k, baseUrl);
    assert forall k: nat :: steps(k) == Decide(outcomes(k), k, baseUrl);
    steps
  }

  /** `fetchWithRetry(url, options, k)` as the source writes it: recursive re-invocation
      after the backoff delay, driven by the decision after each attempt. */
  function FetchFrom(steps: nat -> Step, k: nat): FetchReport
    requires k <= MaxRetries
    requires forall j: nat :: steps(j).Retry? ==> j < MaxRetries
    decreases MaxRetries - k
  {
    match steps(k)
    case Retry =>
      var rest := FetchFrom(steps, k + 1);
      FetchReport(rest.result, rest.attempts + 1, [BackoffDelay(k)] + rest.delays)
    case Settle(result) => FetchReport(result, 1, [])
  }

  function FetchWithRetry(outcomes: nat -> FetchOutcome, baseUrl: string): FetchReport {
    FetchFrom(Attempts(outcomes, baseUrl), 0)
  }

  /** What a report says about attempts `k..`: between one attempt and every one left,
      every attempt but the last retried, and the last one settling on the report's
      result, with one delay between each two attempts. */
  lemma {:induction false} FetchFromSteps(steps: nat -> Step, k: nat)
    requires k <= MaxRetries
    requires forall j: nat :: steps(j).Retry? ==> j < MaxRetries
    ensures var r := FetchFrom(steps, k);
      && 1 <= r.attempts <= MaxRetries - k + 1
      && |r.delays| == r.attempts - 1
      && (forall j :: k <= j < k + r.attempts - 1 ==> steps(j) == Retry)
      && steps(k + r.attempts - 1) == Settle(r.result)
    decreases MaxRetries - k
  {
    if steps(k) == Retry {
      FetchFromSteps(steps, k + 1);
    }
  }

  /** The delay before retry `k + j + 1` is the backoff delay for `k + j`. */
  lemma {:induction false} FetchFromDelays(steps: nat -> Step, k: nat)
    requires k <= MaxRetries
    requires forall j: nat :: steps(j).Retry? ==> j < MaxRetries
    ensures var r := FetchFrom(steps, k);
      forall j :: 0 <= j < |r.delays| ==> r.delays[j] == BackoffDelay(k + j)
    decreases MaxRetries - k
  {
    if steps(k) == Retry {
      FetchFromDelays(steps, k + 1);
      var rest := FetchFrom(steps, k + 1);
      var r := FetchFrom(steps, k);
      forall j | 0 <= j < |r.delays|
        ensures r.delays[j] == BackoffDelay(k + j)
      {
        if j > 0 {
          assert r.delays[j] == rest.delays[j - 1];
        }
      }
    }
  }

  /** At most six attempts; the waits are a prefix of 500, 1000, 2000, 4000, 5000 ms. */
  lemma FetchWaits(outcomes: nat -> FetchOutcome, baseUrl: string)
    ensures var r := FetchWithRetry(outcomes, baseUrl);
      && 1 <= r.attempts <= MaxRetries + 1
      && r.delays == Schedule[..|r.delays|]
      && Sum(r.delays) <= 12500
  {
    var r := FetchWithRetry(outcomes, baseUrl);
    FetchFromSteps(Attempts(outcomes, baseUrl), 0);
    FetchFromDelays(Attempts(outcomes, baseUrl), 0);
    BackoffSchedule();
    assert r.delays == Schedule[..|r.delays|];
    SumPrefix(Schedule, |r.delays|);
  }

  /** A prefix of a list of delays totals no more than the list. */
  lemma {:induction false} SumPrefix(xs: seq<nat>, n: nat)
    requires n <= |xs|
    ensures Sum(xs[..n]) <= Sum(xs)
    decreases |xs| - n
  {
    if n < |xs| {
      SumPrefix(xs, n + 1);
      assert xs[..n + 1][..n] == xs[..n];
    } else {
      assert xs[..n] == xs;
    }
  }

  // ---------------------------------------------------------------------------
  // What the messages mention
  // ---------------------------------------------------------------------------

  predicate Digits(d: string) {
    forall i :: 0 <= i < |d| ==> '0' <= d[i] <= '9'
  }

  /** The words before the status hold neither `timeout` nor `NetworkError`. */
  lemma LeadMentions(t: string, w: string)
    requires w == "timeout" || w == "NetworkError"
    ensures Contains("HTTP error! status: " + t, w) <==> Contains(t, w)
  {
    if w == "NetworkError" {
      ContainsPastAbsent("HTTP error! status: ", t, w);
    } else {
      assert "HTTP error! status: " + t == "HTTP error! s" + ("tatus: " + t);
      ContainsPastAbsent("HTTP error! s", "tatus: " + t, w);
      assert ("tatus: " + t)[1] != w[1];
      ContainsSkip("tatus: " + t, w);
      assert ("tatus: " + t)[1..] == "a" + ("tus: " + t);
      ContainsPastAbsent("a", "tus: " + t, w);
      assert ("tus: " + t)[1] != w[1];
      ContainsSkip("tus: " + t, w);
      assert ("tus: " + t)[1..] == "us: " + t;
      ContainsPastAbsent("us: ", t, w);
    }
  }

  /** Nor do the status digits, nor the label before the reason. */
  lemma DigitsMention(d: string, m: string, w: string)
    requires Digits(d) && |w| > 0 && !('0' <= w[0] <= '9')
    ensures Contains(d + m, w) <==> Contains(m, w)
  {
    assert w[0] !in d;
    ContainsPastAbsent(d, m, w);
  }

  lemma LabelMentions(x: string, w: string)
    requires w == "timeout" || w == "NetworkError"
    ensures Contains(", message: " + x, w) <==> Contains(x, w)
  {
    ContainsPastAbsent(", message: ", x, w);
  }

  /** An HTTP error mentions `timeout` or `NetworkError` exactly when its reason does. */
  lemma HttpErrorMentions(r: Response, w: string)
    requires w == "timeout" || w == "NetworkError"
    ensures Contains(HttpErrorText(r), w) <==> Contains(Reason(r), w)
  {
    var d := Decimal(r.status);
    var m := ", message: " + Reason(r);
    LeadMentions(d + m, w);
    DigitsMention(d, m, w);
    LabelMentions(Reason(r), w);
  }

  /** `status: 400` cannot start before the status. */
  lemma LeadStatus(t: string)
    ensures Contains("HTTP error! status: " + t, "status: 400") <==> Contains("status: " + t, "status: 400")
  {
    assert "HTTP error! status: " + t == "HTTP error! " + ("status: " + t);
    ContainsPastAbsent("HTTP error! ", "status: " + t, "status: 400");
  }

  /** Past a status other than 400, `status: 400` can only be in what follows the digits. */
  lemma StatusNot400(d: string, m: string)
    requires Digits(d) && |d| >= 3 && !StartsWith(d, "400")
    ensures Contains("status: " + (d + m), "status: 400") <==> Contains(d + m, "status: 400")
  {
    var w := "status: 400";
    var s := "status: " + (d + m);
    assert s[8..11] == d[..3];
    assert w[8..11] == "400";
    ContainsSkip(s, w);
    assert s[1..] == "tatu" + ("s: " + (d + m));
    ContainsPastAbsent("tatu", "s: " + (d + m), w);
    assert ("s: " + (d + m))[1] != w[1];
    ContainsSkip("s: " + (d + m), w);
    assert ("s: " + (d + m))[1..] == ": " + (d + m);
    ContainsPastAbsent(": ", d + m, w);
  }

  lemma LabelNot400(x: string)
    ensures Contains(", message: " + x, "status: 400") <==> Contains(x, "status: 400")
  {
    var w := "status: 400";
    assert ", message: " + x == ", me" + ("ssage: " + x);
    ContainsPastAbsent(", me", "ssage: " + x, w);
    assert ("ssage: " + x)[1] != w[1];
    ContainsSkip("ssage: " + x, w);
    assert ("ssage: " + x)[1..] == "sage: " + x;
    assert ("sage: " + x)[1] != w[1];
    ContainsSkip("sage: " + x, w);
    assert ("sage: " + x)[1..] == "age: " + x;
    ContainsPastAbsent("age: ", x, w);
  }

  /** An HTTP error mentions `status: 400` when the status is 400. */
  lemma HttpErrorMentions400(r: Response)
    requires r.status == 400
    ensures Contains(HttpErrorText(r), "status: 400")
  {
    assert Decimal(4) == "4";
    assert Decimal(40) == "40";
    assert Decimal(400) == "400";
    var m := ", message: " + Reason(r);
    LeadStatus("400" + m);
    assert "status: " + ("400" + m) == "status: 400" + m;
    assert StartsWith("status: 400" + m, "status: 400");
  }

  /** An HTTP error for another status of three or more digits mentions `status: 400`
      only when its reason does. */
  lemma HttpErrorNot400(r: Response)
    requires !StartsWith(Decimal(r.status), "400") && |Decimal(r.status)| >= 3
    ensures Contains(HttpErrorText(r), "status: 400") <==> Contains(Reason(r), "status: 400")
  {
    var d := Decimal(r.status);
    var m := ", message: " + Reason(r);
    LeadStatus(d + m);
    StatusNot400(d, m);
    DigitsMention(d, m, "status: 400");
    LabelNot400(Reason(r));
  }

  // ---------------------------------------------------------------------------
  // Retry behaviour
  // ---------------------------------------------------------------------------

  /** An HTTP error whose reason mentions neither `NetworkError` nor `timeout`, other than
      a 429 with retries left, settles the call as `HTTP error! …`. */
  lemma PlainHttpErrorSettles(r: Response, k: nat, baseUrl: string)
    requires !IsOk(r) && (r.status != 429 || k >= MaxRetries)
    requires !Contains(Reason(r), "NetworkError") && !Contains(Reason(r), "timeout")
    ensures Decide(Responded(r), k, baseUrl) == Settle(Err(HttpErrorText(r)))
  {
    HttpErrorMentions(r, "NetworkError");
    HttpErrorMentions(r, "timeout");
    assert HttpErrorText(r) != "Failed to fetch" by {
      assert HttpErrorText(r)[0] == 'H';
    }
  }

  /** Such an error ends the call at once: one attempt, no wait, rethrown. */
  lemma PlainHttpErrorNotRetried(outcomes: nat -> FetchOutcome, k: nat, baseUrl: string)
    requires k <= MaxRetries
    requires outcomes(k).Responded? && !IsOk(outcomes(k).response)
    requires outcomes(k).response.status != 429 || k == MaxRetries
    requires !Contains(Reason(outcomes(k).response), "NetworkError")
    requires !Contains(Reason(outcomes(k).response), "timeout")
    ensures FetchFrom(Attempts(outcomes, baseUrl), k) ==
      FetchReport(Err(HttpErrorText(outcomes(k).response)), 1, [])
  {
    PlainHttpErrorSettles(outcomes(k).response, k, baseUrl);
    assert Attempts(outcomes, baseUrl)(k) == Decide(outcomes(k), k, baseUrl);
  }

  /** An HTTP error whose reason mentions `timeout` is treated as a timeout: retried while
      retries remain, then replaced by the fixed timeout message. */
  lemma TimeoutInReasonRetried(o: FetchOutcome, k: nat, baseUrl: string)
    requires k <= MaxRetries
    requires o.Responded? && !IsOk(o.response) && o.response.status != 429
    requires Contains(Reason(o.response), "timeout") && !Contains(Reason(o.response), "NetworkError")
    ensures k < MaxRetries ==> Decide(o, k, baseUrl) == Retry
    ensures k == MaxRetries ==> Decide(o, k, baseUrl) == Settle(Err(RequestTimeout))
  {
    HttpErrorMentions(o.response, "NetworkError");
    HttpErrorMentions(o.response, "timeout");
    assert HttpErrorText(o.response) != "Failed to fetch" by {
      assert HttpErrorText(o.response)[0] == 'H';
    }
  }

  /** Five retries and a sixth attempt that settles: the whole schedule is waited. */
  lemma AllRetried(steps: nat -> Step, result: Result<Response, string>)
    requires forall j: nat :: steps(j).Retry? ==> j < MaxRetries
    requires forall j: nat :: j < MaxRetries ==> steps(j) == Retry
    requires steps(MaxRetries) == Settle(result)
    ensures FetchFrom(steps, 0) == FetchReport(result, 6, Schedule)
  {
    FetchFromSteps(steps, 0);
    FetchFromDelays(steps, 0);
    BackoffSchedule();
    var r := FetchFrom(steps, 0);
    assert r.attempts == 6;
    assert r.delays == Schedule;
  }

  /** Every attempt rate-limited: six attempts, the whole schedule waited, and the last
      429 rethrown as an HTTP error. */
  lemma RateLimitedThroughout(outcomes: nat -> FetchOutcome, r: Response, baseUrl: string)
    requires forall j :: outcomes(j) == Responded(r)
    requires r.status == 429
    requires !Contains(Reason(r), "NetworkError") && !Contains(Reason(r), "timeout")
    ensures FetchWithRetry(outcomes, baseUrl) == FetchReport(Err(HttpErrorText(r)), 6, Schedule)
  {
    var steps := Attempts(outcomes, baseUrl);
    forall j: nat | j < MaxRetries
      ensures steps(j) == Retry
    {
      DecideSpec(outcomes(j), j, baseUrl);
    }
    PlainHttpErrorSettles(r, MaxRetries, baseUrl);
    AllRetried(steps, Err(HttpErrorText(r)));
  }

  /** The server unreachable on every attempt: six attempts, the whole schedule waited,
      then the fixed "Cannot connect" message naming the base URL. */
  lemma ServerUnreachable(outcomes: nat -> FetchOutcome, baseUrl: string)
    requires forall j :: outcomes(j).Threw? && outcomes(j).typeError
    ensures FetchWithRetry(outcomes, baseUrl) == FetchReport(Err(CannotConnect(baseUrl)), 6, Schedule)
  {
    var steps := Attempts(outcomes, baseUrl);
    forall j: nat | j <= MaxRetries
      ensures steps(j) == if j < MaxRetries then Retry else Settle(Err(CannotConnect(baseUrl)))
    {
      DecideSpec(outcomes(j), j, baseUrl);
    }
    AllRetried(steps, Err(CannotConnect(baseUrl)));
  }

  // ---------------------------------------------------------------------------
  // submitCode
  // ---------------------------------------------------------------------------

  const EmptyCode: string := "Please enter some code to analyze"

  predicate IsJavaScript(language: string) {
    language == "javascript" || language == "js"
  }

  /** The language sent: `js` is normalised to `javascript`. */
  function NormalLanguage(language: string): (l: string)
    ensures IsJavaScript(language) ==> l == "javascript"
    ensures !IsJavaScript(language) ==> l == language
  {
    if IsJavaScript(language) then "javascript" else language
  }

  function InvalidFormat(language: string): string {
    "Invalid code format. Please submit valid " + language + " code for analysis."
  }

  /** The request body `submitCode` posts. */
  datatype Submission = Submission(code: string, language: string, mode: string)

  /** What `submitCode` sent, if anything, and what it returned or threw. */
  datatype SubmitOutcome = SubmitOutcome(request: Option<Submission>, result: Result<Response, string>)

  /** `submitCode(code, mode, language)`. `syntaxError` is what compiling the code as a
      function body throws, if anything; it is consulted only for JavaScript. */
  function SubmitCode(code: string, mode: string, language: string, syntaxError: Option<string>,
                      outcomes: nat -> FetchOutcome, baseUrl: string): (r: SubmitOutcome)
    ensures Trim(code) == "" ==> r == SubmitOutcome(None, Err(EmptyCode))
    ensures Trim(code) != "" && IsJavaScript(language) && syntaxError.Some? ==>
      r == SubmitOutcome(None, Err("JavaScript syntax error: " + syntaxError.value))
    ensures r.request.Some? <==> Trim(code) != "" && !(IsJavaScript(language) && syntaxError.Some?)
    ensures r.request.Some? ==> r.request.value == Submission(code, NormalLanguage(language), mode)
    ensures r.request.Some? ==>
      var fetched := FetchWithRetry(outcomes, baseUrl).result;
      && (fetched.Ok? ==> r.result == fetched)
      && (fetched.Err? && Contains(fetched.error, "status: 400") ==>
            r.result == Err(InvalidFormat(NormalLanguage(language))))
      && (fetched.Err? && !Contains(fetched.error, "status: 400") ==> r.result == fetched)
  {
    if Trim(code) == "" then SubmitOutcome(None, Err(EmptyCode))
    else if IsJavaScript(language) && syntaxError.Some? then
      SubmitOutcome(None, Err("JavaScript syntax error: " + syntaxError.value))
    else
      var lang := NormalLanguage(language);
      var fetched := FetchWithRetry(outcomes, baseUrl).result;
      var result := if fetched.Err? && Contains(fetched.error, "status: 400") then Err(InvalidFormat(lang)) else fetched;
      SubmitOutcome(Some(Submission(code, lang, mode)), result)
  }

  /** `js` and `javascript` are the same submission. */
  lemma SubmitJsAlias(code: string, mode: string, syntaxError: Option<string>,
                      outcomes: nat -> FetchOutcome, baseUrl: string)
    ensures SubmitCode(code, mode, "js", syntaxError, outcomes, baseUrl)
      == SubmitCode(code, mode, "javascript", syntaxError, outcomes, baseUrl)
  {
  }

  /** A 400 from the backend, with a reason mentioning neither `NetworkError` nor
      `timeout`, becomes the invalid-format message naming the normalised language. */
  lemma SubmitBadRequest(code: string, mode: string, language: string,
                         outcomes: nat -> FetchOutcome, baseUrl: string)
    requires Trim(code) != ""
    requires outcomes(0).Responded? && outcomes(0).response.status == 400
    requires !Contains(Reason(outcomes(0).response), "NetworkError")
    requires !Contains(Reason(outcomes(0).response), "timeout")
    ensures SubmitCode(code, mode, language, None, outcomes, baseUrl).result
      == Err(InvalidFormat(NormalLanguage(language)))
  {
    PlainHttpErrorNotRetried(outcomes, 0, baseUrl);
    HttpErrorMentions400(outcomes(0).response);
  }

  // ---------------------------------------------------------------------------
  // getAnalysisResults
  // ---------------------------------------------------------------------------

  const MessageTag: string := "message: "

  predicate SingleLine(s: string) {
    '\n' !in s && '\r' !in s && '\U{2028}' !in s && '\U{2029}' !in s
  }

  /** Where `/message: (.*?)$/` can match: the tag, then only characters `.` matches up to
      the end of the text. */
  predicate MatchesAt(s: string, q: nat) {
    q + |MessageTag| <= |s| && s[q..q + |MessageTag|] == MessageTag && SingleLine(s[q + |MessageTag|..])
  }

  /** The leftmost match at or after `p`. */
  function MatchPosition(s: string, p: nat): (m: Option<nat>)
    ensures m.Some? ==> p <= m.value && MatchesAt(s, m.value)
    ensures m.Some? ==> forall q :: p <= q < m.value ==> !MatchesAt(s, q)
    ensures m.None? ==> forall q :: p <= q ==> !MatchesAt(s, q)
    decreases |s| - p
  {
    if p + |MessageTag| > |s| then None
    else if MatchesAt(s, p) then Some(p)
    else MatchPosition(s, p + 1)
  }

  /** `detailMatch ? detailMatch[1] : ''`. */
  function DetailAfterMessage(s: string): string {
    match MatchPosition(s, 0)
    case None => ""
    case Some(q) => s[q + |MessageTag|..]
  }

  /** The detail read back from an HTTP error is its reason, when the reason is one line:
      no `m` comes before the label's. */
  lemma DetailOfHttpError(r: Response)
    requires SingleLine(Reason(r))
    ensures DetailAfterMessage(HttpErrorText(r)) == Reason(r)
  {
    var d := Decimal(r.status);
    var p := "HTTP error! status: " + (d + ", ");
    assert ", message: " + Reason(r) == ", " + (MessageTag + Reason(r));
    assert HttpErrorText(r) == p + (MessageTag + Reason(r));
    assert 'm' !in d;
    assert 'm' !in p;
    DetailAfterPrefix(p, Reason(r));
  }

  /** After a prefix without `m`, the detail is everything past the first tag. */
  lemma DetailAfterPrefix(p: string, x: string)
    requires 'm' !in p && SingleLine(x)
    ensures DetailAfterMessage(p + (MessageTag + x)) == x
  {
    var s := p + (MessageTag + x);
    assert s[|p|..] == MessageTag + x;
    assert MatchesAt(s, |p|);
    forall q | 0 <= q < |p|
      ensures !MatchesAt(s, q)
    {
      assert s[q] == p[q];
    }
    LeftmostMatch(s, |p|);
    assert s[|p| + |MessageTag|..] == x;
  }

  /** A match with none before it is the one the search finds. */
  lemma LeftmostMatch(s: string, q: nat)
    requires MatchesAt(s, q)
    requires forall q' :: 0 <= q' < q ==> !MatchesAt(s, q')
    ensures MatchPosition(s, 0) == Some(q)
  {
  }

  /** `getAnalysisResults`: at most five re-polls, waiting `1000·2^k` ms before re-poll
      `k + 1`. */
  const PollRetries: nat := 5

  function PollDelay(k: nat): nat {
    1000 * Pow2(k)
  }

  const NotCompleted: string := "Analysis not completed"
  const TakingLonger: string := "Analysis is taking longer than expected. Please check back later or try again."
  const SyntaxFailure: string := "Analysis failed due to syntax errors in the submitted code."
  const AnalysisFailed: string := "Analysis failed. The submitted code may have errors or could not be analyzed properly."

  /** What `getAnalysisResults` does after poll `n`: poll again, or answer. */
  datatype PollStep = Repoll | Answer(result: Result<Response, string>)

  /** The handler of poll `n`. A thrown error mentioning `status: 400` is classified by the
      detail after `message: `: not completed is polled again while re-polls remain, then
      gives up; a syntax complaint and anything else map to fixed messages. A response, or
      any other error, is passed on. */
  function ClassifyResults(fetched: Result<Response, string>, n: nat): (s: PollStep)
    ensures s.Repoll? ==> n < PollRetries
  {
    match fetched
    case Ok(_) => Answer(fetched)
    case Err(message) =>
      if !Contains(message, "status: 400") then Answer(fetched)
      else
        var detail := DetailAfterMessage(message);
        if Contains(detail, NotCompleted) then
          if n < PollRetries then Repoll else Answer(Err(TakingLonger))
        else if Contains(detail, "syntax error") || Contains(detail, "invalid syntax") then
          Answer(Err(SyntaxFailure))
        else Answer(Err(AnalysisFailed))
  }

  lemma ClassifySpec(fetched: Result<Response, string>, n: nat)
    ensures var s := ClassifyResults(fetched, n);
      && (fetched.Ok? ==> s == Answer(fetched))
      && (fetched.Err? && !Contains(fetched.error, "status: 400") ==> s == Answer(fetched))
      && (s.Answer? && s.result.Ok? ==> s.result == fetched)
      && (s.Answer? && s.result.Err? && fetched.Err? && Contains(fetched.error, "status: 400") ==>
            s.result.error == TakingLonger || s.result.error == SyntaxFailure || s.result.error == AnalysisFailed)
  {
  }

  /** A poll is repeated exactly for a 400 whose detail says the analysis is not completed,
      while re-polls remain. */
  lemma ClassifyRepolls(fetched: Result<Response, string>, n: nat)
    ensures ClassifyResults(fetched, n) == Repoll <==>
      (n < PollRetries && fetched.Err? && Contains(fetched.error, "status: 400")
       && Contains(DetailAfterMessage(fetched.error), NotCompleted))
  {
  }

  /** The outcome of `getAnalysisResults`: what it returns or throws, how many polls it
      made, and the delays it waited between them. */
  datatype PollReport = PollReport(result: Result<Response, string>, polls: nat, delays: seq<nat>)

  /** The fetch attempts of poll `n`, from a script indexed by poll and attempt. */
  function Poll(script: (nat, nat) -> FetchOutcome, n: nat): nat -> FetchOutcome {
    (j: nat) => script(n, j)
  }

  /** What `fetchWithRetry` gave each poll: the response, or the message it threw. */
  function Fetched(script: (nat, nat) -> FetchOutcome, baseUrl: string): nat -> Result<Response, string> {
    (m: nat) => FetchWithRetry(Poll(script, m), baseUrl).result
  }

  /** The handler's decision after each poll, for what the polls' fetches gave. */
  function Classified(fetched: nat -> Result<Response, string>): (steps: nat -> PollStep)
    ensures forall m: nat :: steps(m).Repoll? ==> m < PollRetries
  {
    var steps := (m: nat) => ClassifyResults(fetched(m), m);
    assert forall m: nat :: steps(m) == ClassifyResults(fetched(m), m);
    steps
  }

  /** `getAnalysisResults(id, n)`: a re-poll is a recursive re-invocation with `n + 1`
      after waiting, driven by the handler's decision after each poll. */
  function PollFrom(steps: nat -> PollStep, n: nat): PollReport
    requires n <= PollRetries
    requires forall m: nat :: steps(m).Repoll? ==> m < PollRetries
    decreases PollRetries - n
  {
    match steps(n)
    case Repoll =>
      var rest := PollFrom(steps, n + 1);
      PollReport(rest.result, rest.polls + 1, [PollDelay(n)] + rest.delays)
    case Answer(result) => PollReport(result, 1, [])
  }

  function GetAnalysisResults(script: (nat, nat) -> FetchOutcome, baseUrl: string): PollReport {
    PollFrom(Classified(Fetched(script, baseUrl)), 0)
  }

  /** What a report says about polls `n..`: between one poll and every one left, every
      poll but the last re-polled, and the last one answering with the report's result,
      with one delay between each two polls. */
  lemma {:induction false} PollFromSteps(steps: nat -> PollStep, n: nat)
    requires n <= PollRetries
    requires forall m: nat :: steps(m).Repoll? ==> m < PollRetries
    ensures var r := PollFrom(steps, n);
      && 1 <= r.polls <= PollRetries - n + 1
      && |r.delays| == r.polls - 1
      && (forall m :: n <= m < n + r.polls - 1 ==> steps(m) == Repoll)
      && steps(n + r.polls - 1) == Answer(r.result)
    decreases PollRetries - n
  {
    if steps(n) == Repoll {
      PollFromSteps(steps, n + 1);
    }
  }

  /** The wait before re-poll `n + j + 1` is `1000·2^(n + j)`. */
  lemma {:induction false} PollFromDelays(steps: nat -> PollStep, n: nat)
    requires n <= PollRetries
    requires forall m: nat :: steps(m).Repoll? ==> m < PollRetries
    ensures var r := PollFrom(steps, n);
      forall j :: 0 <= j < |r.delays| ==> r.delays[j] == PollDelay(n + j)
    decreases PollRetries - n
  {
    if steps(n) == Repoll {
      PollFromDelays(steps, n + 1);
      var rest := PollFrom(steps, n + 1);
      var r := PollFrom(steps, n);
      forall j | 0 <= j < |r.delays|
        ensures r.delays[j] == PollDelay(n + j)
      {
        if j > 0 {
          assert r.delays[j] == rest.delays[j - 1];
        }
      }
    }
  }

  /** The waits between polls: 1, 2, 4, 8 and 16 seconds. */
  const PollSchedule: seq<nat> := [1000, 2000, 4000, 8000, 16000]

  /** At most six polls, the waits following the poll schedule, the last poll's decision
      giving the answer. */
  lemma PollBounds(steps: nat -> PollStep)
    requires forall m: nat :: steps(m).Repoll? ==> m < PollRetries
    ensures var r := PollFrom(steps, 0);
      && 1 <= r.polls <= PollRetries + 1
      && |r.delays| == r.polls - 1
      && (forall j :: 0 <= j < |r.delays| ==> r.delays[j] == PollSchedule[j])
      && steps(r.polls - 1) == Answer(r.result)
  {
    PollFromSteps(steps, 0);
    PollFromDelays(steps, 0);
    assert Pow2(1) == 2 && Pow2(2) == 4 && Pow2(3) == 8 && Pow2(4) == 16;
  }

  /** A results response is returned only as the last poll's fetch returned it, and an
      error that does not mention `status: 400` is passed on as the last poll's fetch
      threw it. */
  lemma PollPassesOn(fetched: nat -> Result<Response, string>)
    ensures var r := PollFrom(Classified(fetched), 0);
      && (r.result.Ok? ==> r.result == fetched(r.polls - 1))
      && (fetched(r.polls - 1).Err? && !Contains(fetched(r.polls - 1).error, "status: 400") ==>
            r.result == fetched(r.polls - 1))
  {
    var steps := Classified(fetched);
    PollBounds(steps);
    var r := PollFrom(steps, 0);
    ClassifySpec(fetched(r.polls - 1), r.polls - 1);
  }

  /** Five re-polls and a sixth poll that answers: the whole poll schedule is waited. */
  lemma AllRepolled(steps: nat -> PollStep, result: Result<Response, string>)
    requires forall m: nat :: steps(m).Repoll? ==> m < PollRetries
    requires forall m: nat :: m < PollRetries ==> steps(m) == Repoll
    requires steps(PollRetries) == Answer(result)
    ensures PollFrom(steps, 0) == PollReport(result, 6, PollSchedule)
  {
    PollBounds(steps);
    var r := PollFrom(steps, 0);
    assert r.polls == 6;
    assert r.delays == PollSchedule;
  }

  /** A 400 whose reason is one line is classified by its reason alone. */
  lemma ClassifyBadRequest(r: Response, n: nat)
    requires r.status == 400 && SingleLine(Reason(r))
    ensures ClassifyResults(Err(HttpErrorText(r)), n) ==
      if Contains(Reason(r), NotCompleted) then
        (if n < PollRetries then Repoll else Answer(Err(TakingLonger)))
      else if Contains(Reason(r), "syntax error") || Contains(Reason(r), "invalid syntax") then
        Answer(Err(SyntaxFailure))
      else Answer(Err(AnalysisFailed))
  {
    HttpErrorMentions400(r);
    DetailOfHttpError(r);
  }

  /** Each poll of a job reported not completed, by a one-line 400 that names no network
      error or timeout, fails at its first attempt and is re-polled while re-polls remain,
      then given up on. */
  lemma NotCompletedEachPoll(script: (nat, nat) -> FetchOutcome, r: Response, baseUrl: string, m: nat)
    requires forall n, j :: script(n, j) == Responded(r)
    requires r.status == 400 && SingleLine(Reason(r)) && Contains(Reason(r), NotCompleted)
    requires !Contains(Reason(r), "NetworkError") && !Contains(Reason(r), "timeout")
    ensures Classified(Fetched(script, baseUrl))(m) ==
      if m < PollRetries then Repoll else Answer(Err(TakingLonger))
  {
    assert Poll(script, m)(0) == Responded(r);
    PlainHttpErrorNotRetried(Poll(script, m), 0, baseUrl);
    ClassifyBadRequest(r, m);
  }

  /** So every poll is answered that way: six polls, waits of 1, 2, 4, 8 and 16 seconds,
      then the taking-longer message. */
  lemma NeverCompletedTimesOut(script: (nat, nat) -> FetchOutcome, r: Response, baseUrl: string)
    requires forall n, j :: script(n, j) == Responded(r)
    requires r.status == 400 && SingleLine(Reason(r)) && Contains(Reason(r), NotCompleted)
    requires !Contains(Reason(r), "NetworkError") && !Contains(Reason(r), "timeout")
    ensures GetAnalysisResults(script, baseUrl) == PollReport(Err(TakingLonger), 6, PollSchedule)
  {
    var steps := Classified(Fetched(script, baseUrl));
    forall m: nat
      ensures steps(m) == if m < PollRetries then Repoll else Answer(Err(TakingLonger))
    {
      NotCompletedEachPoll(script, r, baseUrl, m);
    }
    AllRepolled(steps, Err(TakingLonger));
  }

  /** A failed job: the backend answers every poll with 400 "Analysis not completed". */
  lemma FailedJobTimesOut(script: (nat, nat) -> FetchOutcome, r: Response, baseUrl: string)
    requires forall n, j :: script(n, j) == Responded(r)
    requires r.status == 400 && Reason(r) == NotCompleted
    ensures GetAnalysisResults(script, baseUrl) == PollReport(Err(TakingLonger), 6, PollSchedule)
  {
    NotCompletedPlain(Reason(r));
    NeverCompletedTimesOut(script, r, baseUrl);
  }

  /** "Analysis not completed" is one line, mentions itself, and mentions neither
      `NetworkError` (it has no `N`) nor `timeout` (it has no `u`). Each fact has its own
      lemma: proved together, the unfolded literals exceed the solver's resource limit. */
  lemma NotCompletedPlain(s: string)
    requires s == NotCompleted
    ensures SingleLine(s) && Contains(s, NotCompleted)
    ensures !Contains(s, "NetworkError") && !Contains(s, "timeout")
  {
    NotCompletedOneLine(s);
    NotCompletedMentionsItself(s);
    NotCompletedNoNetworkError(s);
    NotCompletedNoTimeout(s);
  }

  lemma NotCompletedOneLine(s: string)
    requires s == NotCompleted
    ensures SingleLine(s)
  {
  }

  lemma NotCompletedMentionsItself(s: string)
    requires s == NotCompleted
    ensures Contains(s, NotCompleted)
  {
    assert StartsWith(s, NotCompleted);
  }

  lemma NotCompletedNoNetworkError(s: string)
    requires s == NotCompleted
    ensures !Contains(s, "NetworkError")
  {
    Lacks(s, "NetworkError", 'N');
  }

  lemma NotCompletedNoTimeout(s: string)
    requires s == NotCompleted
    ensures !Contains(s, "timeout")
  {
    Lacks(s, "timeout", 'u');
  }

  /** An error status other than 400 and 429, whose reason names no network error,
      timeout or `status: 400`, is thrown by the first poll as it is: no re-poll. */
  lemma OtherErrorNotPolled(script: (nat, nat) -> FetchOutcome, r: Response, baseUrl: string)
    requires script(0, 0) == Responded(r) && !IsOk(r) && r.status != 429
    requires !StartsWith(Decimal(r.status), "400") && |Decimal(r.status)| >= 3
    requires !Contains(Reason(r), "NetworkError") && !Contains(Reason(r), "timeout")
    requires !Contains(Reason(r), "status: 400")
    ensures GetAnalysisResults(script, baseUrl) == PollReport(Err(HttpErrorText(r)), 1, [])
  {
    assert Poll(script, 0)(0) == script(0, 0);
    PlainHttpErrorNotRetried(Poll(script, 0), 0, baseUrl);
    HttpErrorNot400(r);
    ClassifySpec(Err(HttpErrorText(r)), 0);
  }

  const NotFound: string := "Results not found"

  /** A job still processing has no results yet: the 404 is thrown after one poll, not
      polled again. */
  lemma NotFoundNotPolled(script: (nat, nat) -> FetchOutcome, r: Response, baseUrl: string)
    requires script(0, 0) == Responded(r)
    requires r.status == 404 && Reason(r) == NotFound
    ensures GetAnalysisResults(script, baseUrl) == PollReport(Err(HttpErrorText(r)), 1, [])
  {
    assert Decimal(4) == "4" && Decimal(40) == "40" && Decimal(404) == "404";
    assert "404"[2] != "400"[2];
    NotFoundPlain(Reason(r));
    OtherErrorNotPolled(script, r, baseUrl);
  }

  /** "Results not found" mentions neither `NetworkError` (no `N`), `timeout` (no `i`)
      nor `status: 400` (no colon). Split like `NotCompletedPlain`, for the same reason. */
  lemma NotFoundPlain(s: string)
    requires s == NotFound
    ensures !Contains(s, "NetworkError") && !Contains(s, "timeout")
    ensures !Contains(s, "status: 400")
  {
    NotFoundNoNetworkError(s);
    NotFoundNoTimeout(s);
    NotFoundNo400(s);
  }

  lemma NotFoundNoNetworkError(s: string)
    requires s == NotFound
    ensures !Contains(s, "NetworkError")
  {
    Lacks(s, "NetworkError", 'N');
  }

  lemma NotFoundNoTimeout(s: string)
    requires s == NotFound
    ensures !Contains(s, "timeout")
  {
    Lacks(s, "timeout", 'i');
  }

  lemma NotFoundNo400(s: string)
    requires s == NotFound
    ensures !Contains(s, "status: 400")
  {
    Lacks(s, "status: 400", ':');
  }

  /** A message lacking a character of a word does not mention the word. */
  lemma Lacks(s: string, w: string, c: char)
    requires c in w && c !in s
    ensures !Contains(s, w)
  {
    var i :| 0 <= i < |w| && w[i] == c;
    ContainsNeedsChar(s, w, i);
  }
}

=== FILE: job_tracker.dfy ===
/** The backend's job tracking: submission, recording a finished analysis, and the status
    and results endpoints over the three in-memory stores (status, results, timestamps).

    Request handling is modelled one request at a time; job ids and clock readings are
    parameters. An HTTP error is the status code and the `detail` text FastAPI sends.
 */
module JobTracker {
  import opened Outcomes
  import opened Reports
  import opened Pipeline

  datatype JobStatus = Processing | Completed | Failed

  /** The text stored for each status. */
  function StatusText(s: JobStatus): string {
    match s
    case Processing => "processing"
    case Completed => "completed"
    case Failed => "failed"
  }

  /** `analysis_status`, `analysis_results` and `analysis_timestamps`; a timestamp is a
      clock reading in microseconds. */
  datatype Store = Store(
    status: map<string, JobStatus>,
    results: map<string, Dict>,
    submittedAt: map<string, int>)

  const EmptyStore: Store := Store(map[], map[], map[])

  /** An error response: an `HTTPException(status_code, detail)`, a request body the
      model validation rejected (422, naming the field), or an exception the handler did not
      catch (500). */
  datatype Rejection = HttpError(status: nat, detail: string) | ValidationFailure(field: string) | ServerError

  /** `CodeSubmission`: the request body once validated. */
  datatype CodeSubmission = CodeSubmission(code: string, language: string, mode: string)

  /** Validation of a request body: `code` is required and at least one character long;
      `language` defaults to `python` and `mode` to `full`. */
  function ParseSubmission(code: Option<string>, language: Option<string>, mode: Option<string>)
    : (r: Result<CodeSubmission, Rejection>)
    ensures r.Ok? <==> code.Some? && |code.value| >= 1
    ensures r.Err? ==> r.error == ValidationFailure("code")
    ensures r.Ok? ==> r.value.code == code.value
    ensures r.Ok? ==> r.value.language == language.GetOr("python") && r.value.mode == mode.GetOr("full")
  {
    match code
    case None => Err(ValidationFailure("code"))
    case Some(c) =>
      if |c| == 0 then Err(ValidationFailure("code"))
      else Ok(CodeSubmission(c, language.GetOr("python"), mode.GetOr("full")))
  }

  /** The body `submit_code` answers with. */
  datatype SubmitResponse = SubmitResponse(analysisId: string, status: string, message: string)

  /** `submit_code`: mark the job processing and stamp it; the analysis itself runs after
      the response is sent (`RunAnalysisDirect`). */
  function SubmitCode(s: Store, id: string, now: int): (r: (Store, SubmitResponse))
    ensures r.0.status == s.status[id := Processing]
    ensures r.0.submittedAt == s.submittedAt[id := now]
    ensures r.0.results == s.results
    ensures r.1 == SubmitResponse(id, "processing", "Analysis started")
  {
    (Store(s.status[id := Processing], s.results, s.submittedAt[id := now]),
     SubmitResponse(id, StatusText(Processing), "Analysis started"))
  }

  /** The second half of `run_analysis_direct`: what the run returned (or raised) decides
      the job's status and stored results. */
  function RecordOutcome(s: Store, id: string, run: Result<Dict, string>): (t: Store)
    ensures t.submittedAt == s.submittedAt
    ensures t.status.Keys == s.status.Keys + {id} && t.results.Keys == s.results.Keys + {id}
    ensures forall other :: other != id && other in s.status ==> t.status[other] == s.status[other]
    ensures forall other :: other != id && other in s.results ==> t.results[other] == s.results[other]
    ensures t.status[id] == Completed <==> run.Ok? && ErrorKey !in run.value
    ensures t.status[id] == Completed ==> t.results[id] == run.value
    ensures run.Ok? && ErrorKey in run.value ==> t.results[id] == map[ErrorKey := run.value[ErrorKey]]
    ensures run.Err? ==> t.results[id] == map[ErrorKey := run.error]
    ensures t.status[id] != Completed ==> t.status[id] == Failed
  {
    match run
    case Ok(results) =>
      if ErrorKey in results then
        Store(s.status[id := Failed], s.results[id := map[ErrorKey := results[ErrorKey]]], s.submittedAt)
      else
        Store(s.status[id := Completed], s.results[id := results], s.submittedAt)
    case Err(e) =>
      Store(s.status[id := Failed], s.results[id := map[ErrorKey := e]], s.submittedAt)
  }

  /** The job records of an analysis whose dict is `results`, the run's fields holding
      `cols` and client construction ending in `clientInit`. */
  ghost predicate RecordedAs(t: Store, id: string, cols: Kind -> seq<Option<string>>, clientInit: Option<string>) {
    && id in t.status && id in t.results
    && (t.status[id] == Completed <==> clientInit.None? && Answered(cols))
    && (t.status[id] == Failed <==> clientInit.Some? || !Answered(cols))
    && (t.status[id] == Completed ==> t.results[id].Keys == ReportKeys)
    && (clientInit.Some? ==> t.results[id] == map[ErrorKey := clientInit.value])
    && (clientInit.None? && !Answered(cols) ==>
          t.results[id].Keys == {ErrorKey} && GapError(cols, t.results[id][ErrorKey]))
  }

  /** Recording what `analyze_code` returned. */
  lemma RecordAnalyzed(s: Store, id: string, cols: Kind -> seq<Option<string>>, clientInit: Option<string>, results: Dict)
    requires AnalyzedAs(cols, clientInit, results)
    ensures RecordedAs(RecordOutcome(s, id, Ok(results)), id, cols, clientInit)
  {
    if clientInit.None? && Answered(cols) {
      KeysDistinct();
    }
  }

  /** `run_analysis_direct`: run the pipeline on the submission and record the outcome.
      `analyze_code` turns every failure into an error dict, so the job completes, with the
      four report keys, exactly when the client could be constructed and every reply the
      merge uses carried text; otherwise it fails, keeping only the error. */
  method RunAnalysisDirect(s: Store, id: string, submission: CodeSubmission, env: Environment)
    returns (t: Store)
    ensures t.status.Keys == s.status.Keys + {id} && t.submittedAt == s.submittedAt
    ensures id in t.results
    ensures RecordedAs(t, id, RunColumns(submission.code, submission.language, env), env.clientInit)
    ensures Inv(s) && id in s.status ==> Inv(t)
  {
    ghost var cols := RunColumns(submission.code, submission.language, env);
    var results := Pipeline.AnalyzeCode(submission.code, submission.mode, submission.language, env);
    t := RecordOutcome(s, id, Ok(results));
    RecordAnalyzed(s, id, cols, env.clientInit, results);
    if Inv(s) && id in s.status {
      RecordPreservesInv(s, id, Ok(results));
    }
  }

  /** The stores agree: every job has a status and a timestamp; a processing job has no
      results yet, a completed one has results without `error`, and a failed one has just
      its `error`. */
  ghost predicate Inv(s: Store) {
    && s.status.Keys == s.submittedAt.Keys
    && s.results.Keys <= s.status.Keys
    && (forall id :: id in s.status && s.status[id] == Processing ==> id !in s.results)
    && (forall id :: id in s.status && s.status[id] == Completed ==> id in s.results && ErrorKey !in s.results[id])
    && (forall id :: id in s.status && s.status[id] == Failed ==> id in s.results && s.results[id].Keys == {ErrorKey})
  }

  lemma EmptyStoreInv()
    ensures Inv(EmptyStore)
  {
  }

  /** Submitting under a fresh id (a new `uuid4`) keeps the stores in agreement. */
  lemma SubmitPreservesInv(s: Store, id: string, now: int)
    requires Inv(s) && id !in s.status
    ensures Inv(SubmitCode(s, id, now).0)
  {
  }

  /** Recording the outcome of a submitted job keeps the stores in agreement. */
  lemma RecordPreservesInv(s: Store, id: string, run: Result<Dict, string>)
    requires Inv(s) && id in s.status
    ensures Inv(RecordOutcome(s, id, run))
  {
    var t := RecordOutcome(s, id, run);
    forall other | other in t.status && t.status[other] == Failed
      ensures other in t.results && t.results[other].Keys == {ErrorKey}
    {
      if other == id && run.Ok? && ErrorKey in run.value {
        assert t.results[id] == map[ErrorKey := run.value[ErrorKey]];
      }
    }
  }

  // ---------------------------------------------------------------------------
  // Status and progress
  // ---------------------------------------------------------------------------

  /** Python truthiness of `results[key]` for a present string. */
  predicate Filled(results: Dict, key: string) {
    key in results && results[key] != ""
  }

  /** The step `get_status` reports: while processing with results stored, the first
      filled section in the order correctness, edge cases, semantic, test cases; `completed`
      once completed; `submitting` otherwise, failed jobs included. */
  function CurrentStep(status: JobStatus, results: Option<Dict>): (step: string)
    ensures status == Completed <==> step == "completed"
    ensures step == "correctness" <==>
      status == Processing && results.Some? && Filled(results.value, CorrectnessKey)
    ensures step == "edge_cases" <==>
      status == Processing && results.Some? &&
      !Filled(results.value, CorrectnessKey) && Filled(results.value, EdgeCasesKey)
    ensures step == "semantic" <==>
      status == Processing && results.Some? &&
      !Filled(results.value, CorrectnessKey) && !Filled(results.value, EdgeCasesKey) &&
      Filled(results.value, SemanticKey)
    ensures step == "test_cases" <==>
      status == Processing && results.Some? &&
      !Filled(results.value, CorrectnessKey) && !Filled(results.value, EdgeCasesKey) &&
      !Filled(results.value, SemanticKey) && Filled(results.value, TestCasesKey)
    ensures step == "submitting" <==>
      status == Failed || (status == Processing && (results.None? ||
        (!Filled(results.value, CorrectnessKey) && !Filled(results.value, EdgeCasesKey) &&
         !Filled(results.value, SemanticKey) && !Filled(results.value, TestCasesKey))))
  {
    if status == Processing then
      match results
      case None => "submitting"
      case Some(r) =>
        if Filled(r, CorrectnessKey) then "correctness"
        else if Filled(r, EdgeCasesKey) then "edge_cases"
        else if Filled(r, SemanticKey) then "semantic"
        else if Filled(r, TestCasesKey) then "test_cases"
        else "submitting"
    else if status == Completed then "completed"
    else assert status == Failed; "submitting"
  }

  /** The list of steps `get_progress_percentage` knows. */
  const Steps: seq<string> := ["submitting", "correctness", "edge_cases", "semantic", "test_cases"]

  /** `steps.index(step)`: the first position of `step`, or `None` for `ValueError`. */
  function IndexOf(xs: seq<string>, x: string): (r: Option<nat>)
    ensures r.Some? <==> x in xs
    ensures r.Some? ==> r.value < |xs| && xs[r.value] == x && x !in xs[..r.value]
    decreases |xs|
  {
    if |xs| == 0 then None
    else if xs[0] == x then Some(0)
    else
      var rest := IndexOf(xs[1..], x);
      assert xs[1..] == xs[1..];
      match rest
      case None => None
      case Some(i) =>
        assert xs[..i + 1] == [xs[0]] + xs[1..][..i];
        Some(i + 1)
  }

  /** `get_progress_percentage`: `int(index / 4 * 100)`; a step outside the list raises
      `ValueError`. Every quotient here is exact in floating point. */
  function ProgressPercentage(step: string): (r: Result<nat, string>)
    ensures r.Ok? <==> step in Steps
    ensures r.Err? ==> r.error == "'" + step + "' is not in list"
  {
    match IndexOf(Steps, step)
    case None => Err("'" + step + "' is not in list")
    case Some(i) => Ok(i * 100 / (|Steps| - 1))
  }

  /** The percentages of the five steps. */
  lemma ProgressValues()
    ensures ProgressPercentage("submitting") == Ok(0)
    ensures ProgressPercentage("correctness") == Ok(25)
    ensures ProgressPercentage("edge_cases") == Ok(50)
    ensures ProgressPercentage("semantic") == Ok(75)
    ensures ProgressPercentage("test_cases") == Ok(100)
    ensures ProgressPercentage("completed").Err?
  {
    EarlyProgress();
    LateProgress();
    assert "completed" != Steps[0] && "completed" != Steps[1] && "completed" != Steps[2];
    assert "completed" != Steps[3] && "completed" != Steps[4];
  }

  lemma EarlyProgress()
    ensures ProgressPercentage("submitting") == Ok(0)
    ensures ProgressPercentage("correctness") == Ok(25)
    ensures ProgressPercentage("edge_cases") == Ok(50)
  {
    assert Steps[0] == "submitting";
    assert Steps[1] == "correctness" && Steps[..1] == ["submitting"];
    assert Steps[2] == "edge_cases" && Steps[..2] == ["submitting", "correctness"];
  }

  lemma LateProgress()
    ensures ProgressPercentage("semantic") == Ok(75)
    ensures ProgressPercentage("test_cases") == Ok(100)
  {
    SemanticProgress("semantic");
    TestsProgress("test_cases");
  }

  lemma SemanticProgress(step: string)
    requires step == "semantic"
    ensures ProgressPercentage(step) == Ok(75)
  {
    assert Steps[3] == step && Steps[..3] == ["submitting", "correctness", "edge_cases"];
  }

  lemma TestsProgress(step: string)
    requires step == "test_cases"
    ensures ProgressPercentage(step) == Ok(100)
  {
    assert Steps[4] == step && Steps[..4] == ["submitting", "correctness", "edge_cases", "semantic"];
  }

  /** The body `get_status` answers with. */
  datatype StatusResponse = StatusResponse(status: string, currentStep: string, progress: nat, submittedAt: Option<int>)

  /** `get_status` as written: an unknown id is 404; a progress computation that raises is
      an uncaught exception, hence 500. */
  function GetStatus(s: Store, id: string): (r: Result<StatusResponse, Rejection>)
    ensures id !in s.status <==> r == Err(HttpError(404, "Analysis ID not found"))
    ensures id in s.status ==> (r.Ok? <==> s.status[id] != Completed)
    ensures r.Ok? ==> r.value.status == StatusText(s.status[id])
    ensures r.Ok? ==> r.value.submittedAt == (if id in s.submittedAt then Some(s.submittedAt[id]) else None)
    ensures r.Ok? ==> (r.value.currentStep == CurrentStep(s.status[id], if id in s.results then Some(s.results[id]) else None)
      && ProgressPercentage(r.value.currentStep) == Ok(r.value.progress))
    ensures id in s.status && r.Err? ==> (r == Err(ServerError)
      && ProgressPercentage(CurrentStep(s.status[id], if id in s.results then Some(s.results[id]) else None)).Err?)
  {
    if id !in s.status then Err(HttpError(404, "Analysis ID not found"))
    else
      var step := CurrentStep(s.status[id], if id in s.results then Some(s.results[id]) else None);
      match ProgressPercentage(step)
      case Err(_) => Err(ServerError)
      case Ok(p) =>
        Ok(StatusResponse(StatusText(s.status[id]), step, p,
                          if id in s.submittedAt then Some(s.submittedAt[id]) else None))
  }

  /** The steps `CurrentStep` can report are the listed ones and `completed`. */
  lemma StepsKnown(status: JobStatus, results: Option<Dict>)
    ensures var step := CurrentStep(status, results);
      step in Steps || step == "completed"
  {
  }

  /** Asking for the status of a completed job fails with a server error. */
  lemma CompletedStatusFails(s: Store, id: string)
    requires id in s.status && s.status[id] == Completed
    ensures GetStatus(s, id) == Err(ServerError)
  {
    ProgressValues();
  }

  /** The corrected progress: a completed job is at 100 per cent. */
  function ProgressPercentageCorrected(step: string): (r: Result<nat, string>)
    ensures step == "completed" ==> r == Ok(100)
    ensures step != "completed" ==> r == ProgressPercentage(step)
  {
    if step == "completed" then Ok(100) else ProgressPercentage(step)
  }

  /** The corrected progress of a step `CurrentStep` can report: at most 100, and 100
      exactly for the last section and for completion. */
  lemma CorrectedProgress(step: string)
    requires step in Steps || step == "completed"
    ensures var r := ProgressPercentageCorrected(step);
      && r.Ok? && r.value <= 100
      && (r.value == 100 <==> step == "completed" || step == "test_cases")
  {
    ProgressValues();
    if step != "completed" {
      assert step == Steps[0] || step == Steps[1] || step == Steps[2] || step == Steps[3] || step == Steps[4];
    }
  }

  /** `get_status` with the corrected progress: every known job has a status, and its
      progress is at most 100, exactly 100 once completed. */
  function GetStatusCorrected(s: Store, id: string): (r: Result<StatusResponse, Rejection>)
    ensures id !in s.status <==> r == Err(HttpError(404, "Analysis ID not found"))
    ensures id in s.status <==> r.Ok?
    ensures r.Ok? ==> r.value.status == StatusText(s.status[id]) && r.value.progress <= 100
    ensures r.Ok? ==> (r.value.progress == 100 <==> r.value.currentStep == "completed" || r.value.currentStep == "test_cases")
    ensures r.Ok? && s.status[id] == Completed ==> r.value.progress == 100
    ensures r.Ok? ==> (r.value.currentStep == CurrentStep(s.status[id], if id in s.results then Some(s.results[id]) else None)
      && ProgressPercentageCorrected(r.value.currentStep) == Ok(r.value.progress))
  {
    if id !in s.status then Err(HttpError(404, "Analysis ID not found"))
    else
      var step := CurrentStep(s.status[id], if id in s.results then Some(s.results[id]) else None);
      StepsKnown(s.status[id], if id in s.results then Some(s.results[id]) else None);
      CorrectedProgress(step);
      match ProgressPercentageCorrected(step)
      case Err(_) => Err(ServerError)
      case Ok(p) =>
        Ok(StatusResponse(StatusText(s.status[id]), step, p,
                          if id in s.submittedAt then Some(s.submittedAt[id]) else None))
  }

  /** When the stores agree, a job that is not completed is always at step `submitting`,
      0 per cent: results are stored only when a job finishes, so the per-section steps are
      never reported. */
  lemma UnfinishedJobAtStart(s: Store, id: string)
    requires Inv(s) && id in s.status && s.status[id] != Completed
    ensures GetStatus(s, id).Ok?
    ensures GetStatus(s, id).value.currentStep == "submitting"
    ensures GetStatus(s, id).value.progress == 0
  {
    ProgressValues();
    if s.status[id] == Failed {
      assert CurrentStep(Failed, Some(s.results[id])) == "submitting";
    }
  }

  // ---------------------------------------------------------------------------
  // Results
  // ---------------------------------------------------------------------------

  /** The body `get_results` answers with; `completedAt` is the clock at the request. */
  datatype ResultsResponse = ResultsResponse(analysisId: string, results: Dict, completedAt: int)

  /** `get_results`: no stored results is 404; a job not completed is 400; a stored
      result without a status is the `KeyError` of the status lookup, hence 500. */
  function GetResults(s: Store, id: string, now: int): (r: Result<ResultsResponse, Rejection>)
    ensures id !in s.results ==> r == Err(HttpError(404, "Results not found"))
    ensures id in s.results && id in s.status && s.status[id] != Completed ==>
      r == Err(HttpError(400, "Analysis not completed"))
    ensures r.Ok? <==> id in s.results && id in s.status && s.status[id] == Completed
    ensures r.Ok? ==> r.value == ResultsResponse(id, s.results[id], now)
  {
    if id !in s.results then Err(HttpError(404, "Results not found"))
    else if id !in s.status then Err(ServerError)
    else if s.status[id] != Completed then Err(HttpError(400, "Analysis not completed"))
    else Ok(ResultsResponse(id, s.results[id], now))
  }

  /** When the stores agree, the results endpoint answers by status: a processing job has
      no results yet (404), a failed job's error is withheld (400), and a completed job's
      results carry no `error`. */
  lemma ResultsByStatus(s: Store, id: string, now: int)
    requires Inv(s) && id in s.status
    ensures s.status[id] == Processing ==> GetResults(s, id, now) == Err(HttpError(404, "Results not found"))
    ensures s.status[id] == Failed ==> GetResults(s, id, now) == Err(HttpError(400, "Analysis not completed"))
    ensures s.status[id] == Completed ==> (GetResults(s, id, now).Ok? &&
      ErrorKey !in GetResults(s, id, now).value.results)
  {
  }

  /** A whole job: submit, run, then ask. A run that starts and whose replies all carry
      text yields the four report keys at the results endpoint, while the status endpoint
      as written fails on that job; any other run leaves a failed job at 0 per cent. */
  method SubmitRunAndAsk(s: Store, id: string, submission: CodeSubmission, env: Environment, t0: int, t1: int)
    returns (results: Result<ResultsResponse, Rejection>, status: Result<StatusResponse, Rejection>)
    requires Inv(s) && id !in s.status
    ensures var ok := env.clientInit.None? && Answered(RunColumns(submission.code, submission.language, env));
      && (ok ==> results.Ok? && results.value.results.Keys == ReportKeys)
      && (ok ==> status == Err(ServerError))
      && (!ok ==> results == Err(HttpError(400, "Analysis not completed")))
      && (!ok ==> status.Ok? && status.value.status == "failed" && status.value.progress == 0)
  {
    var (submitted, _) := SubmitCode(s, id, t0);
    SubmitPreservesInv(s, id, t0);
    var done := RunAnalysisDirect(submitted, id, submission, env);
    results := GetResults(done, id, t1);
    status := GetStatus(done, id);
    if env.clientInit.None? && Answered(RunColumns(submission.code, submission.language, env)) {
      CompletedStatusFails(done, id);
    } else {
      UnfinishedJobAtStart(done, id);
    }
  }
}

=== FILE: outcomes.dfy ===
/** Failure-compatible wrappers shared by every module of the model.
    - Option<T> stands for a Python `None` / a missing dict key / an absent JS property.
    - Result<T, E> stands for a computation that may raise: `Err` carries what was raised.
 */
module Outcomes {

  datatype Option<+T> = None | Some(value: T) {

    /** The value, or `default` when absent (Python's `dict.get(key, default)`). */
    function GetOr(default: T): T {
      match this
      case Some(v) => v
      case None => default
    }
  }

  datatype Result<+T, +E> = Ok(value: T) | Err(error: E) {

    predicate IsFailure() {
      Err?
    }

    function PropagateFailure<U>(): Result<U, E>
      requires Err?
    {
      Err(error)
    }

    function Extract(): T
      requires Ok?
    {
      value
    }
  }
}

=== FILE: pipeline.dfy ===
/** `AnalysisPipeline`: chunk a submission, run the four analyses on every chunk, and merge
    the per-chunk answers into one report; `analyze_code` wraps it and turns any failure
    into an error dict.

    Chunks are analysed one after the other, all through one analyzer, so the chat session
    is threaded from each call to the next. Call `n` of a run is scripted by
    `script(n, ·)`; chunk `i` makes calls `4i .. 4i + 3`, in the order semantic,
    correctness, edge cases, test cases.
 */
module Pipeline {
  import opened Outcomes
  import opened Text
  import opened Segmenter
  import opened Reports
  import opened Aggregator
  import opened AnalysisClient

  /** What a pipeline run depends on besides the submission: whether constructing the
      reasoning-service client raised (and with what message), what the syntax tools report
      for the submission, and what every attempt of every call runs into. */
  datatype Environment = Environment(
    clientInit: Option<string>,
    syntax: SyntaxReport,
    script: (nat, nat) -> Attempt)

  /** The attempts of call `n`. */
  function Service(script: (nat, nat) -> Attempt, n: nat): nat -> Attempt {
    (j: nat) => script(n, j)
  }

  /** The analysis type requested for each report field. */
  function AnalysisType(k: Kind): (t: string)
    ensures KnownType(t)
  {
    match k
    case Semantic => SemanticType
    case Correctness => CorrectnessType
    case EdgeCases => EdgeCasesType
    case TestCases => TestCasesType
  }

  /** Position of each analysis among a chunk's four calls. */
  function Index(k: Kind): (i: nat)
    ensures i < 4
  {
    match k
    case Semantic => 0
    case Correctness => 1
    case EdgeCases => 2
    case TestCases => 3
  }

  /** The text a field gets when its call returned no response. */
  function Fallback(k: Kind): string {
    match k
    case Semantic => "No semantic analysis available."
    case Correctness => "No correctness analysis available."
    case EdgeCases => "No edge case analysis available."
    case TestCases => "No test cases available."
  }

  /** What field `k` of a chunk's results must be: the text of the first reply call `n`
      gets, None when that reply carried no text, or the fallback text when every attempt
      of the call raised. */
  function Expected(script: (nat, nat) -> Attempt, n: nat, k: Kind): Option<string> {
    match FirstReply(Service(script, n), 0, MaxRetries)
    case Some(text) => text
    case None => Some(Fallback(k))
  }

  /** The dict `analyze_chunk` returns: one text per field, None where the reply carried none. */
  datatype Answers = Answers(
    semantic: Option<string>, correctness: Option<string>,
    edgeCases: Option<string>, testCases: Option<string>)

  function Answer(a: Answers, k: Kind): Option<string> {
    match k
    case Semantic => a.semantic
    case Correctness => a.correctness
    case EdgeCases => a.edgeCases
    case TestCases => a.testCases
  }

  /** One chunk's analysis: its answers and the session state after. */
  datatype ChunkOutcome = ChunkOutcome(answers: Answers, hasChat: bool)

  /** `reply.get('response', fallback)`: a present `response` is passed on even when it is
      None; the fallback is used only when the call failed. */
  function FieldText(a: Analyzed, k: Kind): Option<string> {
    match a.reply.Response()
    case Some(text) => text
    case None => Some(Fallback(k))
  }

  /** One analysis of a chunk as call `n`. The pipeline asks only known analysis types, so
      the prompt's `ValueError` cannot arise here. */
  function Ask(chunk: Chunk, k: Kind, chat: bool, script: (nat, nat) -> Attempt, n: nat): (a: Analyzed)
    ensures FieldText(a, k) == Expected(script, n, k)
    ensures a.prompt == CreatePrompt(chunk.code, chunk.context, AnalysisType(k)).value
  {
    CallReturnsFirstReply(Service(script, n), 0, chat, MaxRetries, InitialRetryDelay);
    AnalysisClient.AnalyzeCode(chunk, AnalysisType(k), chat, Service(script, n)).value
  }

  /** `analyze_chunk`: tag the chunk with the pipeline's language, then ask the four
      analyses in turn through the one session. */
  method AnalyzeChunk(chunk: Chunk, language: string, hasChat: bool, script: (nat, nat) -> Attempt, base: nat)
    returns (r: ChunkOutcome, ghost prompts: seq<Prompt>)
    ensures forall k: Kind :: Answer(r.answers, k) == Expected(script, base + Index(k), k)
    ensures prompts == ChunkPrompts(chunk, language)
  {
    var tagged := Chunk(chunk.code, chunk.context.(language := language));
    var semantic := Ask(tagged, Semantic, hasChat, script, base);
    var correctness := Ask(tagged, Correctness, semantic.call.hasChat, script, base + 1);
    var edges := Ask(tagged, EdgeCases, correctness.call.hasChat, script, base + 2);
    var tests := Ask(tagged, TestCases, edges.call.hasChat, script, base + 3);
    r := ChunkOutcome(
      Answers(FieldText(semantic, Semantic), FieldText(correctness, Correctness),
              FieldText(edges, EdgeCases), FieldText(tests, TestCases)),
      tests.call.hasChat);
    prompts := [semantic.prompt, correctness.prompt, edges.prompt, tests.prompt];
    TaggedPrompts(chunk, language);
    forall k: Kind
      ensures Answer(r.answers, k) == Expected(script, base + Index(k), k)
    {
      match k {
        case Semantic => assert Answer(r.answers, k) == FieldText(semantic, Semantic);
        case Correctness => assert Answer(r.answers, k) == FieldText(correctness, Correctness);
        case EdgeCases => assert Answer(r.answers, k) == FieldText(edges, EdgeCases);
        case TestCases => assert Answer(r.answers, k) == FieldText(tests, TestCases);
      }
    }
  }

  /** The prompts for a chunk are those of the chunk tagged with the language, asked in
      the source's order. */
  lemma TaggedPrompts(chunk: Chunk, language: string)
    ensures var context := chunk.context.(language := language);
      ChunkPrompts(chunk, language) == [
        CreatePrompt(chunk.code, context, AnalysisType(Semantic)).value,
        CreatePrompt(chunk.code, context, AnalysisType(Correctness)).value,
        CreatePrompt(chunk.code, context, AnalysisType(EdgeCases)).value,
        CreatePrompt(chunk.code, context, AnalysisType(TestCases)).value]
  {
  }

  /** The four prompts `analyze_chunk` has built for a chunk once it carries the
      pipeline's language: a JavaScript run gets the JavaScript test prompt and any other
      language the generic one, whatever language the chunker gave the chunk. */
  function ChunkPrompts(chunk: Chunk, language: string): (ps: seq<Prompt>)
    ensures |ps| == 4
    ensures forall i :: 0 <= i < 4 ==> ps[i].language == Lower(language) && ps[i].code == chunk.code
    ensures ps[3].instructions == JavaScriptTestInstructions <==> Lower(language) == "javascript"
    ensures ps[3].instructions == GenericTestInstructions <==> Lower(language) != "javascript"
  {
    var context := chunk.context.(language := language);
    seq(4, i requires 0 <= i < 4 =>
      CreatePrompt(chunk.code, context, AnalysisType([Semantic, Correctness, EdgeCases, TestCases][i])).value)
  }

  /** What field `k` of the answers of `n` chunks must be, the first chunk's calls
      numbered from `base`: chunk `i`'s text is what call `base + 4i + Index(k)` gives. */
  function ExpectedColumn(script: (nat, nat) -> Attempt, base: nat, n: nat, k: Kind): (c: seq<Option<string>>)
    ensures |c| == n
    ensures forall i :: 0 <= i < n ==> c[i] == Expected(script, base + 4 * i + Index(k), k)
  {
    seq(n, i requires 0 <= i < n => Expected(script, base + 4 * i + Index(k), k))
  }

  /** The texts of field `k` across the chunks' answers. */
  function Column(answers: seq<Answers>, k: Kind): (c: seq<Option<string>>)
    ensures |c| == |answers|
    ensures forall i :: 0 <= i < |answers| ==> c[i] == Answer(answers[i], k)
  {
    seq(|answers|, i requires 0 <= i < |answers| => Answer(answers[i], k))
  }

  /** The chunks analysed in order through one session, chunk `i` making calls
      `base + 4i .. base + 4i + 3`. */
  method AnalyzeChunks(chunks: seq<Chunk>, language: string, hasChat: bool, script: (nat, nat) -> Attempt, base: nat)
    returns (answers: seq<Answers>)
    ensures |answers| == |chunks|
    ensures forall k: Kind :: Column(answers, k) == ExpectedColumn(script, base, |chunks|, k)
  {
    answers := [];
    var chat := hasChat;
    var i := 0;
    while i < |chunks|
      invariant 0 <= i <= |chunks|
      invariant |answers| == i
      invariant forall j, k: Kind :: 0 <= j < i ==> Answer(answers[j], k) == Expected(script, base + 4 * j + Index(k), k)
    {
      var outcome, _ := AnalyzeChunk(chunks[i], language, chat, script, base + 4 * i);
      answers := answers + [outcome.answers];
      chat := outcome.hasChat;
      i := i + 1;
    }
    forall k: Kind
      ensures Column(answers, k) == ExpectedColumn(script, base, |chunks|, k)
    {
    }
  }

  // ---------------------------------------------------------------------------
  // Merging: `"\n\n".join` over texts that may be None
  // ---------------------------------------------------------------------------

  /** Every entry of a column carries text. */
  predicate AllText(c: seq<Option<string>>) {
    forall i :: 0 <= i < |c| ==> c[i].Some?
  }

  /** The texts of a column in which every entry carries one. */
  function Texts(c: seq<Option<string>>): (ts: seq<string>)
    requires AllText(c)
    ensures |ts| == |c|
    ensures forall i :: 0 <= i < |c| ==> ts[i] == c[i].value
  {
    seq(|c|, i requires 0 <= i < |c| => c[i].value)
  }

  /** The position of the first entry without text. */
  function FirstGap(c: seq<Option<string>>): (i: nat)
    requires !AllText(c)
    ensures i < |c| && c[i].None?
    ensures forall j :: 0 <= j < i ==> c[j].Some?
  {
    if c[0].None? then 0
    else
      assert !AllText(c[1..]) by {
        var i :| 0 <= i < |c| && c[i].None?;
        assert c[1..][i - 1] == c[i];
      }
      var g := FirstGap(c[1..]);
      assert forall j :: 1 <= j <= g ==> c[j] == c[1..][j - 1];
      1 + g
  }

  /** The first entry without text is the only one with all earlier entries carrying text. */
  lemma GapAt(c: seq<Option<string>>, i: nat)
    requires i < |c| && c[i].None?
    requires forall j :: 0 <= j < i ==> c[j].Some?
    ensures !AllText(c) && FirstGap(c) == i
  {
  }

  /** Python's `TypeError` text when `str.join` meets None at position `i`. */
  function NoneJoinError(i: nat): string {
    "sequence item " + Decimal(i) + ": expected str instance, NoneType found"
  }

  /** `"\n\n".join(column)`: the texts joined by a blank line, or the `TypeError` naming
      the first entry without text. */
  function JoinTexts(c: seq<Option<string>>): (r: Result<string, string>)
    ensures r.Ok? <==> AllText(c)
    ensures r.Err? ==> exists i :: (0 <= i < |c| && c[i].None?
      && (forall j :: 0 <= j < i ==> c[j].Some?) && r.error == NoneJoinError(i))
  {
    if AllText(c) then Ok(Join(Texts(c), "\n\n")) else Err(NoneJoinError(FirstGap(c)))
  }

  /** The run's answers merge without error: every field of every chunk carries text. */
  ghost predicate Answered(cols: Kind -> seq<Option<string>>) {
    forall k: Kind :: AllText(cols(k))
  }

  /** `e` is the `TypeError` a merge of these columns raises: the fields are joined in
      source order, so it names the first gap of the first field that has one. */
  ghost predicate GapError(cols: Kind -> seq<Option<string>>, e: string) {
    exists k: Kind :: (!AllText(cols(k))
      && (forall k': Kind :: Index(k') < Index(k) ==> AllText(cols(k')))
      && e == NoneJoinError(FirstGap(cols(k))))
  }

  /** `r` is how a merge of these columns ends: the fields' texts joined by a blank line
      when every entry carries text, and the `TypeError` otherwise. */
  ghost predicate MergedAs(cols: Kind -> seq<Option<string>>, r: Result<Report, string>) {
    && (r.Ok? <==> Answered(cols))
    && (r.Ok? ==> forall k: Kind :: AllText(cols(k)) && Field(r.value, k) == Join(Texts(cols(k)), "\n\n"))
    && (r.Err? ==> GapError(cols, r.error))
  }

  /** The columns of some answers, one per field. */
  function Columns(answers: seq<Answers>): Kind -> seq<Option<string>> {
    (k: Kind) => Column(answers, k)
  }

  /** The combined results: each field's per-chunk texts joined by a blank line, in the
      order semantic, correctness, edge cases, test cases; the first join to raise ends it. */
  function Merge(answers: seq<Answers>): (r: Result<Report, string>)
    ensures MergedAs(Columns(answers), r)
  {
    var cols := Columns(answers);
    var semantic := JoinTexts(Column(answers, Semantic));
    var correctness := JoinTexts(Column(answers, Correctness));
    var edges := JoinTexts(Column(answers, EdgeCases));
    var tests := JoinTexts(Column(answers, TestCases));
    ColumnsApply(answers);
    if semantic.Err? then
      GapWitness(cols, Semantic, semantic.error);
      Err(semantic.error)
    else if correctness.Err? then
      GapWitness(cols, Correctness, correctness.error);
      Err(correctness.error)
    else if edges.Err? then
      GapWitness(cols, EdgeCases, edges.error);
      Err(edges.error)
    else if tests.Err? then
      GapWitness(cols, TestCases, tests.error);
      Err(tests.error)
    else
      MergeWhole(cols);
      Ok(Report(semantic.value, correctness.value, edges.value, tests.value))
  }

  lemma ColumnsApply(answers: seq<Answers>)
    ensures forall k: Kind :: Columns(answers)(k) == Column(answers, k)
  {
  }

  /** A gap in field `k`, with none in the fields joined before it, ends the merge with
      its error. */
  lemma GapWitness(cols: Kind -> seq<Option<string>>, k: Kind, e: string)
    requires !AllText(cols(k)) && e == NoneJoinError(FirstGap(cols(k)))
    requires forall k': Kind :: Index(k') < Index(k) ==> AllText(cols(k'))
    ensures MergedAs(cols, Err(e))
  {
  }

  /** With no gap anywhere, the merge is the four joined columns. */
  lemma MergeWhole(cols: Kind -> seq<Option<string>>)
    requires AllText(cols(Semantic)) && AllText(cols(Correctness))
    requires AllText(cols(EdgeCases)) && AllText(cols(TestCases))
    ensures MergedAs(cols, Ok(Report(
      Join(Texts(cols(Semantic)), "\n\n"), Join(Texts(cols(Correctness)), "\n\n"),
      Join(Texts(cols(EdgeCases)), "\n\n"), Join(Texts(cols(TestCases)), "\n\n"))))
  {
    var r := Report(
      Join(Texts(cols(Semantic)), "\n\n"), Join(Texts(cols(Correctness)), "\n\n"),
      Join(Texts(cols(EdgeCases)), "\n\n"), Join(Texts(cols(TestCases)), "\n\n"));
    forall k: Kind
      ensures AllText(cols(k)) && Field(r, k) == Join(Texts(cols(k)), "\n\n")
    {
      match k {
        case Semantic =>
        case Correctness =>
        case EdgeCases =>
        case TestCases =>
      }
    }
  }

  /** A merge's outcome depends on the columns alone. */
  lemma MergedAsSame(c1: Kind -> seq<Option<string>>, c2: Kind -> seq<Option<string>>, r: Result<Report, string>)
    requires forall k: Kind :: c1(k) == c2(k)
    requires MergedAs(c1, r)
    ensures MergedAs(c2, r)
  {
    if r.Err? {
      var k: Kind :| (!AllText(c1(k))
        && (forall k': Kind :: Index(k') < Index(k) ==> AllText(c1(k')))
        && r.error == NoneJoinError(FirstGap(c1(k))));
      assert c1(k) == c2(k);
    }
  }

  /** One chunk's answers merge to themselves when they all carry text; otherwise the
      merge raises naming item 0. */
  lemma MergeSingle(a: Answers)
    ensures Merge([a]).Ok? <==> forall k: Kind :: Answer(a, k).Some?
    ensures Merge([a]).Ok? ==> forall k: Kind :: Field(Merge([a]).value, k) == Answer(a, k).value
    ensures Merge([a]).Err? ==> Merge([a]).error == NoneJoinError(0)
  {
    var r := Merge([a]);
    forall k: Kind
      ensures Column([a], k) == [Answer(a, k)]
      ensures AllText(Column([a], k)) <==> Answer(a, k).Some?
    {
    }
    if r.Ok? {
      forall k: Kind
        ensures Field(r.value, k) == Answer(a, k).value
      {
        assert Texts(Column([a], k)) == [Answer(a, k).value];
      }
    } else {
      var k: Kind :| (!AllText(Columns([a])(k))
        && r.error == NoneJoinError(FirstGap(Columns([a])(k))));
      assert Columns([a])(k) == Column([a], k);
    }
  }

  /** Merging a longer run is joining the merges of its halves with a blank line, and a
      gap in the second half is named by its position in the whole run. */
  lemma MergeAppend(a: seq<Answers>, b: seq<Answers>, k: Kind)
    requires |a| > 0 && |b| > 0
    ensures var ca, cb, cab := Column(a, k), Column(b, k), Column(a + b, k);
      && (AllText(cab) <==> AllText(ca) && AllText(cb))
      && (AllText(ca) && AllText(cb) ==>
            JoinTexts(cab) == Ok(JoinTexts(ca).value + "\n\n" + JoinTexts(cb).value))
      && (!AllText(ca) ==> JoinTexts(cab) == JoinTexts(ca))
      && (AllText(ca) && !AllText(cb) ==> JoinTexts(cab) == Err(NoneJoinError(|a| + FirstGap(cb))))
  {
    ColumnAppend(a, b, k);
    JoinTextsAppend(Column(a, k), Column(b, k), Column(a + b, k));
  }

  lemma ColumnAppend(a: seq<Answers>, b: seq<Answers>, k: Kind)
    ensures Column(a + b, k) == Column(a, k) + Column(b, k)
  {
  }

  /** Joining two non-empty columns: the joins joined by a blank line, or the first gap,
      counted in the whole. */
  lemma JoinTextsAppend(ca: seq<Option<string>>, cb: seq<Option<string>>, cab: seq<Option<string>>)
    requires |ca| > 0 && |cb| > 0 && cab == ca + cb
    ensures && (AllText(cab) <==> AllText(ca) && AllText(cb))
      && (AllText(ca) && AllText(cb) ==>
            JoinTexts(cab) == Ok(JoinTexts(ca).value + "\n\n" + JoinTexts(cb).value))
      && (!AllText(ca) ==> JoinTexts(cab) == JoinTexts(ca))
      && (AllText(ca) && !AllText(cb) ==> JoinTexts(cab) == Err(NoneJoinError(|ca| + FirstGap(cb))))
  {
    if AllText(ca) && AllText(cb) {
      JoinTextsAppendWhole(ca, cb);
    } else if !AllText(ca) {
      JoinTextsAppendLeftGap(ca, cb);
    } else {
      JoinTextsAppendRightGap(ca, cb);
    }
  }

  lemma JoinTextsAppendWhole(ca: seq<Option<string>>, cb: seq<Option<string>>)
    requires |ca| > 0 && |cb| > 0 && AllText(ca) && AllText(cb)
    ensures AllText(ca + cb)
    ensures JoinTexts(ca + cb) == Ok(Join(Texts(ca), "\n\n") + "\n\n" + Join(Texts(cb), "\n\n"))
  {
    assert Texts(ca + cb) == Texts(ca) + Texts(cb);
    JoinAppend(Texts(ca), Texts(cb), "\n\n");
  }

  lemma JoinTextsAppendLeftGap(ca: seq<Option<string>>, cb: seq<Option<string>>)
    requires !AllText(ca)
    ensures !AllText(ca + cb)
    ensures JoinTexts(ca + cb) == Err(NoneJoinError(FirstGap(ca)))
  {
    GapAt(ca + cb, FirstGap(ca));
  }

  lemma JoinTextsAppendRightGap(ca: seq<Option<string>>, cb: seq<Option<string>>)
    requires AllText(ca) && !AllText(cb)
    ensures !AllText(ca + cb)
    ensures JoinTexts(ca + cb) == Err(NoneJoinError(|ca| + FirstGap(cb)))
  {
    var cab, g := ca + cb, FirstGap(cb);
    assert cab[|ca| + g] == cb[g];
    forall j | 0 <= j < |ca| + g
      ensures cab[j].Some?
    {
      if j < |ca| {
        assert cab[j] == ca[j];
      } else {
        assert cab[j] == cb[j - |ca|];
      }
    }
    GapAt(cab, |ca| + g);
  }

  // ---------------------------------------------------------------------------
  // A whole run
  // ---------------------------------------------------------------------------

  /** The chunk `process_code_string` builds itself when the processor returns none. */
  function FallbackChunk(code: string, language: string): Chunk {
    Chunk(code, ChunkContext("unnamed_code" + (if language == "javascript" then ".js" else ".py"),
                             |Split(code, '\n')|, language))
  }

  /** The chunks of a run: the processor is always asked with its default language,
      `python`, whatever the submission's language. */
  function PipelineChunks(code: string, language: string, syntax: SyntaxReport): (chunks: seq<Chunk>)
    ensures |chunks| >= 1
  {
    var segmented := Segmenter.ProcessCodeString(syntax, "python", DefaultMaxChunkSize);
    if |segmented| == 0 then [FallbackChunk(code, language)] else segmented
  }

  /** The processor always returns a chunk, so the fallback chunk is never built, and every
      chunk is named as Python code even for a JavaScript submission; when parsing fails the
      chunks cover the sanitised text line by line. */
  lemma ChunksArePython(code: string, language: string, syntax: SyntaxReport)
    ensures var chunks := PipelineChunks(code, language, syntax);
      && chunks == Segmenter.ProcessCodeString(syntax, "python", DefaultMaxChunkSize)
      && (forall i :: 0 <= i < |chunks| ==> chunks[i].context.fileName == "unnamed_code.py")
      && (syntax.pyDefinitions.None? ==> Join(Codes(chunks), "\n") == syntax.sanitized)
  {
    LowerOfLowerCase("python");
    assert "python" != "javascript";
  }

  /** What each field of a run must hold, chunk by chunk. */
  function RunColumns(code: string, language: string, env: Environment): Kind -> seq<Option<string>> {
    var n := |PipelineChunks(code, language, env.syntax)|;
    (k: Kind) => ExpectedColumn(env.script, 0, n, k)
  }

  /** `process_code_string`: chunk, analyse every chunk, merge; the merge's `TypeError`
      escapes. */
  method ProcessCodeString(code: string, language: string, env: Environment) returns (r: Result<Report, string>)
    ensures MergedAs(RunColumns(code, language, env), r)
  {
    var chunks := PipelineChunks(code, language, env.syntax);
    var answers := AnalyzeChunks(chunks, language, false, env.script, 0);
    r := Merge(answers);
    MergedAsSame(Columns(answers), RunColumns(code, language, env), r);
  }

  /** `r` is how a run whose fields hold these columns ends, as a dict: the four report
      keys holding the merged texts when every entry carries text, and the merge's
      `TypeError` otherwise. */
  ghost predicate DictMergedAs(cols: Kind -> seq<Option<string>>, r: Result<Dict, string>) {
    && (r.Ok? <==> Answered(cols))
    && (r.Ok? ==> r.value.Keys == ReportKeys)
    && (r.Ok? ==> forall k: Kind :: AllText(cols(k)) && r.value[Key(k)] == Join(Texts(cols(k)), "\n\n"))
    && (r.Err? ==> GapError(cols, r.error))
  }

  /** A merge's outcome, as the aggregator passes it on. */
  lemma DictOfMerge(cols: Kind -> seq<Option<string>>, r: Result<Report, string>)
    requires MergedAs(cols, r)
    ensures DictMergedAs(cols, if r.Ok? then Ok(ToDict(r.value)) else Err(r.error))
  {
  }

  /** `run_analysis_from_string`: the merged report, projected by the aggregator, which
      finds every key it needs; the merge's `TypeError` escapes. */
  method RunAnalysisFromString(code: string, language: string, env: Environment) returns (r: Result<Dict, string>)
    ensures DictMergedAs(RunColumns(code, language, env), r)
  {
    ghost var cols := RunColumns(code, language, env);
    var report := ProcessCodeString(code, language, env);
    DictOfMerge(cols, report);
    match report {
      case Err(e) =>
        r := Err(e);
      case Ok(rep) =>
        AggregateReport(rep);
        r := Ok(AggregateResults(ToDict(rep)).value);
    }
  }

  /** The dict `analyze_code` returns when the pipeline raised `message`. */
  function ErrorDict(message: string): (d: Dict)
    ensures d.Keys == ReportKeys + {ErrorKey}
    ensures d[ErrorKey] == message
  {
    KeysDistinct();
    map[ErrorKey := message,
        SemanticKey := "Failed to analyze code semantics.",
        CorrectnessKey := "Failed to assess code correctness.",
        EdgeCasesKey := "Failed to identify edge cases.",
        TestCasesKey := "Failed to generate test cases."]
  }

  /** `r` is what `analyze_code` returns for a run whose fields hold these columns:
      `error` appears exactly when constructing the client raised or the merge raised,
      and the dict is then the error dict of that error; otherwise it holds the four
      merged fields. */
  ghost predicate AnalyzedAs(cols: Kind -> seq<Option<string>>, clientInit: Option<string>, r: Dict) {
    && (ErrorKey in r <==> clientInit.Some? || !Answered(cols))
    && (clientInit.Some? ==> r == ErrorDict(clientInit.value))
    && (clientInit.None? && !Answered(cols) ==> r == ErrorDict(r[ErrorKey]) && GapError(cols, r[ErrorKey]))
    && (clientInit.None? && Answered(cols) ==> DictMergedAs(cols, Ok(r)))
  }

  /** The error dict of a raised merge, or the run's dict. */
  lemma AnalyzedOfRun(cols: Kind -> seq<Option<string>>, run: Result<Dict, string>)
    requires DictMergedAs(cols, run)
    ensures AnalyzedAs(cols, None, if run.Ok? then run.value else ErrorDict(run.error))
  {
    KeysDistinct();
  }

  /** `analyze_code(code, mode, is_code_string=True, language)`: the run's results, or the
      error dict when constructing the client raised or the merge met a reply without
      text. The mode is accepted and not used. */
  method AnalyzeCode(code: string, mode: string, language: string, env: Environment) returns (r: Dict)
    ensures AnalyzedAs(RunColumns(code, language, env), env.clientInit, r)
  {
    ghost var cols := RunColumns(code, language, env);
    KeysDistinct();
    match env.clientInit {
      case Some(e) =>
        r := ErrorDict(e);
      case None =>
        var run := RunAnalysisFromString(code, language, env);
        AnalyzedOfRun(cols, run);
        match run {
          case Ok(d) => r := d;
          case Err(e) => r := ErrorDict(e);
        }
    }
  }

  /** For a one-chunk run, field `k` holds the text of the first reply its call got, the
      fallback text when every attempt raised, and the merge raises naming item 0 when
      that reply carried no text. */
  lemma SingleChunkColumn(script: (nat, nat) -> Attempt, k: Kind)
    ensures script(Index(k), 0).Reply? && script(Index(k), 0).text.Some? ==>
      JoinTexts(ExpectedColumn(script, 0, 1, k)) == Ok(script(Index(k), 0).text.value)
    ensures script(Index(k), 0) == Reply(None) ==>
      JoinTexts(ExpectedColumn(script, 0, 1, k)) == Err(NoneJoinError(0))
    ensures (forall j :: 0 <= j <= MaxRetries ==> script(Index(k), j).Raised?) ==>
      JoinTexts(ExpectedColumn(script, 0, 1, k)) == Ok(Fallback(k))
  {
    var svc := Service(script, Index(k));
    var c := ExpectedColumn(script, 0, 1, k);
    assert c == [Expected(script, Index(k), k)];
    assert svc(0) == script(Index(k), 0);
    if forall j :: 0 <= j <= MaxRetries ==> script(Index(k), j).Raised? {
      assert svc(1) == script(Index(k), 1) && svc(2) == script(Index(k), 2);
      assert svc(3) == script(Index(k), 3);
      assert FirstReply(svc, 4, MaxRetries) == None;
    }
    if AllText(c) {
      assert Texts(c) == [c[0].value];
    } else {
      GapAt(c, 0);
    }
  }
}

=== FILE: rate_limiter.dfy ===
/** The backend's per-client rate limiter: at most 100 requests in a sliding 60-second
    window, tracked per client address in `request_times`.

    Clock readings are integers in microseconds, the resolution of `datetime`; a reading
    `t` is still in the window at `now` when `now - t` is under 60 seconds.
 */
module RateLimiter {

  /** `RATE_LIMIT_WINDOW` (60 s) and `MAX_REQUESTS_PER_WINDOW`. */
  const Window: int := 60_000_000
  const MaxRequests: nat := 100

  const TooManyRequests: string := "Too many requests. Please try again in a minute."

  /** `request_times`: each client's recorded request times. */
  type Log = map<string, seq<int>>

  datatype Decision = Admitted | Rejected(status: nat, detail: string)

  predicate InWindow(t: int, now: int) {
    now - t < Window
  }

  /** The times still in the window, in their recorded order. */
  function Recent(times: seq<int>, now: int): (r: seq<int>)
    ensures |r| <= |times|
    ensures forall t :: t in r <==> t in times && InWindow(t, now)
    decreases |times|
  {
    if |times| == 0 then []
    else
      var rest := Recent(times[1..], now);
      assert forall t :: t in times <==> t == times[0] || t in times[1..];
      if InWindow(times[0], now) then [times[0]] + rest else rest
  }

  /** Pruning keeps order: pruning a concatenation prunes each part. */
  lemma {:induction false} RecentAppend(a: seq<int>, b: seq<int>, now: int)
    ensures Recent(a + b, now) == Recent(a, now) + Recent(b, now)
    decreases |a|
  {
    if |a| == 0 {
      assert a + b == b;
    } else {
      assert (a + b)[1..] == a[1..] + b;
      RecentAppend(a[1..], b, now);
    }
  }

  /** Pruning a list whose times are all in the window changes nothing. */
  lemma {:induction false} RecentKeepsAll(times: seq<int>, now: int)
    requires forall i :: 0 <= i < |times| ==> InWindow(times[i], now)
    ensures Recent(times, now) == times
    decreases |times|
  {
    if |times| > 0 {
      RecentKeepsAll(times[1..], now);
    }
  }

  /** `rate_limit_middleware`: a first-seen client is recorded and admitted; otherwise its
      list is pruned to the window, and the request is rejected with 429 when 100 remain
      (the pruned list is kept, the request not recorded), or recorded and admitted. */
  function Admit(log: Log, client: string, now: int): (r: (Log, Decision))
    ensures client in r.0 && r.0.Keys == log.Keys + {client}
    ensures forall c :: c in log && c != client ==> r.0[c] == log[c]
    ensures client !in log ==> r.0[client] == [now] && r.1 == Admitted
    ensures client in log ==> (r.1 == Admitted <==> |Recent(log[client], now)| < MaxRequests)
    ensures client in log && r.1 == Admitted ==> r.0[client] == Recent(log[client], now) + [now]
    ensures client in log && r.1 != Admitted ==>
      r.0[client] == Recent(log[client], now) && r.1 == Rejected(429, TooManyRequests)
  {
    if client in log then
      var pruned := Recent(log[client], now);
      if |pruned| >= MaxRequests then (log[client := pruned], Rejected(429, TooManyRequests))
      else (log[client := pruned + [now]], Admitted)
    else (log[client := [now]], Admitted)
  }

  /** No client ever has more than 100 recorded times. */
  ghost predicate Bounded(log: Log) {
    forall c :: c in log ==> |log[c]| <= MaxRequests
  }

  lemma AdmitPreservesBound(log: Log, client: string, now: int)
    requires Bounded(log)
    ensures Bounded(Admit(log, client, now).0)
  {
  }

  /** A client's requests at `times`, in order: the log afterwards and how many were admitted. */
  function Run(log: Log, client: string, times: seq<int>): (Log, nat)
    decreases |times|
  {
    if |times| == 0 then (log, 0)
    else
      var (next, decision) := Admit(log, client, times[0]);
      var (last, admitted) := Run(next, client, times[1..]);
      (last, admitted + if decision == Admitted then 1 else 0)
  }

  /** How many times a client already has recorded. */
  function Recorded(log: Log, client: string): nat {
    if client in log then |log[client]| else 0
  }

  /** Requests that all fall in one window starting at `t0`, when the client's recorded
      times are no earlier than `t0`, are admitted at most up to the limit: no pruning
      happens, and each admission adds a recorded time. */
  lemma {:induction false} BurstBound(log: Log, client: string, times: seq<int>, t0: int)
    requires forall i :: 0 <= i < |times| ==> t0 <= times[i] < t0 + Window
    requires client in log ==> forall i :: 0 <= i < |log[client]| ==> t0 <= log[client][i]
    requires Recorded(log, client) <= MaxRequests
    ensures Run(log, client, times).1 + Recorded(log, client) <= MaxRequests
    decreases |times|
  {
    if |times| > 0 {
      var now := times[0];
      var (next, decision) := Admit(log, client, now);
      if client in log {
        RecentKeepsAll(log[client], now);
      }
      assert forall i :: 0 <= i < |next[client]| ==> t0 <= next[client][i];
      BurstBound(next, client, times[1..], t0);
    }
  }

  /** From a fresh start, a run of requests that all fall in one window gets at most 100 admitted. */
  lemma AtMostLimitPerWindow(client: string, times: seq<int>, t0: int)
    requires forall i :: 0 <= i < |times| ==> t0 <= times[i] < t0 + Window
    ensures Run(map[], client, times).1 <= MaxRequests
  {
    BurstBound(map[], client, times, t0);
  }

  // ---------------------------------------------------------------------------
  // The sliding-window bound
  // ---------------------------------------------------------------------------

  /** The times, in order, at which a client's requests are admitted. */
  function AdmittedTimes(log: Log, client: string, times: seq<int>): (r: seq<int>)
    ensures |r| == Run(log, client, times).1
    ensures forall i :: 0 <= i < |r| ==> r[i] in times
    decreases |times|
  {
    if |times| == 0 then []
    else
      var rest := AdmittedTimes(Admit(log, client, times[0]).0, client, times[1..]);
      assert forall i :: 0 <= i < |rest| ==> rest[i] in times;
      (if Admit(log, client, times[0]).1 == Admitted then [times[0]] else []) + rest
  }

  /** Whether `t` lies in the 60-second window that starts at `t0`. */
  predicate InSpan(t: int, t0: int) {
    t0 <= t < t0 + Window
  }

  /** How many of the times lie in the window that starts at `t0`. */
  function Span(times: seq<int>, t0: int): (n: nat)
    ensures n <= |times|
  {
    if |times| == 0 then 0
    else Span(times[..|times| - 1], t0) + if InSpan(times[|times| - 1], t0) then 1 else 0
  }

  lemma SpanAppendOne(times: seq<int>, t: int, t0: int)
    ensures Span(times + [t], t0) == Span(times, t0) + if InSpan(t, t0) then 1 else 0
  {
    assert (times + [t])[..|times|] == times;
  }

  /** A time in a window that also holds `now` is still in the window at `now`, so the
      window holds no more times than pruning at `now` keeps. */
  lemma {:induction false} SpanWithinRecent(times: seq<int>, t0: int, now: int)
    requires InSpan(now, t0)
    ensures Span(times, t0) <= |Recent(times, now)|
    decreases |times|
  {
    if |times| > 0 {
      var init, last := times[..|times| - 1], times[|times| - 1];
      assert times == init + [last];
      RecentAppend(init, [last], now);
      SpanWithinRecent(init, t0, now);
    }
  }

  /** Pruning at a later time after pruning at an earlier one is pruning at the later one. */
  lemma {:induction false} RecentTwice(times: seq<int>, earlier: int, now: int)
    requires earlier <= now
    ensures Recent(Recent(times, earlier), now) == Recent(times, now)
    decreases |times|
  {
    if |times| > 0 {
      RecentTwice(times[1..], earlier, now);
    }
  }

  /** The client's list is the admitted times pruned at the latest request time. */
  predicate Tracks(log: Log, client: string, admitted: seq<int>, last: int) {
    && (client !in log ==> admitted == [])
    && (client in log ==> log[client] == Recent(admitted, last))
  }

  /** The admitted times after one more request at `now`. */
  function Grown(log: Log, client: string, admitted: seq<int>, now: int): seq<int> {
    if Admit(log, client, now).1 == Admitted then admitted + [now] else admitted
  }

  /** One request keeps the client's list tracking the admitted times. */
  lemma AdmitTracks(log: Log, client: string, admitted: seq<int>, last: int, now: int)
    requires last <= now && Tracks(log, client, admitted, last)
    ensures Tracks(Admit(log, client, now).0, client, Grown(log, client, admitted, now), now)
  {
    RecentAppend(admitted, [now], now);
    assert Recent([now], now) == [now];
    if client in log {
      RecentTwice(admitted, last, now);
    }
  }

  /** One request keeps every window at no more than 100 admitted times. */
  lemma AdmitKeepsSpan(log: Log, client: string, admitted: seq<int>, last: int, now: int, t0: int)
    requires last <= now && Tracks(log, client, admitted, last)
    requires Span(admitted, t0) <= MaxRequests
    ensures Span(Grown(log, client, admitted, now), t0) <= MaxRequests
  {
    if Admit(log, client, now).1 == Admitted {
      SpanAppendOne(admitted, now, t0);
      if InSpan(now, t0) && client in log {
        RecentTwice(admitted, last, now);
        SpanWithinRecent(admitted, t0, now);
      }
    }
  }

  /** The admitted times of a run are those of its first request followed by the rest's. */
  lemma AdmittedUnfold(log: Log, client: string, times: seq<int>, admitted: seq<int>)
    requires |times| > 0
    ensures admitted + AdmittedTimes(log, client, times) ==
      Grown(log, client, admitted, times[0]) + AdmittedTimes(Admit(log, client, times[0]).0, client, times[1..])
  {
    var rest := AdmittedTimes(Admit(log, client, times[0]).0, client, times[1..]);
    if Admit(log, client, times[0]).1 == Admitted {
      assert admitted + ([times[0]] + rest) == (admitted + [times[0]]) + rest;
    } else {
      assert [] + rest == rest;
    }
  }

  /** The induction behind `AtMostLimitInAnyWindow`: `admitted` holds the times admitted so
      far and `last` the latest request time. */
  lemma {:induction false} SlidingBound(log: Log, client: string, times: seq<int>, admitted: seq<int>, last: int, t0: int)
    requires forall i, j :: 0 <= i < j < |times| ==> times[i] <= times[j]
    requires |times| > 0 ==> last <= times[0]
    requires Tracks(log, client, admitted, last)
    requires forall u :: Span(admitted, u) <= MaxRequests
    ensures Span(admitted + AdmittedTimes(log, client, times), t0) <= MaxRequests
    decreases |times|
  {
    if |times| == 0 {
      assert admitted + AdmittedTimes(log, client, times) == admitted;
    } else {
      var now := times[0];
      AdmitTracks(log, client, admitted, last, now);
      forall u
        ensures Span(Grown(log, client, admitted, now), u) <= MaxRequests
      {
        AdmitKeepsSpan(log, client, admitted, last, now, u);
      }
      SlidingBound(Admit(log, client, now).0, client, times[1..], Grown(log, client, admitted, now), now, t0);
      AdmittedUnfold(log, client, times, admitted);
    }
  }

  /** From a fresh start, with requests in time order, no 60-second window anywhere in the
      run holds more than 100 admitted requests of one client. */
  lemma AtMostLimitInAnyWindow(client: string, times: seq<int>, t0: int)
    requires forall i, j :: 0 <= i < j < |times| ==> times[i] <= times[j]
    ensures Span(AdmittedTimes(map[], client, times), t0) <= MaxRequests
  {
    SlidingBound(map[], client, times, [], if |times| > 0 then times[0] else 0, t0);
    assert [] + AdmittedTimes(map[], client, times) == AdmittedTimes(map[], client, times);
  }
}

=== FILE: report_format.dfy ===
/** The results page: `formatAnalysisResults`, which serialises a report to Markdown, and
    the guards of `handleAnalyze` that run before anything is submitted.
 */
module ReportFormat {
  import opened Outcomes
  import opened Text
  import opened Reports

  /** The `results` value the page holds: nothing (`null`), or an object with string
      fields and, when the backend's envelope is still around it, a nested `results`
      object. */
  datatype Payload = Falsy | Object(fields: Dict, nested: Option<Dict>)

  /** JavaScript truthiness of `data[key]` for a string field. */
  predicate Truthy(data: Dict, key: string) {
    key in data && data[key] != ""
  }

  /** `results.results || results`: an object is truthy even when empty. */
  function AnalysisData(p: Payload): (data: Dict)
    requires p.Object?
    ensures p.nested.Some? ==> data == p.nested.value
    ensures p.nested.None? ==> data == p.fields
  {
    p.nested.GetOr(p.fields)
  }

  const Fence: string := "```"

  /** Whether the test-case text already opens a code block once trimmed. */
  predicate Fenced(text: string) {
    StartsWith(Trim(text), Fence)
  }

  /** The test-case content: wrapped in a fence tagged with the language unless it is
      already fenced. */
  function FenceTests(text: string, language: string): (r: string)
    ensures Fenced(text) ==> r == text
    ensures !Fenced(text) ==> r == Fence + language + "\n" + text + "\n" + Fence
  {
    if Fenced(text) then text else Fence + language + "\n" + text + "\n" + Fence
  }

  /** One section: a level-two heading, a blank line, the content. */
  function Section(title: string, content: string): string {
    "## " + title + "\n\n" + content
  }

  // ---------------------------------------------------------------------------
  // The layout the page promises
  // ---------------------------------------------------------------------------

  /** The four fields in the page's section order, and their section titles. */
  const SectionKeys: seq<string> := [CorrectnessKey, EdgeCasesKey, SemanticKey, TestCasesKey]
  const Titles: seq<string> := ["Correctness Analysis", "Edge Cases", "Semantic Analysis", "Test Cases"]

  /** The content of the `k`-th section: the field's text, fenced for the test cases. */
  function Content(data: Dict, k: nat, language: string): string
    requires k < 4
  {
    if SectionKeys[k] !in data then ""
    else if k == 3 then FenceTests(data[TestCasesKey], language)
    else data[SectionKeys[k]]
  }

  /** The `k`-th section as the page renders it. */
  function Part(data: Dict, k: nat, language: string): string
    requires k < 4
  {
    Section(Titles[k], Content(data, k, language))
  }

  function Heading(k: nat): string
    requires k < 4
  {
    "## " + Titles[k] + "\n\n"
  }

  /** Which of the four sections a rendered section is, read from its heading; 4 for none. */
  function Rank(section: string): (k: nat)
    ensures k <= 4
  {
    if StartsWith(section, Heading(0)) then 0
    else if StartsWith(section, Heading(1)) then 1
    else if StartsWith(section, Heading(2)) then 2
    else if StartsWith(section, Heading(3)) then 3
    else 4
  }

  /** The heading of the `k`-th section identifies it: the titles differ in their first letter. */
  lemma RankOfPart(data: Dict, k: nat, language: string)
    requires k < 4
    ensures Rank(Part(data, k, language)) == k
  {
    var p := Part(data, k, language);
    assert p == Heading(k) + Content(data, k, language);
    assert p[3] == Titles[k][0];
    forall m | 0 <= m < 4 && StartsWith(p, Heading(m))
      ensures m == k
    {
      assert p[3] == Heading(m)[3] == Titles[m][0];
    }
  }

  // The layout in the abstract: `present(m)` says whether the `m`-th section is pushed,
  // `part(m)` is its text, and `rank` reads a text's section back from its heading.

  /** `rank` reads each of the four parts back. */
  ghost predicate Readable(part: nat -> string, rank: string -> nat) {
    forall m :: 0 <= m < 4 ==> rank(part(m)) == m
  }

  /** `s` lays out the sections from the `k`-th on: the `m`-th is in `s` exactly when it is
      present, every entry is one of them, and they come in the fixed order. */
  ghost predicate LaidOut(present: nat -> bool, part: nat -> string, rank: string -> nat, s: seq<string>, k: nat) {
    && (forall m :: k <= m < 4 ==> (present(m) <==> part(m) in s))
    && (forall i :: 0 <= i < |s| ==> k <= rank(s[i]) < 4 && s[i] == part(rank(s[i])))
    && (forall i, j :: 0 <= i < j < |s| ==> rank(s[i]) < rank(s[j]))
  }

  /** The page's `if`s from the `k`-th section on: each present part, in order. */
  function Pushed(present: nat -> bool, part: nat -> string, k: nat): (s: seq<string>)
    requires k <= 4
    ensures |s| <= 4 - k
    decreases 4 - k
  {
    if k == 4 then [] else (if present(k) then [part(k)] else []) + Pushed(present, part, k + 1)
  }

  /** A layout from the `k`-th section on, with that section present, starts with it. */
  lemma LaidOutHead(present: nat -> bool, part: nat -> string, rank: string -> nat, s: seq<string>, k: nat)
    requires k < 4 && Readable(part, rank) && LaidOut(present, part, rank, s, k) && present(k)
    ensures |s| > 0 && s[0] == part(k)
  {
    var i :| 0 <= i < |s| && s[i] == part(k);
  }

  /** Dropping the first entry, the `k`-th section, leaves a layout from the next one. */
  lemma LaidOutTail(present: nat -> bool, part: nat -> string, rank: string -> nat, s: seq<string>, k: nat)
    requires k < 4 && Readable(part, rank) && LaidOut(present, part, rank, s, k)
    requires |s| > 0 && s[0] == part(k)
    ensures LaidOut(present, part, rank, s[1..], k + 1)
  {
    var rest := s[1..];
    assert s == [s[0]] + rest;
    forall m | k + 1 <= m < 4
      ensures part(m) in s <==> part(m) in rest
    {
      assert rank(part(m)) == m && rank(part(k)) == k;
      assert part(m) != s[0];
    }
    forall i | 0 <= i < |rest|
      ensures k + 1 <= rank(rest[i])
    {
      assert rest[i] == s[i + 1];
      assert rank(s[0]) < rank(s[i + 1]);
    }
    forall i, j | 0 <= i < j < |rest|
      ensures rank(rest[i]) < rank(rest[j])
    {
      assert rest[i] == s[i + 1] && rest[j] == s[j + 1];
    }
  }

  /** With the `k`-th section absent, a layout from it on is a layout from the next one. */
  lemma LaidOutSkip(present: nat -> bool, part: nat -> string, rank: string -> nat, s: seq<string>, k: nat)
    requires k < 4 && LaidOut(present, part, rank, s, k) && !present(k)
    ensures LaidOut(present, part, rank, s, k + 1)
  {
    forall i | 0 <= i < |s|
      ensures k + 1 <= rank(s[i])
    {
      assert s[i] == part(rank(s[i]));
    }
  }

  /** There is only one layout: any list laid out from the `k`-th section on is `Pushed`. */
  lemma {:induction false} LaidOutUnique(present: nat -> bool, part: nat -> string, rank: string -> nat, s: seq<string>, k: nat)
    requires k <= 4 && Readable(part, rank) && LaidOut(present, part, rank, s, k)
    ensures s == Pushed(present, part, k)
    decreases 4 - k
  {
    if k == 4 {
    } else if present(k) {
      LaidOutHead(present, part, rank, s, k);
      LaidOutTail(present, part, rank, s, k);
      LaidOutUnique(present, part, rank, s[1..], k + 1);
      assert s == [s[0]] + s[1..];
    } else {
      LaidOutSkip(present, part, rank, s, k);
      LaidOutUnique(present, part, rank, s, k + 1);
    }
  }

  /** Putting the present `k`-th section before a layout from the next one gives a layout
      from the `k`-th. */
  lemma LaidOutCons(present: nat -> bool, part: nat -> string, rank: string -> nat, rest: seq<string>, k: nat)
    requires k < 4 && Readable(part, rank) && LaidOut(present, part, rank, rest, k + 1) && present(k)
    ensures LaidOut(present, part, rank, [part(k)] + rest, k)
  {
    var s := [part(k)] + rest;
    forall m | k + 1 <= m < 4
      ensures part(m) in s <==> part(m) in rest
    {
      assert rank(part(m)) == m && rank(part(k)) == k;
    }
    forall i | 0 < i < |s|
      ensures s[i] == rest[i - 1]
    {
    }
    assert rank(s[0]) == k;
  }

  /** A layout from the next section is one from the `k`-th when the `k`-th is absent. */
  lemma LaidOutWiden(present: nat -> bool, part: nat -> string, rank: string -> nat, rest: seq<string>, k: nat)
    requires k < 4 && Readable(part, rank) && LaidOut(present, part, rank, rest, k + 1) && !present(k)
    ensures LaidOut(present, part, rank, rest, k)
  {
  }

  /** `Pushed` is itself a layout. */
  lemma {:induction false} PushedLaidOut(present: nat -> bool, part: nat -> string, rank: string -> nat, k: nat)
    requires k <= 4 && Readable(part, rank)
    ensures LaidOut(present, part, rank, Pushed(present, part, k), k)
    decreases 4 - k
  {
    if k < 4 {
      PushedLaidOut(present, part, rank, k + 1);
      if present(k) {
        LaidOutCons(present, part, rank, Pushed(present, part, k + 1), k);
      } else {
        assert Pushed(present, part, k) == [] + Pushed(present, part, k + 1);
        LaidOutWiden(present, part, rank, Pushed(present, part, k + 1), k);
      }
    }
  }

  // The page's layout: the four fields, their sections, and `Rank`.

  /** Whether the page pushes the `m`-th section: its field is truthy. */
  function Present(data: Dict): nat -> bool {
    (m: nat) => m < 4 && Truthy(data, SectionKeys[m])
  }

  /** The page's four sections. */
  function Parts(data: Dict, language: string): nat -> string {
    (m: nat) => if m < 4 then Part(data, m, language) else ""
  }

  lemma PartsReadable(data: Dict, language: string)
    ensures Readable(Parts(data, language), Rank)
  {
    forall m | 0 <= m < 4
      ensures Rank(Parts(data, language)(m)) == m
    {
      RankOfPart(data, m, language);
    }
  }

  /** `s` is the page's layout: the `m`-th section is in `s` exactly when its field is
      truthy, every entry is one of the four sections, and they come in the order
      correctness, edge cases, semantic, test cases. */
  ghost predicate IsLayout(data: Dict, language: string, s: seq<string>) {
    LaidOut(Present(data), Parts(data, language), Rank, s, 0)
  }

  /** Every section starts with a level-two heading. */
  lemma PartsHeaded(data: Dict, language: string, s: seq<string>)
    requires IsLayout(data, language, s)
    ensures forall i :: 0 <= i < |s| ==> StartsWith(s[i], "## ")
  {
    forall i | 0 <= i < |s|
      ensures StartsWith(s[i], "## ")
    {
      var k := Rank(s[i]);
      assert s[i] == Part(data, k, language);
      assert s[i] == "## " + (Titles[k] + "\n\n" + Content(data, k, language));
    }
  }

  /** A layout is empty exactly when no field is truthy. */
  lemma LayoutEmpty(data: Dict, language: string, s: seq<string>)
    requires IsLayout(data, language, s)
    ensures |s| == 0 <==> (!Truthy(data, CorrectnessKey) && !Truthy(data, EdgeCasesKey)
      && !Truthy(data, SemanticKey) && !Truthy(data, TestCasesKey))
  {
    assert SectionKeys[0] == CorrectnessKey && SectionKeys[1] == EdgeCasesKey;
    assert SectionKeys[2] == SemanticKey && SectionKeys[3] == TestCasesKey;
    var present := Present(data);
    assert present(0) == Truthy(data, CorrectnessKey) && present(1) == Truthy(data, EdgeCasesKey);
    assert present(2) == Truthy(data, SemanticKey) && present(3) == Truthy(data, TestCasesKey);
    if |s| > 0 {
      assert Parts(data, language)(Rank(s[0])) in s;
    }
  }

  /** `formatAnalysisResults`' four `if`s: the correctness, edge-case, semantic and
      test-case sections, each pushed only when its field is truthy. */
  function Sections(data: Dict, language: string): (s: seq<string>)
    ensures |s| <= 4
    ensures |s| == 0 <==> (!Truthy(data, CorrectnessKey) && !Truthy(data, EdgeCasesKey)
      && !Truthy(data, SemanticKey) && !Truthy(data, TestCasesKey))
    ensures forall i :: 0 <= i < |s| ==> StartsWith(s[i], "## ")
    ensures IsLayout(data, language, s)
  {
    var s := Pushed(Present(data), Parts(data, language), 0);
    PartsReadable(data, language);
    PushedLaidOut(Present(data), Parts(data, language), Rank, 0);
    PartsHeaded(data, language, s);
    LayoutEmpty(data, language, s);
    s
  }

  /** The section of a truthy field is what the page pushes for it. */
  lemma PartsAreSections(data: Dict, language: string)
    ensures Truthy(data, CorrectnessKey) ==> Part(data, 0, language) == Section("Correctness Analysis", data[CorrectnessKey])
    ensures Truthy(data, EdgeCasesKey) ==> Part(data, 1, language) == Section("Edge Cases", data[EdgeCasesKey])
    ensures Truthy(data, SemanticKey) ==> Part(data, 2, language) == Section("Semantic Analysis", data[SemanticKey])
    ensures Truthy(data, TestCasesKey) ==>
      Part(data, 3, language) == Section("Test Cases", FenceTests(data[TestCasesKey], language))
  {
  }

  const Rule: string := "\n\n---\n\n"

  /** `formatAnalysisResults(results)`, with the page's selected language: nothing for a
      falsy payload, otherwise the page's layout of the sections joined by horizontal rules. */
  function FormatAnalysisResults(results: Payload, language: string): (md: string)
    ensures results.Falsy? ==> md == ""
    ensures results.Object? ==> exists s :: IsLayout(AnalysisData(results), language, s) && md == Join(s, Rule)
    ensures results.Object? ==> forall s :: IsLayout(AnalysisData(results), language, s) ==> md == Join(s, Rule)
  {
    match results
    case Falsy => ""
    case Object(_, _) =>
      var data := AnalysisData(results);
      LayoutUnique(data, language);
      Join(Sections(data, language), Rule)
  }

  /** Every layout of a report is its `Sections`. */
  lemma LayoutUnique(data: Dict, language: string)
    ensures forall s :: IsLayout(data, language, s) ==> s == Sections(data, language)
  {
    PartsReadable(data, language);
    forall s | IsLayout(data, language, s)
      ensures s == Sections(data, language)
    {
      LaidOutUnique(Present(data), Parts(data, language), Rank, s, 0);
    }
  }

  /** The join of non-empty pieces is empty only when there are none. */
  lemma {:induction false} JoinNonEmpty(parts: seq<string>, sep: string)
    requires |parts| > 0 && |parts[0]| > 0
    ensures |Join(parts, sep)| > 0
  {
  }

  /** The output is empty exactly when the input is falsy or no field is truthy. */
  lemma EmptyOutput(results: Payload, language: string)
    ensures FormatAnalysisResults(results, language) == "" <==>
      results.Falsy? ||
      (var data := AnalysisData(results);
       !Truthy(data, CorrectnessKey) && !Truthy(data, EdgeCasesKey)
       && !Truthy(data, SemanticKey) && !Truthy(data, TestCasesKey))
  {
    if results.Object? {
      var s := Sections(AnalysisData(results), language);
      if |s| > 0 {
        JoinNonEmpty(s, Rule);
      }
    }
  }

  /** Joining four pieces puts the separator between each neighbouring pair. */
  lemma JoinFour(a: string, b: string, c: string, t: string, sep: string)
    ensures Join([a, b, c, t], sep) == a + sep + b + sep + c + sep + t
  {
    assert [c, t][1..] == [t];
    assert Join([c, t], sep) == c + sep + t;
    assert [b, c, t][1..] == [c, t];
    assert Join([b, c, t], sep) == b + sep + (c + sep + t);
    assert [a, b, c, t][1..] == [b, c, t];
    assert Join([a, b, c, t], sep) == a + sep + (b + sep + (c + sep + t));
  }

  /** A report with every field filled has all four sections, in the order correctness,
      edge cases, semantic, test cases. */
  lemma FullReportSections(r: Report, language: string)
    requires r.semantic != "" && r.correctness != "" && r.edgeCases != "" && r.testCases != ""
    ensures Sections(ToDict(r), language) ==
      [Section("Correctness Analysis", r.correctness), Section("Edge Cases", r.edgeCases),
       Section("Semantic Analysis", r.semantic), Section("Test Cases", FenceTests(r.testCases, language))]
  {
    var d := ToDict(r);
    assert d[CorrectnessKey] == r.correctness && d[EdgeCasesKey] == r.edgeCases;
    assert d[SemanticKey] == r.semantic && d[TestCasesKey] == r.testCases;
    assert SectionKeys[0] == CorrectnessKey && SectionKeys[1] == EdgeCasesKey;
    assert SectionKeys[2] == SemanticKey && SectionKeys[3] == TestCasesKey;
    PartsAreSections(d, language);
    var present, part := Present(d), Parts(d, language);
    assert present(0) && present(1) && present(2) && present(3);
    var p0, p1, p2, p3 := part(0), part(1), part(2), part(3);
    assert p0 == Part(d, 0, language) && p1 == Part(d, 1, language);
    assert p2 == Part(d, 2, language) && p3 == Part(d, 3, language);
    assert Pushed(present, part, 3) == [p3] + Pushed(present, part, 4) == [p3];
    assert Pushed(present, part, 2) == [p2] + [p3] == [p2, p3];
    assert Pushed(present, part, 1) == [p1] + [p2, p3] == [p1, p2, p3];
    assert Pushed(present, part, 0) == [p0] + [p1, p2, p3] == [p0, p1, p2, p3];
    assert Sections(d, language) == [p0, p1, p2, p3];
    assert p0 == Section("Correctness Analysis", r.correctness);
    assert p1 == Section("Edge Cases", r.edgeCases);
    assert p2 == Section("Semantic Analysis", r.semantic);
    assert p3 == Section("Test Cases", FenceTests(r.testCases, language));
  }

  /** The full report renders as its four sections separated by horizontal rules. */
  lemma FullReportLayout(r: Report, language: string)
    requires r.semantic != "" && r.correctness != "" && r.edgeCases != "" && r.testCases != ""
    ensures FormatAnalysisResults(Object(ToDict(r), None), language) ==
      Section("Correctness Analysis", r.correctness) + Rule +
      Section("Edge Cases", r.edgeCases) + Rule +
      Section("Semantic Analysis", r.semantic) + Rule +
      Section("Test Cases", FenceTests(r.testCases, language))
  {
    FullReportSections(r, language);
    JoinFour(Section("Correctness Analysis", r.correctness), Section("Edge Cases", r.edgeCases),
      Section("Semantic Analysis", r.semantic), Section("Test Cases", FenceTests(r.testCases, language)), Rule);
  }

  /** The backend's envelope and its `results` render the same. */
  lemma EnvelopeTransparent(envelope: Dict, inner: Dict, language: string)
    ensures FormatAnalysisResults(Object(envelope, Some(inner)), language)
      == FormatAnalysisResults(Object(inner, None), language)
  {
  }

  /** Trimming leaves text that starts and ends with a non-space character unchanged. */
  lemma TrimBetweenNonSpace(s: string)
    requires |s| > 0 && !IsJsSpace(s[0]) && !IsJsSpace(s[|s| - 1])
    ensures Trim(s) == s
  {
  }

  /** Fencing is idempotent: a wrapped text counts as fenced and is not wrapped again. */
  lemma FenceIdempotent(text: string, language: string)
    ensures Fenced(FenceTests(text, language))
    ensures FenceTests(FenceTests(text, language), language) == FenceTests(text, language)
  {
    var f := FenceTests(text, language);
    if !Fenced(text) {
      assert f[0] == '`' && f[|f| - 1] == '`';
      TrimBetweenNonSpace(f);
      assert f[..3] == Fence;
    }
  }

  /** A wrapped text sits between the opening line and the closing fence, unchanged. */
  lemma FencedContent(text: string, language: string)
    ensures !Fenced(text) ==> var f := FenceTests(text, language);
      f[|Fence + language + "\n"|..|f| - |"\n" + Fence|] == text
  {
  }

  // ---------------------------------------------------------------------------
  // handleAnalyze guards
  // ---------------------------------------------------------------------------

  /** What pressing Analyze does: show an error, or go on to submit. */
  datatype Action = ShowError(message: string) | Submit(code: string, mode: string, language: string)

  /** The guards of `handleAnalyze`. Empty code is refused; Python and JavaScript code must
      also pass the page's looks-like-code pattern, whose verdict is `looksLikeCode`. */
  function HandleAnalyze(code: string, mode: string, language: string, looksLikeCode: bool): (a: Action)
    ensures code == "" ==> a == ShowError("Please enter " + language + " code to analyze")
    ensures a.Submit? <==> code != "" && (looksLikeCode || (language != "python" && language != "javascript"))
    ensures a.Submit? ==> a == Submit(code, mode, language)
    ensures code != "" && !looksLikeCode && language == "python" ==>
      a == ShowError("This appears to be plain text, not Python code. Please enter valid Python code.")
    ensures code != "" && !looksLikeCode && language == "javascript" ==>
      a == ShowError("This appears to be plain text, not JavaScript code. Please enter valid JavaScript code.")
  {
    if code == "" then ShowError("Please enter " + language + " code to analyze")
    else if language == "python" && !looksLikeCode then
      ShowError("This appears to be plain text, not Python code. Please enter valid Python code.")
    else if language == "javascript" && !looksLikeCode then
      ShowError("This appears to be plain text, not JavaScript code. Please enter valid JavaScript code.")
    else Submit(code, mode, language)
  }
}

=== FILE: reports.dfy ===
/** The four analysis kinds, the per-submission report, and the dict shape in which the
    backend passes results between the pipeline, the aggregator and the job store. */
module Reports {

  datatype Kind = Semantic | Correctness | EdgeCases | TestCases

  /** A report: one text per analysis kind. */
  datatype Report = Report(semantic: string, correctness: string, edgeCases: string, testCases: string)

  function Field(r: Report, k: Kind): string {
    match k
    case Semantic => r.semantic
    case Correctness => r.correctness
    case EdgeCases => r.edgeCases
    case TestCases => r.testCases
  }

  /** A Python `Dict[str, str]` of results. */
  type Dict = map<string, string>

  const SemanticKey: string := "semantic_analysis"
  const CorrectnessKey: string := "correctness_analysis"
  const EdgeCasesKey: string := "edge_cases"
  const TestCasesKey: string := "test_cases"
  const ErrorKey: string := "error"

  function Key(k: Kind): string {
    match k
    case Semantic => SemanticKey
    case Correctness => CorrectnessKey
    case EdgeCases => EdgeCasesKey
    case TestCases => TestCasesKey
  }

  const ReportKeys: set<string> := {SemanticKey, CorrectnessKey, EdgeCasesKey, TestCasesKey}

  /** The four report keys are distinct, none of them is `error`, and they are exactly
      the keys of the four kinds. */
  lemma KeysDistinct()
    ensures forall k1: Kind, k2: Kind :: Key(k1) == Key(k2) ==> k1 == k2
    ensures forall k: Kind :: Key(k) in ReportKeys && Key(k) != ErrorKey
    ensures forall key :: key in ReportKeys ==> exists k: Kind :: Key(k) == key
    ensures ErrorKey !in ReportKeys
  {
    assert SemanticKey[0] == 's' && CorrectnessKey[0] == 'c' && EdgeCasesKey[0] == 'e' && TestCasesKey[0] == 't';
    assert EdgeCasesKey[1] == 'd' && ErrorKey[1] == 'r';
    assert Key(Semantic) == SemanticKey && Key(Correctness) == CorrectnessKey;
    assert Key(EdgeCases) == EdgeCasesKey && Key(TestCases) == TestCasesKey;
  }

  /** The dict with the four report keys. */
  function ToDict(r: Report): (d: Dict)
    ensures d.Keys == ReportKeys
    ensures forall k: Kind :: d[Key(k)] == Field(r, k)
    ensures ErrorKey !in d
  {
    KeysDistinct();
    map[SemanticKey := r.semantic, CorrectnessKey := r.correctness,
        EdgeCasesKey := r.edgeCases, TestCasesKey := r.testCases]
  }
}

/** `ResultsAggregator.aggregate_results`: projects a results dict onto the four report keys. */
module Aggregator {
  import opened Outcomes
  import opened Reports

  /** Python's text for a `KeyError` on `key`. */
  function KeyErrorText(key: string): string {
    "'" + key + "'"
  }

  function AggregateResults(d: Dict): (r: Result<Dict, string>)
    ensures r.Ok? <==> ReportKeys <= d.Keys
    ensures r.Ok? ==> r.value.Keys == ReportKeys
    ensures r.Ok? ==> forall k: Kind :: r.value[Key(k)] == d[Key(k)]
    ensures r.Ok? ==> ErrorKey !in r.value
    ensures r.Err? ==> exists k: Kind :: Key(k) !in d && r.error == KeyErrorText(Key(k))
  {
    KeysDistinct();
    if SemanticKey !in d then Err(KeyErrorText(SemanticKey))
    else if CorrectnessKey !in d then Err(KeyErrorText(CorrectnessKey))
    else if EdgeCasesKey !in d then Err(KeyErrorText(EdgeCasesKey))
    else if TestCasesKey !in d then Err(KeyErrorText(TestCasesKey))
    else
      assert Key(Semantic) == SemanticKey && Key(Correctness) == CorrectnessKey;
      assert Key(EdgeCases) == EdgeCasesKey && Key(TestCases) == TestCasesKey;
      Ok(map[SemanticKey := d[SemanticKey], CorrectnessKey := d[CorrectnessKey],
             EdgeCasesKey := d[EdgeCasesKey], TestCasesKey := d[TestCasesKey]])
  }

  /** Aggregating a report's own dict gives that dict back. */
  lemma AggregateReport(report: Report)
    ensures AggregateResults(ToDict(report)) == Ok(ToDict(report))
  {
    var d := ToDict(report);
    var r := AggregateResults(d);
    assert r.Ok?;
    forall key | key in ReportKeys
      ensures r.value[key] == d[key]
    {
      KeysDistinct();
      var k: Kind :| Key(k) == key;
    }
  }
}

=== FILE: segmenter.dfy ===
/** The code processor: splits a submission into chunks of bounded size.

    The Python syntax tree and the JavaScript patterns are foreign library behaviour; their
    outputs for a submission arrive as a `SyntaxReport` (the sanitised text, the matched
    JavaScript blocks, and the unparsed definition texts in walk order, or `None` when parsing
    raised). The packing, the fallbacks and the chunk metadata are modelled exactly.
 */
module Segmenter {
  import opened Outcomes
  import opened Text

  /** `CodeProcessor(max_chunk_size=8000)`. */
  const DefaultMaxChunkSize: int := 8000

  datatype ChunkContext = ChunkContext(fileName: string, totalLines: nat, language: string)

  datatype Chunk = Chunk(code: string, context: ChunkContext)

  /** What the sanitiser, the JavaScript block patterns and the Python parser report
      for one submission. `pyDefinitions` is `None` when `ast.parse` raised; otherwise it
      holds `ast.unparse` of every function and class definition, in `ast.walk` order. */
  datatype SyntaxReport = SyntaxReport(
    sanitized: string,
    jsBlocks: seq<string>,
    pyDefinitions: Option<seq<string>>)

  // ---------------------------------------------------------------------------
  // Greedy packing, shared by the line chunker and the definition chunker
  // ---------------------------------------------------------------------------

  /** How an item is priced: a line costs its length plus its newline, a definition
      costs its length. */
  datatype Pricing = PerLine | PerDefinition

  function Cost(pricing: Pricing, item: string): nat {
    match pricing
    case PerLine => |item| + 1
    case PerDefinition => |item|
  }

  function TotalCost(pricing: Pricing, items: seq<string>): nat
    decreases |items|
  {
    if |items| == 0 then 0 else Cost(pricing, items[0]) + TotalCost(pricing, items[1..])
  }

  lemma {:induction false} TotalCostAppend(pricing: Pricing, a: seq<string>, b: seq<string>)
    ensures TotalCost(pricing, a + b) == TotalCost(pricing, a) + TotalCost(pricing, b)
    decreases |a|
  {
    if |a| == 0 {
      assert a + b == b;
    } else {
      assert (a + b)[1..] == a[1..] + b;
      TotalCostAppend(pricing, a[1..], b);
    }
  }

  function Flatten(groups: seq<seq<string>>): seq<string>
    decreases |groups|
  {
    if |groups| == 0 then [] else groups[0] + Flatten(groups[1..])
  }

  /** A greedy packing of `items`: contiguous non-empty groups in order, each group of two
      or more items within `maxSize`, and each group closed only because the next item
      would have pushed it past `maxSize`. */
  predicate IsGreedyPacking(pricing: Pricing, maxSize: int, items: seq<string>, groups: seq<seq<string>>) {
    && Flatten(groups) == items
    && (forall i :: 0 <= i < |groups| ==> |groups[i]| > 0)
    && (forall i :: 0 <= i < |groups| && |groups[i]| >= 2 ==> TotalCost(pricing, groups[i]) <= maxSize)
    && (forall i :: 0 <= i < |groups| - 1 ==>
          TotalCost(pricing, groups[i]) + Cost(pricing, groups[i + 1][0]) > maxSize)
  }

  /** The packing loop of the chunkers, with the open buffer `current` of cost `size`:
      an item is appended unless the buffer is non-empty and the item would push it past
      `maxSize`, in which case the buffer is flushed first. */
  function PackFrom(pricing: Pricing, maxSize: int, items: seq<string>, current: seq<string>, size: nat)
    : seq<seq<string>>
    decreases |items|
  {
    if |items| == 0 then
      (if |current| > 0 then [current] else [])
    else
      var cost := Cost(pricing, items[0]);
      if size + cost > maxSize && |current| > 0 then
        [current] + PackFrom(pricing, maxSize, items[1..], [items[0]], cost)
      else
        PackFrom(pricing, maxSize, items[1..], current + [items[0]], size + cost)
  }

  /** The facts `PackFrom` keeps about its open buffer. */
  ghost predicate BufferOk(pricing: Pricing, maxSize: int, current: seq<string>, size: nat) {
    && size == TotalCost(pricing, current)
    && (|current| >= 2 ==> size <= maxSize)
  }

  /** `groups` is a greedy packing of `current + items` whose first group extends `current`. */
  ghost predicate PacksAfter(
    pricing: Pricing, maxSize: int, current: seq<string>, items: seq<string>, groups: seq<seq<string>>)
  {
    && IsGreedyPacking(pricing, maxSize, current + items, groups)
    && (|current| > 0 ==> |groups| > 0 && |current| <= |groups[0]| && groups[0][..|current|] == current)
  }

  lemma {:induction false} PackFromGreedy(
    pricing: Pricing, maxSize: int, items: seq<string>, current: seq<string>, size: nat)
    requires BufferOk(pricing, maxSize, current, size)
    ensures PacksAfter(pricing, maxSize, current, items, PackFrom(pricing, maxSize, items, current, size))
    decreases |items|
  {
    if |items| == 0 {
      assert current + items == current;
      if |current| > 0 {
        assert Flatten([current]) == current + Flatten([]);
      }
    } else {
      var x := items[0];
      var cost := Cost(pricing, x);
      assert TotalCost(pricing, [x]) == cost;
      if size + cost > maxSize && |current| > 0 {
        PackFromGreedy(pricing, maxSize, items[1..], [x], cost);
        FlushStep(pricing, maxSize, items, current, size);
      } else {
        TotalCostAppend(pricing, current, [x]);
        PackFromGreedy(pricing, maxSize, items[1..], current + [x], size + cost);
        AppendStep(pricing, maxSize, items, current, size);
      }
    }
  }

  /** The step that flushes the buffer before the next item. */
  lemma FlushStep(pricing: Pricing, maxSize: int, items: seq<string>, current: seq<string>, size: nat)
    requires BufferOk(pricing, maxSize, current, size)
    requires |items| > 0 && |current| > 0 && size + Cost(pricing, items[0]) > maxSize
    requires PacksAfter(pricing, maxSize, [items[0]], items[1..],
      PackFrom(pricing, maxSize, items[1..], [items[0]], Cost(pricing, items[0])))
    ensures PacksAfter(pricing, maxSize, current, items, PackFrom(pricing, maxSize, items, current, size))
  {
    var x := items[0];
    var rest := PackFrom(pricing, maxSize, items[1..], [x], Cost(pricing, x));
    var gs := PackFrom(pricing, maxSize, items, current, size);
    assert [x] + items[1..] == items;
    assert gs == [current] + rest;
    assert gs[1..] == rest;
    assert Flatten(gs) == current + Flatten(rest);
    assert rest[0][..1] == [x];
    assert rest[0][0] == x;
    assert forall i :: 0 < i < |gs| ==> gs[i] == rest[i - 1];
    forall i | 0 <= i < |gs| - 1
      ensures TotalCost(pricing, gs[i]) + Cost(pricing, gs[i + 1][0]) > maxSize
    {
      if i > 0 {
        assert gs[i] == rest[i - 1] && gs[i + 1] == rest[i];
      }
    }
    assert gs[0][..|current|] == current;
  }

  /** The step that appends the next item to the buffer. */
  lemma AppendStep(pricing: Pricing, maxSize: int, items: seq<string>, current: seq<string>, size: nat)
    requires BufferOk(pricing, maxSize, current, size)
    requires |items| > 0 && !(size + Cost(pricing, items[0]) > maxSize && |current| > 0)
    requires PacksAfter(pricing, maxSize, current + [items[0]], items[1..],
      PackFrom(pricing, maxSize, items[1..], current + [items[0]], size + Cost(pricing, items[0])))
    ensures PacksAfter(pricing, maxSize, current, items, PackFrom(pricing, maxSize, items, current, size))
  {
    var next := current + [items[0]];
    var gs := PackFrom(pricing, maxSize, items, current, size);
    assert next + items[1..] == current + items;
    assert gs[0][..|next|][..|current|] == gs[0][..|current|];
    assert next[..|current|] == current;
  }

  /** The packing both chunkers compute: the greedy packing of `items`. */
  function PackAll(pricing: Pricing, maxSize: int, items: seq<string>): (groups: seq<seq<string>>)
    ensures IsGreedyPacking(pricing, maxSize, items, groups)
    ensures |groups| == 0 <==> |items| == 0
  {
    PackFromGreedy(pricing, maxSize, items, [], 0);
    assert [] + items == items;
    var groups := PackFrom(pricing, maxSize, items, [], 0);
    GreedyPackingEmpty(pricing, maxSize, items, groups);
    groups
  }

  /** A greedy packing has no groups exactly when there is nothing to pack, and never
      more groups than items. */
  lemma {:induction false} GreedyPackingEmpty(
    pricing: Pricing, maxSize: int, items: seq<string>, groups: seq<seq<string>>)
    requires IsGreedyPacking(pricing, maxSize, items, groups)
    ensures |groups| == 0 <==> |items| == 0
    ensures |groups| <= |items|
  {
    FlattenLength(groups);
  }

  lemma {:induction false} FlattenLength(groups: seq<seq<string>>)
    requires forall i :: 0 <= i < |groups| ==> |groups[i]| > 0
    ensures |groups| <= |Flatten(groups)|
    ensures |groups| > 0 ==> |Flatten(groups)| > 0
    decreases |groups|
  {
    if |groups| > 0 {
      FlattenLength(groups[1..]);
    }
  }

  // ---------------------------------------------------------------------------
  // Uniqueness: the greedy packing of a list is determined by the list
  // ---------------------------------------------------------------------------

  lemma {:induction false} TotalCostPrefix(pricing: Pricing, g: seq<string>, j: nat)
    requires j <= |g|
    ensures TotalCost(pricing, g[..j]) <= TotalCost(pricing, g)
  {
    TotalCostAppend(pricing, g[..j], g[j..]);
    assert g[..j] + g[j..] == g;
  }

  lemma {:induction false} FlattenStartsWithHead(groups: seq<seq<string>>)
    requires |groups| > 0
    ensures Flatten(groups) == groups[0] + Flatten(groups[1..])
  {
  }

  /** If a greedy packing's first group is strictly shorter than `n` items of the list,
      the second group starts right after it. */
  lemma FirstGroupBoundary(pricing: Pricing, maxSize: int, items: seq<string>, gs: seq<seq<string>>, n: nat)
    requires IsGreedyPacking(pricing, maxSize, items, gs)
    requires |gs| > 0 && |gs[0]| < n <= |items|
    ensures |gs| > 1 && |gs[0]| < |items| && gs[1][0] == items[|gs[0]|]
  {
    FlattenStartsWithHead(gs);
    assert |gs| > 1;
    FlattenStartsWithHead(gs[1..]);
    assert gs[1..][0] == gs[1];
    assert items == gs[0] + (gs[1] + Flatten(gs[2..]));
    assert items[|gs[0]|] == gs[1][0];
  }

  /** A greedy packing is unique, so `PackAll` is the only one. */
  lemma {:induction false} GreedyPackingUnique(
    pricing: Pricing, maxSize: int, items: seq<string>, g1: seq<seq<string>>, g2: seq<seq<string>>)
    requires IsGreedyPacking(pricing, maxSize, items, g1)
    requires IsGreedyPacking(pricing, maxSize, items, g2)
    ensures g1 == g2
    decreases |items|
  {
    if |g1| == 0 || |g2| == 0 {
      if |g1| > 0 {
        FlattenStartsWithHead(g1);
      }
      if |g2| > 0 {
        FlattenStartsWithHead(g2);
      }
    } else {
      FlattenStartsWithHead(g1);
      FlattenStartsWithHead(g2);
      var a, b := g1[0], g2[0];
      assert a == items[..|a|] && b == items[..|b|];
      NoShorterFirstGroup(pricing, maxSize, items, g1, g2);
      NoShorterFirstGroup(pricing, maxSize, items, g2, g1);
      assert a == b;
      var rest := items[|a|..];
      assert Flatten(g1[1..]) == rest && Flatten(g2[1..]) == rest;
      RestIsGreedy(pricing, maxSize, items, g1);
      RestIsGreedy(pricing, maxSize, items, g2);
      GreedyPackingUnique(pricing, maxSize, rest, g1[1..], g2[1..]);
      assert g1 == [g1[0]] + g1[1..] && g2 == [g2[0]] + g2[1..];
    }
  }

  /** The first group of one greedy packing cannot be shorter than that of another. */
  lemma NoShorterFirstGroup(
    pricing: Pricing, maxSize: int, items: seq<string>, g1: seq<seq<string>>, g2: seq<seq<string>>)
    requires IsGreedyPacking(pricing, maxSize, items, g1)
    requires IsGreedyPacking(pricing, maxSize, items, g2)
    requires |g1| > 0 && |g2| > 0
    ensures |g2[0]| <= |g1[0]|
  {
    FlattenStartsWithHead(g1);
    FlattenStartsWithHead(g2);
    var a, b := g1[0], g2[0];
    assert a == items[..|a|] && b == items[..|b|];
    if |a| < |b| {
      FirstGroupBoundary(pricing, maxSize, items, g1, |b|);
      var k := |a|;
      assert b[..k + 1] == a + [g1[1][0]];
      TotalCostAppend(pricing, a, [g1[1][0]]);
      TotalCostPrefix(pricing, b, k + 1);
      assert false;
    }
  }

  lemma RestIsGreedy(pricing: Pricing, maxSize: int, items: seq<string>, gs: seq<seq<string>>)
    requires IsGreedyPacking(pricing, maxSize, items, gs)
    requires |gs| > 0
    ensures |gs[0]| <= |items|
    ensures IsGreedyPacking(pricing, maxSize, items[|gs[0]|..], gs[1..])
  {
    FlattenStartsWithHead(gs);
    assert items[|gs[0]|..] == Flatten(gs[1..]);
    forall i | 0 <= i < |gs[1..]| - 1
      ensures TotalCost(pricing, gs[1..][i]) + Cost(pricing, gs[1..][i + 1][0]) > maxSize
    {
      assert gs[1..][i] == gs[i + 1] && gs[1..][i + 1] == gs[i + 2];
    }
  }

  // ---------------------------------------------------------------------------
  // Chunk lists
  // ---------------------------------------------------------------------------

  /** The chunks hold, in order, the newline joins of the groups of a greedy packing of the items. */
  ghost predicate PacksAs(pricing: Pricing, maxSize: int, items: seq<string>, chunks: seq<Chunk>) {
    exists groups :: IsGreedyPacking(pricing, maxSize, items, groups)
      && |groups| == |chunks|
      && (forall i :: 0 <= i < |chunks| ==> chunks[i].code == Join(groups[i], "\n"))
  }

  function Codes(chunks: seq<Chunk>): (codes: seq<string>)
    ensures |codes| == |chunks|
    ensures forall i :: 0 <= i < |chunks| ==> codes[i] == chunks[i].code
  {
    seq(|chunks|, i requires 0 <= i < |chunks| => chunks[i].code)
  }

  function JoinEach(groups: seq<seq<string>>, sep: string): (r: seq<string>)
    ensures |r| == |groups|
    ensures forall i :: 0 <= i < |groups| ==> r[i] == Join(groups[i], sep)
  {
    seq(|groups|, i requires 0 <= i < |groups| => Join(groups[i], sep))
  }

  /** Joining the joins of non-empty groups is joining their concatenation. */
  lemma {:induction false} JoinFlatten(groups: seq<seq<string>>, sep: string)
    requires forall i :: 0 <= i < |groups| ==> |groups[i]| > 0
    ensures Join(JoinEach(groups, sep), sep) == Join(Flatten(groups), sep)
    decreases |groups|
  {
    if |groups| > 1 {
      JoinFlatten(groups[1..], sep);
      assert JoinEach(groups, sep)[1..] == JoinEach(groups[1..], sep);
      FlattenNonEmpty(groups[1..]);
      JoinAppend(groups[0], Flatten(groups[1..]), sep);
    } else if |groups| == 1 {
      assert Flatten(groups) == groups[0] + Flatten([]);
      assert groups[0] + [] == groups[0];
    }
  }

  lemma FlattenNonEmpty(groups: seq<seq<string>>)
    requires |groups| > 0 && |groups[0]| > 0
    ensures |Flatten(groups)| > 0
  {
  }

  /** Every item of every group is an item of the flattened list. */
  lemma {:induction false} FlattenMembers(groups: seq<seq<string>>)
    ensures forall i, j :: 0 <= i < |groups| && 0 <= j < |groups[i]| ==> groups[i][j] in Flatten(groups)
    decreases |groups|
  {
    if |groups| > 0 {
      FlattenMembers(groups[1..]);
      assert forall i :: 0 < i < |groups| ==> groups[i] == groups[1..][i - 1];
    }
  }

  /** `'.js'` when the lower-cased language is `javascript`, `'.py'` otherwise. */
  function Extension(language: string): (ext: string)
    ensures ext == ".js" || ext == ".py"
    ensures ext == ".js" <==> Lower(language) == "javascript"
  {
    if Lower(language) == "javascript" then ".js" else ".py"
  }

  function LineCount(code: string): (n: nat)
    ensures n == Occurrences(code, '\n') + 1
  {
    SplitCount(code, '\n');
    |Split(code, '\n')|
  }

  /** `create_single_chunk`: the whole text as one chunk. */
  function CreateSingleChunk(code: string, language: string): (chunk: Chunk)
    ensures chunk.code == code && chunk.context.language == language
    ensures chunk.context.totalLines == Occurrences(code, '\n') + 1
    ensures chunk.context.fileName == "unnamed_code.js" <==> Lower(language) == "javascript"
    ensures chunk.context.fileName == "unnamed_code.js" || chunk.context.fileName == "unnamed_code.py"
  {
    var name := "unnamed_code" + Extension(language);
    assert name[|name| - 2] == Extension(language)[1];
    Chunk(code, ChunkContext(name, LineCount(code), language))
  }

  /** `chunk_code_simple`: greedy packing of the lines, each line costing its length plus one. */
  function ChunkCodeSimple(code: string, language: string, maxSize: int): (chunks: seq<Chunk>)
    ensures |chunks| >= 1
    ensures Join(Codes(chunks), "\n") == code
    ensures PacksAs(PerLine, maxSize, Split(code, '\n'), chunks)
    ensures forall i :: 0 <= i < |chunks| ==>
      && chunks[i].context.totalLines == Occurrences(chunks[i].code, '\n') + 1
      && chunks[i].context.fileName == "unnamed_code" + Extension(language)
      && chunks[i].context.language == language
    ensures forall i :: 0 <= i < |chunks| && chunks[i].context.totalLines >= 2 ==>
      |chunks[i].code| + 1 <= maxSize
    ensures code == "" ==> chunks == [Chunk("", ChunkContext("unnamed_code" + Extension(language), 1, language))]
  {
    var lines := Split(code, '\n');
    var groups := PackAll(PerLine, maxSize, lines);
    var fileName := "unnamed_code" + Extension(language);
    var chunks := seq(|groups|, i requires 0 <= i < |groups| =>
      Chunk(Join(groups[i], "\n"), ChunkContext(fileName, |groups[i]|, language)));
    SimpleChunksFacts(code, maxSize, groups, chunks);
    chunks
  }

  lemma SimpleChunksFacts(code: string, maxSize: int, groups: seq<seq<string>>, chunks: seq<Chunk>)
    requires IsGreedyPacking(PerLine, maxSize, Split(code, '\n'), groups)
    requires |chunks| == |groups|
    requires forall i :: 0 <= i < |chunks| ==>
      chunks[i].code == Join(groups[i], "\n") && chunks[i].context.totalLines == |groups[i]|
    ensures |chunks| >= 1
    ensures Join(Codes(chunks), "\n") == code
    ensures forall i :: 0 <= i < |chunks| ==> chunks[i].context.totalLines == Occurrences(chunks[i].code, '\n') + 1
    ensures forall i :: 0 <= i < |chunks| && chunks[i].context.totalLines >= 2 ==> |chunks[i].code| + 1 <= maxSize
    ensures code == "" ==> |chunks| == 1 && chunks[0].code == "" && chunks[0].context.totalLines == 1
  {
    var lines := Split(code, '\n');
    GreedyPackingEmpty(PerLine, maxSize, lines, groups);
    assert Codes(chunks) == JoinEach(groups, "\n");
    JoinFlatten(groups, "\n");
    SplitJoin(code, '\n');
    SplitPiecesFree(code, '\n');
    FlattenMembers(groups);
    forall i | 0 <= i < |chunks|
      ensures chunks[i].context.totalLines == Occurrences(chunks[i].code, '\n') + 1
      ensures chunks[i].context.totalLines >= 2 ==> |chunks[i].code| + 1 <= maxSize
    {
      forall j | 0 <= j < |groups[i]|
        ensures '\n' !in groups[i][j]
      {
        var x := groups[i][j];
        assert x in lines;
        var k :| 0 <= k < |lines| && lines[k] == x;
      }
      JoinLineCount(groups[i], '\n');
      LineCostIsLength(groups[i]);
    }
    if code == "" {
      assert lines == [""];
      assert |groups| == 1;
      FlattenStartsWithHead(groups);
      assert groups[0] + Flatten(groups[1..]) == [""];
      assert groups[0] == [""];
    }
  }

  /** The cost of a group of lines is the length of the lines joined by newlines, plus one. */
  lemma {:induction false} LineCostIsLength(g: seq<string>)
    requires |g| >= 1
    ensures TotalCost(PerLine, g) == |Join(g, "\n")| + 1
    decreases |g|
  {
    if |g| > 1 {
      LineCostIsLength(g[1..]);
    }
  }

  /** The definition-level cost of a group is its joined length less the joining newlines. */
  lemma {:induction false} DefinitionCostIsLength(g: seq<string>)
    requires |g| >= 1
    ensures TotalCost(PerDefinition, g) + |g| - 1 == |Join(g, "\n")|
    decreases |g|
  {
    if |g| > 1 {
      DefinitionCostIsLength(g[1..]);
    }
  }

  /** `chunk_python_code` over the definition texts the parser produced. */
  function ChunkPython(code: string, definitions: seq<string>, maxSize: int): (chunks: seq<Chunk>)
    ensures |chunks| >= 1
    ensures |definitions| == 0 ==> chunks == [CreateSingleChunk(code, "python")]
    ensures |definitions| > 0 ==> Join(Codes(chunks), "\n") == Join(definitions, "\n")
    ensures |definitions| > 0 ==> PacksAs(PerDefinition, maxSize, definitions, chunks)
    ensures forall i :: 0 <= i < |chunks| ==>
      && chunks[i].context.fileName == "unnamed_code.py"
      && chunks[i].context.language == "python"
      && chunks[i].context.totalLines == Occurrences(chunks[i].code, '\n') + 1
  {
    var groups := PackAll(PerDefinition, maxSize, definitions);
    if |groups| == 0 then
      LowerOfLowerCase("python");
      assert "python" != "javascript";
      [CreateSingleChunk(code, "python")]
    else
      var chunks := seq(|groups|, i requires 0 <= i < |groups| =>
        var text := Join(groups[i], "\n");
        Chunk(text, ChunkContext("unnamed_code.py", LineCount(text), "python")));
      assert Codes(chunks) == JoinEach(groups, "\n");
      JoinFlatten(groups, "\n");
      chunks
  }

  /** A chunk of two or more definitions has a total definition length within `maxSize`;
      the newlines joining them are not counted. */
  lemma PythonChunkFits(definitions: seq<string>, maxSize: int, i: nat)
    requires |definitions| > 0
    requires i < |PackAll(PerDefinition, maxSize, definitions)|
    requires |PackAll(PerDefinition, maxSize, definitions)[i]| >= 2
    ensures var g := PackAll(PerDefinition, maxSize, definitions)[i];
      ChunkPython("", definitions, maxSize)[i].code == Join(g, "\n")
      && |Join(g, "\n")| - (|g| - 1) <= maxSize
  {
    var g := PackAll(PerDefinition, maxSize, definitions)[i];
    DefinitionCostIsLength(g);
  }

  /** `chunk_javascript_code` over the blocks the patterns matched. */
  function ChunkJavaScript(code: string, blocks: seq<string>): (chunks: seq<Chunk>)
    ensures |chunks| >= 1
    ensures forall i :: 0 <= i < |chunks| ==>
      chunks[i].context.fileName == "unnamed_code.js" && chunks[i].context.language == "javascript"
    ensures |blocks| == 0 ==> chunks == [CreateSingleChunk(code, "javascript")]
    ensures |blocks| > 0 ==> |chunks| == |blocks|
    ensures |blocks| > 0 ==> forall i :: 0 <= i < |blocks| ==>
      chunks[i] == Chunk(blocks[i], ChunkContext("unnamed_code.js", Occurrences(blocks[i], '\n') + 1, "javascript"))
  {
    if |blocks| == 0 then
      LowerOfLowerCase("javascript");
      [CreateSingleChunk(code, "javascript")]
    else
      seq(|blocks|, i requires 0 <= i < |blocks| =>
        Chunk(blocks[i], ChunkContext("unnamed_code.js", LineCount(blocks[i]), "javascript")))
  }

  /** The non-JavaScript route of `process_code_string`: the definition chunker over the
      parsed definitions, or line chunking when parsing raised. */
  function ChunkParsed(syntax: SyntaxReport, language: string, maxSize: int): (chunks: seq<Chunk>)
    ensures |chunks| >= 1
    ensures syntax.pyDefinitions.Some? ==> forall i :: 0 <= i < |chunks| ==>
      chunks[i].context.fileName == "unnamed_code.py" && chunks[i].context.language == "python"
    ensures syntax.pyDefinitions == Some([]) ==> chunks == [CreateSingleChunk(syntax.sanitized, "python")]
    ensures syntax.pyDefinitions.Some? && |syntax.pyDefinitions.value| > 0 ==>
      var definitions := syntax.pyDefinitions.value;
      Join(Codes(chunks), "\n") == Join(definitions, "\n") &&
      PacksAs(PerDefinition, maxSize, definitions, chunks)
    ensures syntax.pyDefinitions.None? ==>
      && Join(Codes(chunks), "\n") == syntax.sanitized
      && PacksAs(PerLine, maxSize, Split(syntax.sanitized, '\n'), chunks)
      && forall i :: 0 <= i < |chunks| ==>
        chunks[i].context.fileName == "unnamed_code" + Extension(language) && chunks[i].context.language == language
  {
    match syntax.pyDefinitions
    case Some(definitions) => ChunkPython(syntax.sanitized, definitions, maxSize)
    case None => ChunkCodeSimple(syntax.sanitized, language, maxSize)
  }

  /** `process_code_string`: JavaScript goes to the pattern chunker; every other language
      goes to the definition chunker, and a parse failure falls back to line chunking. */
  function ProcessCodeString(syntax: SyntaxReport, language: string, maxSize: int): (chunks: seq<Chunk>)
    ensures |chunks| >= 1
    ensures Lower(language) == "javascript" ==>
      && (forall i :: 0 <= i < |chunks| ==>
            chunks[i].context.fileName == "unnamed_code.js" && chunks[i].context.language == "javascript")
      && (|syntax.jsBlocks| == 0 ==> chunks == [CreateSingleChunk(syntax.sanitized, "javascript")])
      && (|syntax.jsBlocks| > 0 ==> Codes(chunks) == syntax.jsBlocks)
    ensures Lower(language) != "javascript" && syntax.pyDefinitions.Some? ==>
      && (forall i :: 0 <= i < |chunks| ==>
            chunks[i].context.fileName == "unnamed_code.py" && chunks[i].context.language == "python")
      && (syntax.pyDefinitions.value == [] ==> chunks == [CreateSingleChunk(syntax.sanitized, "python")])
      && (syntax.pyDefinitions.value != [] ==>
            Join(Codes(chunks), "\n") == Join(syntax.pyDefinitions.value, "\n") &&
            PacksAs(PerDefinition, maxSize, syntax.pyDefinitions.value, chunks))
    ensures Lower(language) != "javascript" && syntax.pyDefinitions.None? ==>
      && Join(Codes(chunks), "\n") == syntax.sanitized
      && PacksAs(PerLine, maxSize, Split(syntax.sanitized, '\n'), chunks)
      && forall i :: 0 <= i < |chunks| ==>
        chunks[i].context.fileName == "unnamed_code.py" && chunks[i].context.language == language
  {
    if Lower(language) == "javascript" then ChunkJavaScript(syntax.sanitized, syntax.jsBlocks)
    else
      assert Extension(language) == ".py";
      assert "unnamed_code" + Extension(language) == "unnamed_code.py";
      ChunkParsed(syntax, language, maxSize)
  }
}

=== FILE: text.dfy ===
/** The string operations the analyzer uses, with Python's and JavaScript's meaning:
    `sep.join`, `str.split(ch)`, `str.lower()` (on ASCII), substring tests, JS `trim()`,
    and decimal rendering of a status code.
 */
module Text {

  /** Python's `sep.join(parts)`. */
  function Join(parts: seq<string>, sep: string): string
    decreases |parts|
  {
    if |parts| == 0 then ""
    else if |parts| == 1 then parts[0]
    else parts[0] + sep + Join(parts[1..], sep)
  }

  /** Joining two non-empty lists is joining their joins. */
  lemma {:induction false} JoinAppend(a: seq<string>, b: seq<string>, sep: string)
    requires |a| > 0 && |b| > 0
    ensures Join(a + b, sep) == Join(a, sep) + sep + Join(b, sep)
    decreases |a|
  {
    if |a| == 1 {
      assert (a + b)[1..] == b;
    } else {
      assert (a + b)[1..] == a[1..] + b;
      JoinAppend(a[1..], b, sep);
    }
  }

  /** Python's `s.split(c)` for a one-character separator: the pieces between separators,
      always at least one (`"".split(c) == [""]`). */
  function Split(s: string, c: char): (parts: seq<string>)
    ensures |parts| >= 1
    decreases |s|
  {
    if |s| == 0 then [""]
    else
      var rest := Split(s[1..], c);
      if s[0] == c then [""] + rest
      else [[s[0]] + rest[0]] + rest[1..]
  }

  /** Number of occurrences of `c` in `s`. */
  function Occurrences(s: string, c: char): nat
    decreases |s|
  {
    if |s| == 0 then 0
    else (if s[0] == c then 1 else 0) + Occurrences(s[1..], c)
  }

  lemma {:induction false} OccurrencesAppend(a: string, b: string, c: char)
    ensures Occurrences(a + b, c) == Occurrences(a, c) + Occurrences(b, c)
    decreases |a|
  {
    if |a| == 0 {
      assert a + b == b;
    } else {
      assert (a + b)[1..] == a[1..] + b;
      OccurrencesAppend(a[1..], b, c);
    }
  }

  lemma OccurrencesAbsent(s: string, c: char)
    requires c !in s
    ensures Occurrences(s, c) == 0
    decreases |s|
  {
    if |s| > 0 {
      assert s[0] in s;
      assert forall x :: x in s[1..] ==> x in s;
      OccurrencesAbsent(s[1..], c);
    }
  }

  /** Splitting and joining back on the same separator gives the original text. */
  lemma {:induction false} SplitJoin(s: string, c: char)
    ensures Join(Split(s, c), [c]) == s
    decreases |s|
  {
    if |s| > 0 {
      var rest := Split(s[1..], c);
      SplitJoin(s[1..], c);
      if s[0] == c {
        assert ([""] + rest)[1..] == rest;
      } else {
        var parts := [[s[0]] + rest[0]] + rest[1..];
        if |rest| == 1 {
          assert parts == [[s[0]] + rest[0]];
        } else {
          assert parts[1..] == rest[1..];
          assert Join(rest, [c]) == rest[0] + [c] + Join(rest[1..], [c]);
        }
      }
    }
  }

  /** No piece of a split contains the separator. */
  lemma {:induction false} SplitPiecesFree(s: string, c: char)
    ensures forall i :: 0 <= i < |Split(s, c)| ==> c !in Split(s, c)[i]
    decreases |s|
  {
    if |s| > 0 {
      SplitPiecesFree(s[1..], c);
    }
  }

  /** A split has one more piece than the text has separators. */
  lemma {:induction false} SplitCount(s: string, c: char)
    ensures |Split(s, c)| == Occurrences(s, c) + 1
    decreases |s|
  {
    if |s| > 0 {
      SplitCount(s[1..], c);
    }
  }

  /** Splitting text that starts with a separator-free piece `a`. */
  lemma {:induction false} SplitAfterPiece(a: string, b: string, c: char)
    requires c !in a
    ensures Split(a + [c] + b, c) == [a] + Split(b, c)
    decreases |a|
  {
    if |a| == 0 {
      assert a + [c] + b == [c] + b;
      assert ([c] + b)[1..] == b;
    } else {
      var s := a + [c] + b;
      assert s[0] == a[0];
      assert s[1..] == a[1..] + [c] + b;
      assert a[0] in a;
      assert forall x :: x in a[1..] ==> x in a;
      SplitAfterPiece(a[1..], b, c);
      assert [a[0]] + a[1..] == a;
    }
  }

  /** Splitting a separator-free text gives just that text. */
  lemma {:induction false} SplitFree(a: string, c: char)
    requires c !in a
    ensures Split(a, c) == [a]
    decreases |a|
  {
    if |a| > 0 {
      assert a[0] in a;
      assert forall x :: x in a[1..] ==> x in a;
      SplitFree(a[1..], c);
      assert [a[0]] + a[1..] == a;
    }
  }

  /** Joining separator-free pieces and splitting again gives back the pieces. */
  lemma {:induction false} JoinSplit(parts: seq<string>, c: char)
    requires |parts| >= 1
    requires forall i :: 0 <= i < |parts| ==> c !in parts[i]
    ensures Split(Join(parts, [c]), c) == parts
    decreases |parts|
  {
    if |parts| == 1 {
      SplitFree(parts[0], c);
    } else {
      JoinSplit(parts[1..], c);
      SplitAfterPiece(parts[0], Join(parts[1..], [c]), c);
    }
  }

  /** The line count of a join of newline-free pieces is the number of pieces. */
  lemma JoinLineCount(parts: seq<string>, c: char)
    requires |parts| >= 1
    requires forall i :: 0 <= i < |parts| ==> c !in parts[i]
    ensures Occurrences(Join(parts, [c]), c) + 1 == |parts|
  {
    JoinSplit(parts, c);
    SplitCount(Join(parts, [c]), c);
  }

  /** Python's `str.lower()` restricted to ASCII letters. */
  function LowerChar(ch: char): char {
    if 'A' <= ch <= 'Z' then (ch as int + 32) as char else ch
  }

  function Lower(s: string): (r: string)
    ensures |r| == |s|
    ensures forall i :: 0 <= i < |s| ==> r[i] == LowerChar(s[i])
  {
    seq(|s|, i requires 0 <= i < |s| => LowerChar(s[i]))
  }

  /** Text without upper-case ASCII letters is its own lower case. */
  lemma LowerOfLowerCase(s: string)
    requires forall i :: 0 <= i < |s| ==> !('A' <= s[i] <= 'Z')
    ensures Lower(s) == s
  {
  }

  /** `s.startswith(p)` / `s.startsWith(p)`. */
  predicate StartsWith(s: string, p: string) {
    |p| <= |s| && s[..|p|] == p
  }

  /** `sub in s` / `s.includes(sub)`. */
  predicate Contains(s: string, sub: string)
    decreases |s|
  {
    StartsWith(s, sub) || (|s| > 0 && Contains(s[1..], sub))
  }

  /** A match cannot start inside a prefix lacking the pattern's first character. */
  lemma {:induction false} ContainsPastAbsent(a: string, b: string, w: string)
    requires |w| > 0 && w[0] !in a
    ensures Contains(a + b, w) <==> Contains(b, w)
    decreases |a|
  {
    if |a| == 0 {
      assert a + b == b;
    } else {
      assert (a + b)[0] == a[0];
      assert (a + b)[1..] == a[1..] + b;
      ContainsPastAbsent(a[1..], b, w);
    }
  }

  /** Where the pattern does not start, the search moves one character on. */
  lemma ContainsSkip(s: string, w: string)
    requires |s| > 0 && !StartsWith(s, w)
    ensures Contains(s, w) <==> Contains(s[1..], w)
  {
  }

  /** A text lacking any one character of the pattern does not contain it. */
  lemma {:induction false} ContainsNeedsChar(s: string, w: string, i: nat)
    requires i < |w| && w[i] !in s
    ensures !Contains(s, w)
    decreases |s|
  {
    if |s| > 0 {
      ContainsNeedsChar(s[1..], w, i);
    }
  }

  /** A match in a suffix is a match in the whole. */
  lemma {:induction false} ContainsInSuffix(a: string, b: string, w: string)
    requires Contains(b, w)
    ensures Contains(a + b, w)
    decreases |a|
  {
    if |a| == 0 {
      assert a + b == b;
    } else {
      assert (a + b)[1..] == a[1..] + b;
      ContainsInSuffix(a[1..], b, w);
    }
  }

  /** The characters JavaScript's `trim()` removes: WhiteSpace and LineTerminator. */
  predicate IsJsSpace(ch: char) {
    || ch == '\t' || ch == '\U{B}' || ch == '\U{C}' || ch == ' ' || ch == '\U{A0}'
    || ch == '\U{FEFF}' || ch == '\U{1680}' || ('\U{2000}' <= ch <= '\U{200A}')
    || ch == '\U{202F}' || ch == '\U{205F}' || ch == '\U{3000}'
    || ch == '\n' || ch == '\r' || ch == '\U{2028}' || ch == '\U{2029}'
  }

  function TrimStart(s: string): (r: string)
    ensures |r| <= |s| && r == s[|s| - |r|..]
    ensures |r| > 0 ==> !IsJsSpace(r[0])
    decreases |s|
  {
    if |s| > 0 && IsJsSpace(s[0]) then TrimStart(s[1..]) else s
  }

  function TrimEnd(s: string): (r: string)
    ensures |r| <= |s| && r == s[..|r|]
    ensures |r| > 0 ==> !IsJsSpace(r[|r| - 1])
    decreases |s|
  {
    if |s| > 0 && IsJsSpace(s[|s| - 1]) then TrimEnd(s[..|s| - 1]) else s
  }

  /** JavaScript's `s.trim()`. */
  function Trim(s: string): string {
    TrimEnd(TrimStart(s))
  }

  /** Decimal digits of `n`, as JavaScript renders a status number inside a template. */
  function Decimal(n: nat): (r: string)
    ensures |r| >= 1
    ensures forall i :: 0 <= i < |r| ==> '0' <= r[i] <= '9'
    decreases n
  {
    var d := ['0' + (n % 10) as char];
    if n < 10 then d else Decimal(n / 10) + d
  }
}

/** Integer helpers for the backoff schedules. */
module Numeric {

  function Pow2(k: nat): (r: nat)
    ensures r >= 1
  {
    if k == 0 then 1 else 2 * Pow2(k - 1)
  }

  /** The total of a list of delays. */
  function Sum(xs: seq<nat>): nat {
    if |xs| == 0 then 0 else Sum(xs[..|xs| - 1]) + xs[|xs| - 1]
  }
}
